=== FILE: README.md ===
# Conflict and price econometrics pipeline: verified model of its decision logic

The Econometrics scripts study how conflict intensity moves commodity prices
across markets split between two exchange-rate regimes. Their statistics
come from libraries: ADF/KPSS, Engle-Granger, VECM fitting and its
diagnostics, KMeans, KNN, VIF, Ridge and Moran's I. This project models the
logic the scripts wrap around those calls. Each library call is an oracle:
a function-typed parameter or a field of plain reals, labels and index lists.

The modules follow the stages of the pipeline:

* `Common`: shared values. These are numbers that may be NaN or infinite,
  `Option`/`Result`, and the constants `MIN_OBSERVATIONS = 30`,
  `ECM_LAGS = 2`, `COINTEGRATION_MAX_LAGS = 12` and the 0.05 significance
  level.
* `Regimes` (`1_Fetch_and_Prepare_Data.py`): market ids, the ensure/validate
  column checks, the Unified/Split threshold labelling, the North/South
  relabelling via the Aden cluster, per-admin2 conflict lags, and the
  (commodity, regime) group acceptance rule in `main`.
* `Stationarity`: the transformation selector. The candidate order is
  original, diff, then log and log_diff for strictly positive series. The
  first candidate with ADF p < 0.05 and KPSS p > 0.05 wins, and `original`
  is the fallback. It is written as a loop with `break`, proved against a
  recursive specification.
* `Cointegration`: the Engle-Granger gate, in the newer variant (row-wise NaN
  drop) and the older one (no drop).
* `EcmEstimation`: the lag clamp, the integer parameter counts behind AIC,
  and the Granger lag cap, each in both script variants.
* `EcmPipeline` and `EcmLegacy`: the per-unit gates, skip rules,
  diagnostics records and the five (or two) accumulator lists of
  `run_ecm_analysis`, plus the `main` loops that fill the stationarity and
  cointegration maps.
* `Consolidation`: `save_results`' commodity → regime map with its eight
  guaranteed fields, and `create_summary_report`.
* `Serialization`: Python dictionaries as insertion-ordered association
  lists, and the recursive normalisers `make_serializable` and
  `convert_keys`.
* `MarketPairs` (`3_Price_Diffrential_Analysis.py`): `prepare_market_data`,
  the common-date gate, the high-VIF column replacement, the zero-variance
  gate and the construction of the pair arguments.
* `Spatial` (`4_Spatial_Analysis.py`, `4_Spatial_Analysis_old.py`): the
  GeoJSON column rules, the persistent name → id map, the region-id
  cascade, the observation gate, the work cross product, and the weights
  dictionary and flow list.
* `ChartExport` (`5_data_prepration_for_spatial_chart.py`): residual
  flattening, the spatial-weights remap and the network edge list, whose
  frame is a class because the script adds a column to it in place.
* `OutputMapping` (`Output_Mapping.py`): `map_json_structure` over a JSON
  datatype, and the header → type loop of `map_csv_structure`.

Where the scripts update state step by step, the model is a method with
loop invariants. Examples are the stationarity loop, the accumulator loops,
the consolidation loop, the VIF loop, the id-assignment loop, the weights
and flow loops, and the in-place regime column, which is an `array`. Each
such method's `ensures` ties its result to a specification function, and
lemmas state what that function means.

Three facts about the scripts shape the model:

* The KNN weights use a fixed k. There is no loop that repairs a
  disconnected weights graph.
* A candidate whose stationarity test throws gets no audit entry.
* The newer script's `dropna()` on line 212 does not do what it evidently
  means; see Findings.

## Model

| member | source | states |
|---|---|---|
| Stationarity.RecordOf | Econometrics/5_data_prepration_for_spatial_chart_new.py:98-111 | a candidate's record marks ADF stationary iff its p-value is below 0.05, and KPSS stationary iff its p-value is above 0.05 |
| Stationarity.Differences | Econometrics/5_data_prepration_for_spatial_chart_new.py:88 | `diff().dropna()` has one value fewer than the series, and each value is the step between neighbours |
| Stationarity.MapLog | Econometrics/5_data_prepration_for_spatial_chart_new.py:90 | the log candidate keeps the series length and applies the logarithm pointwise |
| Stationarity.FirstQualifying | Econometrics/5_data_prepration_for_spatial_chart_new.py:112-114 | the index found is the first qualifying candidate: none before it qualifies, and it qualifies when it is in range |
| Stationarity.ScanSpec | Econometrics/5_data_prepration_for_spatial_chart_new.py:94-116 | the loop selects the first qualifying candidate; the audit map holds exactly the evaluated candidates whose tests did not throw, each with its own record |
| Stationarity.Classify | Econometrics/5_data_prepration_for_spatial_chart_new.py:85-87 | there is no result exactly when some value is NaN or infinite |
| Stationarity.ScanCandidates | Econometrics/5_data_prepration_for_spatial_chart_new.py:94-116 | the candidate loop with `break` leaves the selection and the audit records its specification defines |
| Stationarity.RunStationarityTests | Econometrics/5_data_prepration_for_spatial_chart_new.py:80-124 | the loop with `break` returns the classification its specification defines |
| Stationarity.SelectionIsACandidate | Econometrics/5_data_prepration_for_spatial_chart_new.py:117-122 | for a clean series, the chosen transformation is one of the candidates, and the returned series is that candidate's values |
| Stationarity.FirstQualifyingIsSelected | Econometrics/5_data_prepration_for_spatial_chart_new.py:112-114 | the first qualifying candidate is selected, and no later candidate has a results entry |
| Stationarity.NoneQualifiesFallsBackToOriginal | Econometrics/5_data_prepration_for_spatial_chart_new.py:117-119 | when no candidate qualifies, `original` and the untouched series are returned, and every non-throwing candidate was evaluated |
| Stationarity.ThrowingCandidateHasNoEntry | Econometrics/5_data_prepration_for_spatial_chart_new.py:115-116 | a candidate whose tests throw has no results entry |
| Stationarity.NoLogUnlessPositive | Econometrics/5_data_prepration_for_spatial_chart_new.py:89-91 | a series with a non-positive value never tries log or log_diff, and selects original or diff |
| Stationarity.StationaryOriginalShortCircuits | Econometrics/5_data_prepration_for_spatial_chart_new.py:88-114 | when the original series qualifies, it is selected and is the only candidate evaluated |
| Cointegration.DropNaRows | Econometrics/5_data_prepration_for_spatial_chart_new.py:131 | the aligned frame keeps exactly the rows without NaN, drawn from the input, and is no longer than it |
| Cointegration.DropNaRowsAppend | Econometrics/5_data_prepration_for_spatial_chart_new.py:131 | `dropna` works row by row: on two blocks it is the drop of the first followed by the drop of the second, and one row stays exactly when it holds no NaN, so rows keep their order and number of copies |
| Cointegration.DropNaRowsKeepsCleanRows | Econometrics/5_data_prepration_for_spatial_chart_new.py:131 | dropping NaN rows from clean data changes nothing |
| Cointegration.RunCointegrationTests | Econometrics/5_data_prepration_for_spatial_chart_new.py:126-154 | a result exists iff at least 2 clean rows remain and the test succeeds; `cointegrated` iff p < 0.05; rho and both transformations are recorded |
| Cointegration.RunCointegrationTestsLegacy | Econometrics/2_ECM_Analysis.py:165-201 | the older gate has no NaN drop and no rho; a result exists iff there are at least 2 rows and the test succeeds; `cointegrated` iff p < 0.05 |
| Cointegration.VariantsAgreeWithoutNaN | Econometrics/2_ECM_Analysis.py:169-198 | on data without NaN, both gates give a result on the same inputs and agree on `cointegrated` |
| EcmEstimation.ClampLag | Econometrics/5_data_prepration_for_spatial_chart_new.py:166-167 | the lag lies in [1, max(1, ecm_lags)]; it is the AIC lag when that lies in range, and ecm_lags when AIC is None or too large |
| EcmEstimation.ClampLagLegacy | Econometrics/2_ECM_Analysis.py:212 | the older clamp fails exactly when AIC is None, and otherwise lies in [1, max(1, ecm_lags)] |
| EcmEstimation.ClampVariantsAgree | Econometrics/2_ECM_Analysis.py:212 | with an AIC lag present, both clamps choose the same lag |
| EcmEstimation.ModelCriteria | Econometrics/5_data_prepration_for_spatial_chart_new.py:176-190 | criteria exist iff the log-likelihood does; k_params = neqs·(k+1)+rank, n_obs = neqs·(nobs−k), and AIC + 2·llf = 2·k_params |
| EcmEstimation.AicPenaltyPerLag | Econometrics/5_data_prepration_for_spatial_chart_new.py:183-184 | one more lag raises AIC by 2·neqs at a fixed likelihood |
| EcmEstimation.GrangerMaxLag | Econometrics/5_data_prepration_for_spatial_chart_new.py:293 | the Granger lag is the largest lag up to 12 that leaves 5 observations per lag, and at least 1: it lies in [1, 12], 5·lag ≤ n unless it is 1, and it is 12 or 5·(lag+1) > n |
| EcmEstimation.GrangerMaxLagLegacy | Econometrics/2_ECM_Analysis.py:303 | the older cap is the largest lag up to 12 with 5·lag ≤ n: it is 12 or 5·(lag+1) > n, and it is 0 exactly when there are fewer than 5 observations |
| EcmEstimation.GrangerCapsAgreePastGate | Econometrics/2_ECM_Analysis.py:303 | for a unit past the 30-row gate, both caps agree and are at least 6 |
| EcmPipeline.UnitKey | Econometrics/5_data_prepration_for_spatial_chart_new.py:596 | the map key is the commodity, then an underscore, then the regime |
| EcmPipeline.Prices | Econometrics/5_data_prepration_for_spatial_chart_new.py:591 | the price column holds each row's price in row order |
| EcmPipeline.Conflicts | Econometrics/5_data_prepration_for_spatial_chart_new.py:592 | the conflict column holds each row's conflict intensity in row order |
| EcmPipeline.Align | Econometrics/5_data_prepration_for_spatial_chart_new.py:212 | the corrected line keeps the rows without NaN; the line as written never yields aligned data |
| EcmPipeline.DiagnosticOf | Econometrics/5_data_prepration_for_spatial_chart_new.py:250-290 | the diagnostics record carries the unit's commodity and regime; a failed suite gives the all-None record, a successful one records each statistic of the suite (Breusch-Godfrey, ARCH, Jarque-Bera, Breusch-Pagan LM and p-value, Durbin-Watson, skewness, kurtosis, ACF, PACF) |
| EcmPipeline.AnalyseUnit | Econometrics/5_data_prepration_for_spatial_chart_new.py:197-408 | one unit's pass through the gates, estimation and diagnostics yields the outputs its specification defines |
| EcmPipeline.RunEcmAnalysis | Econometrics/5_data_prepration_for_spatial_chart_new.py:192-411 | the five accumulator lists are those of all units in order |
| EcmPipeline.ResultImpliesGates | Econometrics/5_data_prepration_for_spatial_chart_new.py:200-216 | an ECM result implies at least 30 rows, a stationarity entry, a cointegrated entry, at least 30 rows after alignment, a fitted model, and a lag in [1, 2] |
| EcmPipeline.DiagnosticsAlwaysRecorded | Econometrics/5_data_prepration_for_spatial_chart_new.py:250-290 | a unit gets a diagnostics record iff it gets a result; the record names its unit, and on failure its scalars are None and acf/pacf are empty |
| EcmPipeline.OutputsPaired | Econometrics/5_data_prepration_for_spatial_chart_new.py:234-408 | results, diagnostics, IRFs and FEVDs have equal length (summaries at least as many), and diagnostics, IRFs and FEVDs share the result's commodity and regime position by position |
| EcmPipeline.AsWrittenNeverEstimates | Econometrics/5_data_prepration_for_spatial_chart_new.py:212 | as written, no unit ever yields any ECM output |
| EcmPipeline.CorrectedEstimatesWhatAsWrittenSkips | Econometrics/5_data_prepration_for_spatial_chart_new.py:211-216 | a unit passing every gate with a fitted model is estimated by the corrected line and skipped by the line as written |
| EcmPipeline.RunUnitTests | Econometrics/5_data_prepration_for_spatial_chart_new.py:586-610 | `main`'s loop fills the stationarity and cointegration maps as its specification defines |
| EcmPipeline.TestMapsConsistent | Econometrics/5_data_prepration_for_spatial_chart_new.py:586-610 | every cointegration key has a stationarity entry; every stationarity key belongs to a unit with at least 30 rows and clean price and conflict columns |
| EcmLegacy.AnalyseUnitLegacy | Econometrics/2_ECM_Analysis.py:230-327 | one unit of the older analysis yields the result and diagnostics its specification defines |
| EcmLegacy.RunEcmAnalysisLegacy | Econometrics/2_ECM_Analysis.py:223-329 | the two accumulator lists are those of all units in order |
| EcmLegacy.LegacySkipRules | Econometrics/2_ECM_Analysis.py:256-300 | failed estimation, a missing AIC lag, empty residuals or failed diagnostics skip the unit with no result and no diagnostics record |
| EcmLegacy.LegacyResultsPairedWithDiagnostics | Econometrics/2_ECM_Analysis.py:281-324 | every result is paired by position with a diagnostics record of the same unit, has a lag in [1, 2], and its tuple key is cointegrated |
| EcmLegacy.RunUnitTestsLegacy | Econometrics/2_ECM_Analysis.py:371-402 | the older `main` loop fills the tuple-keyed maps as its specification defines |
| EcmLegacy.LegacyCointegrationNeedsStationarity | Econometrics/2_ECM_Analysis.py:386-399 | every cointegration key also has a stationarity entry |
| Consolidation.FirstDiagnostic | Econometrics/5_data_prepration_for_spatial_chart_new.py:463 | the lookup finds a diagnostics record of that commodity and regime, or there is none |
| Consolidation.FirstDiagnosticIsFirst | Econometrics/5_data_prepration_for_spatial_chart_new.py:463 | `next(...)` returns the record at the first position of that commodity and regime |
| Consolidation.FirstTagged | Econometrics/5_data_prepration_for_spatial_chart_new.py:464-466 | the lookup finds a summary, IRF or FEVD of that unit, or there is none |
| Consolidation.FirstTaggedIsFirst | Econometrics/5_data_prepration_for_spatial_chart_new.py:464-466 | `next(...)` returns the summary, IRF or FEVD at the first position of that unit |
| Consolidation.EntryFor | Econometrics/5_data_prepration_for_spatial_chart_new.py:461-470 | a stored entry has exactly the eight required fields, none null, and holds the ECM result itself |
| Consolidation.EntryForDiagnostics | Econometrics/5_data_prepration_for_spatial_chart_new.py:463 | the diagnostics field is the unit's first diagnostics record, or `{}` when it has none |
| Consolidation.EntryForSummaries | Econometrics/5_data_prepration_for_spatial_chart_new.py:464 | the summaries field is the unit's first summary, or `{}` |
| Consolidation.EntryForIrfs | Econometrics/5_data_prepration_for_spatial_chart_new.py:465 | the irfs field is the unit's first IRF, or the empty impulse-response object |
| Consolidation.EntryForFevds | Econometrics/5_data_prepration_for_spatial_chart_new.py:466 | the fevds field is the unit's first FEVD, or the empty decomposition object |
| Consolidation.EntryForTests | Econometrics/5_data_prepration_for_spatial_chart_new.py:467-469 | the stationarity and cointegration fields are the entries under `commodity_regime`, or `{}`; the Granger field is the result's own map |
| Consolidation.ConsolidateResults | Econometrics/5_data_prepration_for_spatial_chart_new.py:454-470 | the consolidation loop builds the map its specification defines |
| Consolidation.ConsolidateKeys | Econometrics/5_data_prepration_for_spatial_chart_new.py:454-461 | (commodity, regime) is stored iff some result carries both keys with those values; results lacking either are dropped |
| Consolidation.ConsolidateLastWins | Econometrics/5_data_prepration_for_spatial_chart_new.py:459-461 | the last result for a (commodity, regime) is the one stored |
| Consolidation.ConsolidateComplete | Econometrics/5_data_prepration_for_spatial_chart_new.py:461-470 | every stored entry has all required fields, none null |
| Consolidation.StoreKeepsComplete | Econometrics/5_data_prepration_for_spatial_chart_new.py:459-470 | storing one more result keeps every entry complete |
| Consolidation.FillFields | Econometrics/5_data_prepration_for_spatial_chart_new.py:476-519 | back-filling adds the listed fields, leaves none of them null, and keeps every non-null field; a missing or null field becomes the ecm_results skeleton for `ecm_results` and `{}` for every other field |
| Consolidation.BackFill | Econometrics/5_data_prepration_for_spatial_chart_new.py:473-519 | back-fill keeps every commodity and regime, and leaves every entry with all required fields non-null |
| Consolidation.FillFieldsKeepsFilled | Econometrics/5_data_prepration_for_spatial_chart_new.py:477 | fields already present and non-null are left as they are |
| Consolidation.BackFillChangesNothing | Econometrics/5_data_prepration_for_spatial_chart_new.py:472-519 | on a consolidated map the back-fill pass is the identity |
| Consolidation.BackFillKeepsComplete | Econometrics/5_data_prepration_for_spatial_chart_new.py:474-519 | back-fill of a complete map is the identity |
| Consolidation.CountPassed | Econometrics/5_data_prepration_for_spatial_chart_new.py:542 | the passed count is at most the record count; it is 0 iff no record passes, and the full count iff every record passes |
| Consolidation.CreateSummaryReport | Econometrics/5_data_prepration_for_spatial_chart_new.py:535-567 | as written, the report fails iff some JB p-value is missing; the corrected report always exists; both counts equal len(ecm_results); the passed count is the number of records whose JB p-value exceeds 0.05; datasets has min(len) entries paired by position |
| Consolidation.MissingPValueNeverCounts | Econometrics/5_data_prepration_for_spatial_chart_new.py:542 | a record without a JB p-value, wherever it stands, adds nothing to the corrected report's passed count |
| Consolidation.ReportVariantsAgree | Econometrics/5_data_prepration_for_spatial_chart_new.py:542 | when every JB p-value is present, the report as written equals the corrected one |
| Consolidation.FailedDiagnosticsBreakReport | Econometrics/5_data_prepration_for_spatial_chart_new.py:542 | one failed diagnostics record makes the report as written fail, while the corrected report counts it as not passed |
| Serialization.KeyString | Econometrics/2_ECM_Analysis.py:63 | `str(k)` leaves a string key as it is and writes a tuple key in parentheses |
| Serialization.ToPython | Econometrics/2_ECM_Analysis.py:46-51 | `int()`, `float()`, `bool()` and `tolist()` leave no numpy scalar behind |
| Serialization.MakeSerializable | Econometrics/2_ECM_Analysis.py:43-75 | containers become lists of the same length, a list or tuple element by element; a dict becomes an object with distinct keys; numpy and Python integers, floats and booleans become JSON numbers and booleans holding the same value; strings stay strings; a formatted date and any other object become their text; a NaN Python float and None become null |
| Serialization.DictValuesSerialized | Econometrics/2_ECM_Analysis.py:63 | each key of a converted dict holds the conversion of the value of the last entry whose key renders to it |
| Serialization.DictKeysRendered | Econometrics/2_ECM_Analysis.py:62-63 | the keys of a converted dict are exactly the `str` of its keys |
| Serialization.ArrayElementsViaToList | Econometrics/2_ECM_Analysis.py:50-51 | each array or Series element is converted after `tolist()` |
| Serialization.SerializeEmbedRoundTrip | Econometrics/2_ECM_Analysis.py:43-75 | every well-formed JSON value, read back as Python values, serialises to itself |
| Serialization.NumpyNaNStaysNaN | Econometrics/2_ECM_Analysis.py:46-70 | a numpy NaN scalar leaves as a float NaN, while a Python NaN and a NaN inside an array become null |
| Serialization.KeysCollide | Econometrics/2_ECM_Analysis.py:62-63 | keys 1 and "1" collide after `str`, and the later value wins |
| Serialization.DictFromLastWins | Econometrics/2_ECM_Analysis.py:63 | a dict comprehension keeps the last value of each key |
| Serialization.ConvertKeys | Econometrics/5_data_prepration_for_spatial_chart_new.py:413-429 | a numpy bool, integer or float becomes the native value it holds; a list becomes the list of its converted elements, position by position; a Series becomes the list of its `tolist()` values; a dict becomes a dict with distinct keys and no more entries than it had; other values pass unchanged |
| Serialization.ConvertKeysNumpyFree | Econometrics/5_data_prepration_for_spatial_chart_new.py:413-429 | after conversion no numpy scalar is left at the top, among a list's elements or among a dict's values, at any depth (for series that hold scalars) |
| Serialization.NativeKey | Econometrics/5_data_prepration_for_spatial_chart_new.py:426 | int64 keys become their string form; every other key, a narrower numpy integer included, is kept |
| Serialization.ConvertKeysDict | Econometrics/5_data_prepration_for_spatial_chart_new.py:426 | a converted dict's keys are exactly the converted keys, none of them an int64, and each holds the converted value of its last occurrence |
| Serialization.ConvertedKeysMerge | Econometrics/5_data_prepration_for_spatial_chart_new.py:426 | `{np.int64(1): a, "1": b}` becomes `{'1': b}` |
| Serialization.ConvertKeysIdempotent | Econometrics/5_data_prepration_for_spatial_chart_new.py:413-429 | converting an already converted value changes nothing |
| Regimes.MarketId | Econometrics/1_Fetch_and_Prepare_Data.py:59-61 | the id is the market, an underscore, then admin1, and both parts can be read back from it |
| Regimes.EnsureMarketId | Econometrics/1_Fetch_and_Prepare_Data.py:63-71 | it fails iff market_id is an index level whose `reset_index` clashes with a column, or market_id is absent from columns and index and market or admin1 is missing; an existing id is kept; otherwise every row gets market_admin1 |
| Regimes.ValidateDataframe | Econometrics/1_Fetch_and_Prepare_Data.py:73-79 | validation succeeds iff every expected column is present |
| Regimes.UnifiedPeriod | Econometrics/1_Fetch_and_Prepare_Data.py:196-209 | the unified period is exactly the dates whose variance is a number below the threshold |
| Regimes.ClassifyExchangeRateRegimes | Econometrics/1_Fetch_and_Prepare_Data.py:200-213 | with an empty variance the column is untouched and the period is empty; otherwise each row is Unified iff its date is in the period, else Split |
| Regimes.SplitRows | Econometrics/1_Fetch_and_Prepare_Data.py:223-226 | the split rows are the exchange-rate rows outside the unified period, and no more than the input |
| Regimes.SplitRowsAppend | Econometrics/1_Fetch_and_Prepare_Data.py:223-226 | the filter works row by row: on two blocks it is the filter of the first followed by that of the second, and one row is kept exactly when it is an exchange-rate quote outside the unified period |
| Regimes.DetermineNorthSouthRegimes | Econometrics/1_Fetch_and_Prepare_Data.py:219-276 | past the two row gates an infinite split quote makes the scaler raise, and the error is re-raised with the column untouched; otherwise the column is unchanged unless there are at least 2 split rows, at least 2 provinces and Aden, and then only Split rows are relabelled by their province's cluster |
| Regimes.NorthSouthLabels | Econometrics/1_Fetch_and_Prepare_Data.py:261-269 | Aden is South, every province is North or South, and two provinces share a label iff they share a cluster |
| Regimes.GroupValuesCount | Econometrics/1_Fetch_and_Prepare_Data.py:287 | a group's history has one value per row of that group |
| Regimes.LagOneIsPreviousInGroup | Econometrics/1_Fetch_and_Prepare_Data.py:287 | the last value of a group's history is its latest row's value |
| Regimes.ShiftAbsentForFirstRows | Econometrics/1_Fetch_and_Prepare_Data.py:287 | lag k is missing exactly on a group's first k rows |
| Regimes.ShiftOneIsNearestEarlier | Econometrics/1_Fetch_and_Prepare_Data.py:287 | lag 1 is the value of the nearest earlier row of the same group, and is missing when there is none |
| Regimes.AddConflictLags | Econometrics/1_Fetch_and_Prepare_Data.py:286-288 | the lag columns 1, 2 and 3 are the within-group shifts by 1, 2 and 3 |
| Regimes.RegimesFor | Econometrics/1_Fetch_and_Prepare_Data.py:385-387 | the exchange-rate commodity is processed only for Unified; other commodities for every regime |
| Regimes.Select | Econometrics/1_Fetch_and_Prepare_Data.py:391-394 | a group holds exactly the rows of its commodity and regime, each once, in row order |
| Regimes.AccumulateGroups | Econometrics/1_Fetch_and_Prepare_Data.py:376-410 | without regime labels the run fails; with them it succeeds iff some group is accepted, and yields the accepted groups |
| Regimes.AcceptedGroupsAreLargeEnough | Econometrics/1_Fetch_and_Prepare_Data.py:396-399 | every accepted group has at least 30 rows, all of its commodity and regime; the exchange-rate commodity appears only as Unified |
| Regimes.GroupsForSound | Econometrics/1_Fetch_and_Prepare_Data.py:389-399 | a commodity's accepted groups are of its listed regimes and large enough |
| MarketPairs.Unique | Econometrics/3_Price_Diffrential_Analysis.py:47-49 | `unique()` has the same members and no repeats |
| MarketPairs.UniqueGrows | Econometrics/3_Price_Diffrential_Analysis.py:47-49 | order of first appearance: the distinct values of a prefix of the column are a prefix of the distinct values of the whole |
| MarketPairs.InRegime | Econometrics/3_Price_Diffrential_Analysis.py:41 | the regime filter keeps exactly the rows of that regime |
| MarketPairs.InRegimeAppend | Econometrics/3_Price_Diffrential_Analysis.py:41 | the filter of two blocks is the filter of the first followed by that of the second, so rows keep their order and number of copies |
| MarketPairs.InRegimeSnoc | Econometrics/3_Price_Diffrential_Analysis.py:41 | one more row is kept exactly when its regime matches |
| MarketPairs.Pick | Econometrics/3_Price_Diffrential_Analysis.py:48-50 | the selection keeps exactly the rows of that market and commodity |
| MarketPairs.PickAppend | Econometrics/3_Price_Diffrential_Analysis.py:48-50 | the selection of two blocks is that of the first followed by that of the second |
| MarketPairs.PickSnoc | Econometrics/3_Price_Diffrential_Analysis.py:48-50 | one more row is kept exactly when market and commodity match |
| MarketPairs.PickFirst | Econometrics/3_Price_Diffrential_Analysis.py:48-58 | the first row of the selection, whose coordinates the series records, is the first matching row of the data |
| MarketPairs.OtherMarkets | Econometrics/3_Price_Diffrential_Analysis.py:44-47 | the other markets are exactly the market ids present other than the base |
| MarketPairs.CommoditiesOf | Econometrics/3_Price_Diffrential_Analysis.py:48-49 | a market's commodities are exactly those of its rows |
| MarketPairs.SeriesOf | Econometrics/3_Price_Diffrential_Analysis.py:53-59 | an entry's arrays follow its rows in order; longitude and latitude come from the first row |
| MarketPairs.EntriesForSound | Econometrics/3_Price_Diffrential_Analysis.py:49-59 | each entry of a market is built from its own non-empty row selection |
| MarketPairs.EntriesForComplete | Econometrics/3_Price_Diffrential_Analysis.py:49-59 | every commodity of the market with rows gets an entry |
| MarketPairs.EntriesForDistinct | Econometrics/3_Price_Diffrential_Analysis.py:49-59 | a market's entries have distinct keys |
| MarketPairs.EntriesSound | Econometrics/3_Price_Diffrential_Analysis.py:47-59 | every entry belongs to a listed market and is built from its rows |
| MarketPairs.EntriesComplete | Econometrics/3_Price_Diffrential_Analysis.py:47-59 | every (market, commodity) present gets an entry |
| MarketPairs.EntriesDistinct | Econometrics/3_Price_Diffrential_Analysis.py:47-59 | no (market, commodity) key appears twice |
| MarketPairs.Markets | Econometrics/3_Price_Diffrential_Analysis.py:47 | the market list starts with the base, has no repeats, and holds exactly the base and the markets present |
| MarketPairs.CollectMarket | Econometrics/3_Price_Diffrential_Analysis.py:48-59 | the inner loop builds one market's entries as its specification defines |
| MarketPairs.PrepareMarketData | Econometrics/3_Price_Diffrential_Analysis.py:39-61 | the nested loops build the market data their specification defines |
| MarketPairs.PrepareMarketDataSpecProperties | Econometrics/3_Price_Diffrential_Analysis.py:46-59 | the keys are distinct, and are exactly the (market, commodity) pairs present in the regime; each entry comes from its rows |
| MarketPairs.EntriesOrderBaseFirst | Econometrics/3_Price_Diffrential_Analysis.py:47 | base-market entries precede all others |
| MarketPairs.PrepareMarketDataBaseFirst | Econometrics/3_Price_Diffrential_Analysis.py:47 | in the prepared data, base-market entries come first |
| MarketPairs.Masked | Econometrics/3_Price_Diffrential_Analysis.py:99-102 | `values[mask]` is exactly the values at the positions whose date is kept, in their original order |
| MarketPairs.KeptPositions | Econometrics/3_Price_Diffrential_Analysis.py:99-100 | `np.isin(dates, common)` selects every position whose date is common and no other, each once, in increasing order |
| MarketPairs.AnalyzeMarketPair | Econometrics/3_Price_Diffrential_Analysis.py:89-128 | there is a result iff there are at least 30 common dates, the masked price arrays have equal length and both library calls succeed; it names its markets and commodity, its differential is ln(other) − ln(base) date by date, and it carries the oracles' stationarity, correlation and distance |
| MarketPairs.Differential | Econometrics/3_Price_Diffrential_Analysis.py:77-79 | the differential has one value per date, the log price of the other market minus that of the base market |
| MarketPairs.Square | Econometrics/3_Price_Diffrential_Analysis.py:145 | the squared column squares each value |
| MarketPairs.SetColumn | Econometrics/3_Price_Diffrential_Analysis.py:145 | a new column is appended at the end; otherwise the first column of that name now holds the new values at the same position, and every other column is unchanged |
| MarketPairs.FirstColumn | Econometrics/3_Price_Diffrential_Analysis.py:145 | the position `X[name]` addresses: a column of that name with none before it |
| MarketPairs.DropColumnMembers | Econometrics/3_Price_Diffrential_Analysis.py:147 | `drop` removes exactly the columns of that name and keeps every other column |
| MarketPairs.HighVif | Econometrics/3_Price_Diffrential_Analysis.py:139-140 | the high-VIF list is exactly the columns whose VIF, computed once, exceeds the threshold |
| MarketPairs.HandleHighVif | Econometrics/3_Price_Diffrential_Analysis.py:137-149 | the loop replaces each high-VIF column in turn, as its specification defines; without name clashes the result is the untouched columns in order followed by the squared columns in VIF-table order |
| MarketPairs.ReplaceAllLayout | Econometrics/3_Price_Diffrential_Analysis.py:143-149 | without name clashes, replacing every high-VIF variable keeps the other columns in order and appends the squared columns in the order of the VIF table |
| MarketPairs.ReplaceKeepsWidth | Econometrics/3_Price_Diffrential_Analysis.py:143-147 | a replacement keeps the column count, appends `<var>_squared` last, removes `<var>`, and keeps every other column |
| MarketPairs.DropOneColumn | Econometrics/3_Price_Diffrential_Analysis.py:147 | dropping a column that appears once removes exactly that position |
| MarketPairs.ModelInputs | Econometrics/3_Price_Diffrential_Analysis.py:154-164 | there are no inputs iff there is no pair, some differential is empty, or y or a predictor has zero variance; otherwise y is the last differential of each pair and X the distance and conflict-correlation columns |
| MarketPairs.LastDifferentials | Econometrics/3_Price_Diffrential_Analysis.py:160 | y has one value per pair, the last value of its price differential |
| MarketPairs.Predictors | Econometrics/3_Price_Diffrential_Analysis.py:158-159 | X holds the distance and conflict-correlation columns, one value per pair |
| MarketPairs.Lookup | Econometrics/3_Price_Diffrential_Analysis.py:261 | the base-market lookup succeeds iff the key is present, and returns a stored entry |
| MarketPairs.PairArgsOver | Econometrics/3_Price_Diffrential_Analysis.py:257-264 | each argument pairs a non-base entry with the base market's entry of the same commodity, and every such entry is covered |
| MarketPairs.KeepResults | Econometrics/3_Price_Diffrential_Analysis.py:275 | the kept results are exactly the non-None ones |
| Spatial.Rename | Econometrics/4_Spatial_Analysis.py:62 | renaming moves the column to its new name and keeps the other columns and the height |
| Spatial.LoadGeojson | Econometrics/4_Spatial_Analysis.py:51-77 | loading succeeds iff date and market_id are present and no market_id is null; market_id becomes region_id and other columns are kept |
| Spatial.AssignIds | Econometrics/4_Spatial_Analysis_old.py:61-63 | stored ids are never changed, every name gets an id, and each new name gets one distinct fresh id from the oracle |
| Spatial.AssignPersistentRegionIdsMeaning | Econometrics/4_Spatial_Analysis_old.py:51-74 | assignment fails iff the stored mapping cannot be read or NAME is absent; otherwise each row's region_id is mapping[NAME] and stored entries are kept |
| Spatial.DrawIds | Econometrics/4_Spatial_Analysis_old.py:61-63 | the loop over NAME leaves the mapping and the drawn names its specification defines |
| Spatial.AssignPersistentRegionIds | Econometrics/4_Spatial_Analysis_old.py:51-74 | the assignment loop yields the frame and mapping its specification defines |
| Spatial.RepeatedNamesShareId | Econometrics/4_Spatial_Analysis_old.py:61-65 | rows with the same NAME get the same region_id |
| Spatial.RowLabels | Econometrics/4_Spatial_Analysis_old.py:92 | the fallback region_id of row i is its index i |
| Spatial.LoadGeojsonData | Econometrics/4_Spatial_Analysis_old.py:77-104 | the region-id cascade yields the frame its specification defines |
| Spatial.LoadGeojsonDataUnique | Econometrics/4_Spatial_Analysis_old.py:95-98 | loading succeeds iff date is present, a region_id source succeeds and its ids are distinct; a loaded frame has distinct region ids |
| Spatial.RegionIdCascade | Econometrics/4_Spatial_Analysis_old.py:83-92 | an existing region_id wins, then ADM1_CODE renamed, then the NAME mapping, then the row index; each load succeeds iff its ids are distinct |
| Spatial.Subset | Econometrics/4_Spatial_Analysis.py:210-213 | the subset is exactly the rows of that commodity and regime, and no more than the input |
| Spatial.SubsetAppend | Econometrics/4_Spatial_Analysis.py:210-213 | the subset of two blocks is that of the first followed by that of the second, so the row gate counts every matching row with its copies |
| Spatial.SubsetSnoc | Econometrics/4_Spatial_Analysis.py:210-213 | one more row is kept exactly when commodity and regime match |
| Spatial.RunSpatialAnalysis | Econometrics/4_Spatial_Analysis.py:204-276 | there is a result iff the subset reaches the row gate and the fit succeeds with one residual per row; it has one residual record per subset row and the fit's coefficients, p-values and statistics under both predictor names |
| Spatial.OlderGateIsStricter | Econometrics/4_Spatial_Analysis_old.py:185-187 | every unit the 30-row gate accepts is accepted identically by the 5-row gate, and subsets of 5 to 29 rows are accepted only by the latter |
| Spatial.CrossProduct | Econometrics/4_Spatial_Analysis.py:294-298 | the work list has one item per commodity and regime |
| Spatial.CrossProductMembers | Econometrics/4_Spatial_Analysis.py:294-298 | the work list holds exactly the (commodity, regime) pairs |
| Spatial.CollectedMeaning | Econometrics/4_Spatial_Analysis.py:301-311 | the kept results are exactly the non-None analyses of the work items |
| Spatial.CollectSpatialResults | Econometrics/4_Spatial_Analysis.py:294-313 | the results, as a set, are exactly the non-None analyses of the cross product |
| Spatial.MapFrom | Econometrics/4_Spatial_Analysis.py:95-100 | the dictionary keys are exactly the keys assigned |
| Spatial.MapFromLastWins | Econometrics/4_Spatial_Analysis.py:96-100 | the last assignment to a key wins |
| Spatial.WeightPairs | Econometrics/4_Spatial_Analysis.py:97-100 | a row's inner map has one assignment per neighbour |
| Spatial.WeightRows | Econometrics/4_Spatial_Analysis.py:96-97 | the outer map has one assignment per row position |
| Spatial.SaveSpatialWeights | Econometrics/4_Spatial_Analysis.py:91-100 | the nested loop builds the weights dictionary its specification defines |
| Spatial.SpatialWeightsMeaning | Econometrics/4_Spatial_Analysis.py:95-100 | the outer keys are exactly the region ids; the last row of an id owns its entry; each neighbour's region id maps to the weight at its index |
| Spatial.FlowRowsOf | Econometrics/4_Spatial_Analysis.py:112-121 | a row contributes one flow row per neighbour |
| Spatial.SaveFlowMap | Econometrics/4_Spatial_Analysis.py:106-121 | the loop builds the flow list its specification defines |
| Spatial.FlowMapLayout | Econometrics/4_Spatial_Analysis.py:110-121 | neighbour i of row k sits after all earlier rows' neighbours, with that row's region id as source, the neighbour's as target, and `weights[k][i]` |
| Spatial.FlowLength | Econometrics/4_Spatial_Analysis.py:110-121 | the flow list has one row per (row, neighbour) pair |
| ChartExport.FieldOr | Econometrics/5_data_prepration_for_spatial_chart.py:76-78 | `get` returns the stored value of a present key and the default otherwise |
| ChartExport.FlattenOneResult | Econometrics/5_data_prepration_for_spatial_chart.py:75-89 | one result's loop builds the lines its specification defines |
| ChartExport.FlattenEntriesFailureSticks | Econometrics/5_data_prepration_for_spatial_chart.py:79-89 | once an entry raises, the whole result raises with that message |
| ChartExport.FlattenResiduals | Econometrics/5_data_prepration_for_spatial_chart.py:74-91 | the residual loop of `prepare_choropleth_data` builds the table its specification defines |
| ChartExport.FlattenAllFailureSticks | Econometrics/5_data_prepration_for_spatial_chart.py:74-91 | once a result raises, the whole flattening raises with that message |
| ChartExport.ExportResiduals | Econometrics/5_data_prepration_for_spatial_chart.py:134-158 | `export_residuals` yields a table iff flattening does not raise, and then the same flattened lines |
| ChartExport.FlattenEntriesMeaning | Econometrics/5_data_prepration_for_spatial_chart.py:79-87 | flattening fails iff some entry fails; otherwise line j is copied from the j-th object with a 'residual' key, so lines and such objects correspond one to one and in order |
| ChartExport.Iterate | Econometrics/5_data_prepration_for_spatial_chart.py:79 | `for` visits a list's elements, an object's keys and a string's characters, and raises on anything else |
| ChartExport.StringResidualsGiveNoLines | Econometrics/5_data_prepration_for_spatial_chart.py:78-89 | a string in place of the residual list gives no lines and raises nothing |
| ChartExport.FlattenResultDefaults | Econometrics/5_data_prepration_for_spatial_chart.py:76-78 | a missing commodity or regime is labelled 'Unknown Commodity' or 'Unknown Regime' |
| ChartExport.NeighbourRegions | Econometrics/5_data_prepration_for_spatial_chart.py:105 | neighbours map positionally to region ids, in order |
| ChartExport.RegionRows | Econometrics/5_data_prepration_for_spatial_chart.py:103-106 | there is one weights row per positional key |
| ChartExport.ExportSpatialWeights | Econometrics/5_data_prepration_for_spatial_chart.py:94-114 | a failing KNN or an out-of-range index gives no dictionary; otherwise the dictionary built from the rows |
| ChartExport.ExportSpatialWeightsMeaning | Econometrics/5_data_prepration_for_spatial_chart.py:101-106 | the keys are exactly the region ids; the last row of an id owns its entry, and its neighbours are their region ids in order |
| ChartExport.NetworkEdgeLayout | Econometrics/5_data_prepration_for_spatial_chart.py:173-183 | the edge of neighbour i of row k follows all earlier rows' edges and carries the source row's spatial lag |
| ChartExport.EdgesLength | Econometrics/5_data_prepration_for_spatial_chart.py:173-183 | there is one edge per (row, neighbour) pair |
| ChartExport.NetworkFrame.GenerateNetworkData | Econometrics/5_data_prepration_for_spatial_chart.py:160-189 | the lag column is added only when absent; a failure is logged and gives no edges; otherwise the edges are those of every row |
| OutputMapping.NewPrefixInjective | Econometrics/Output_Mapping.py:14 | distinct member keys get distinct prefixed keys |
| OutputMapping.MapJsonStructure | Econometrics/Output_Mapping.py:10-20 | the result is a dict with distinct keys; a dict's keys are exactly its prefixed member keys, {} for {}; a non-empty list gives one entry under the prefix; scalars and [] give their type name |
| OutputMapping.MemberStructure | Econometrics/Output_Mapping.py:12-15 | each member's structure is stored under its prefixed key |
| OutputMapping.FirstElementOnly | Econometrics/Output_Mapping.py:16-17 | only the first element of a list is inspected |
| OutputMapping.DepthBounded | Econometrics/Output_Mapping.py:10-20 | the nesting of the structure is bounded by the nesting of the document |
| OutputMapping.HeaderTypesKeys | Econometrics/Output_Mapping.py:28-33 | the structure has no repeated key and its keys are exactly the headers |
| OutputMapping.HeaderTypesValues | Econometrics/Output_Mapping.py:29-33 | every header maps to the type name written for it |
| OutputMapping.MapCsvStructure | Econometrics/Output_Mapping.py:22-35 | the header loop builds the structure its specification defines |
| OutputMapping.MapCsvStructureMeaning | Econometrics/Output_Mapping.py:28-33 | it fails iff the first row is shorter than the headers; otherwise there is one key per distinct header, each 'str' with a first row and 'Unknown' without |

## Left out

- The statistics are oracles, not models: adfuller, kpss, engle_granger, select_order, the VECM fit, Ljung-Box, ARCH, Jarque-Bera, Durbin-Watson, Breusch-Pagan, acf/pacf, grangercausalitytests, irf/fevd, Ridge, VIF, Moran's I, KNN, KMeans, pearsonr, euclidean, LOWESS/WLS and the RESET test. Their results enter as parameters.
- Floating-point numerics are not modelled: the BIC/HQIC logarithms, the FEVD fallback matrix loop, log/log1p/MinMax scaling, median thresholds, Ridge p-values and adjusted R². Reals are exact.
- File and network I/O is not modelled: the HDX download, CSV/Excel/JSON/GeoJSON reads and writes, `json.dump`, directory creation, logging and `load_data`. A file that cannot be read enters as a `Failure` value.
- `map_outputs` in `Output_Mapping.py` walks directories and writes files, so it is not part of this model.
- Concurrency is not modelled. `ProcessPoolExecutor` returns spatial results in completion order, so only their set is stated. `mp.Pool` is modelled as an in-order map.
- UUID generation is an oracle `uuid(j)` for the j-th new name.
- Fuzzy district matching, geopandas projection and centroid computation are left out; centroids enter as a function of the row.
- `summarize_json.py` is print-only reporting and is not part of this model.
- In `prepare_choropleth_data`, only the residual flattening is modelled. Its averages, price changes and time series are pandas group means. `prepare_time_series_data` is left out for the same reason.
- The Granger test's per-lag statistics are left out; only the cap on its lag count is modelled.
- Serialization.NativeKey: numpy float keys, which `convert_keys` also turns into strings, are not representable in the key datatype.
- Serialization.ConvertKeys: a DataFrame is an `Other` value and passes through unchanged, while `convert_keys` returns `to_dict(orient='list')`. A numpy integer or float carries no width, so every one is converted; `convert_keys` converts only int64, int32, float64 and float32 scalars and returns an int16 or unsigned scalar unchanged. Elements of a Series that are lists or dictionaries are left as `tolist()` returns them, so ConvertKeysNumpyFree assumes series of scalars. Dictionary keys are equal only when they are the same value of the key datatype; Python's `1 == True == np.int64(1)`, under which a source dictionary cannot hold two of them, is not modelled.
- Serialization.KeyString: a string inside a tuple key is always quoted with single quotes; Python's `repr`, which switches to double quotes or escapes when the string holds a quote character, is not modelled.
- Serialization.MakeSerializable: a Timestamp or Period is a `Formatted` value that carries its `strftime` text. A DataFrame, Timedelta, Categorical or any other object is an `Other` value that carries its `str()` text. The records of `to_dict` and the list of a Categorical are not modelled.
- Spatial.LoadGeojson: a frame is a map from column name to cells, so duplicate column names cannot be represented. When the file has both `market_id` and `region_id`, the rename gives two `region_id` columns and the script fails later; the model keeps one and succeeds.
- MarketPairs.AnalyzeMarketPair: the distance is an oracle value, and a NaN distance is not modelled.
- MarketPairs.ReplaceAllLayout: the layout is stated only when no replaced variable is named like another's `<var>_squared` column and no such column already exists.
- MarketPairs.ReplaceKeepsWidth: this requires that no `<var>_squared` column already exists. With such a clash, `X[f'{var}_squared'] = …` overwrites that column, and the width drops by one.
- EcmPipeline.RunEcmAnalysis: the exception handler at line 409 is modelled as skipping the unit. Which statement raised is not distinguished.
- Regimes.ClassifyExchangeRateRegimes: the variance per date is an input. Its pandas computation is not modelled. The rows enter with their market ids, so the `ensure_market_id` call at line 203, and its failure, is not modelled inside this method (it is Regimes.EnsureMarketId).
- Regimes.DetermineNorthSouthRegimes: likewise the `ensure_market_id` call at line 222 and its failure are not modelled inside this method. Only an infinite quote is modelled as making the scaler fail; a finite mean that overflows is floating point and not modelled.
- Cointegration.DropNaRows: its own ensures give membership and the length bound; order and number of copies are stated by Cointegration.DropNaRowsAppend. They are kept out of the function's contract so that the proofs of its callers stay small.
- Regimes.SplitRows: likewise, order and number of copies are stated by Regimes.SplitRowsAppend.
- MarketPairs.InRegime: likewise, order and number of copies are stated by MarketPairs.InRegimeAppend and MarketPairs.InRegimeSnoc.
- MarketPairs.Pick: likewise, order and number of copies are stated by MarketPairs.PickAppend and MarketPairs.PickSnoc, and the first row by MarketPairs.PickFirst.
- Spatial.Subset: likewise, order and number of copies are stated by Spatial.SubsetAppend and Spatial.SubsetSnoc.
- Spatial.RowLabels: `reset_index` fails when the frame already has an `index` column; the model always yields the row labels.

## Findings

| source | as written | input that shows it | evidently intended | confidence | as-written member | corrected member |
|---|---|---|---|---|---|---|
| Econometrics/5_data_prepration_for_spatial_chart_new.py:212 | `y, x = y.align(x, join='inner').dropna()` calls `.dropna()` on the tuple `align` returns. That raises AttributeError, which the handler at line 409 catches, so the unit is skipped. | any unit that passes the 30-row, stationarity and cointegration gates | align both series, then drop rows with a NaN, and go on to estimate | not executed | EcmPipeline.AsWrittenNeverEstimates | EcmPipeline.CorrectedEstimatesWhatAsWrittenSkips |
| Econometrics/5_data_prepration_for_spatial_chart_new.py:542 | `d.get('jarque_bera_pvalue', 0) > 0.05` compares None with a float when a diagnostics record comes from the failure branch (lines 276-290), which stores None. That raises TypeError, and no report is produced. | one ECM result whose diagnostics failed | count a record with no JB p-value as not passed | not executed | Consolidation.FailedDiagnosticsBreakReport | Consolidation.CreateSummaryReport |

=== FILE: chart_export.dfy ===
/** The chart-data export script: flattening the per-(commodity, regime)
    residual lists of the spatial results into one table, re-keying the
    positional KNN neighbour lists by region id, and the edge list of the
    network graph (with the spatial-lag column the script adds to the frame
    when it is missing). KNN and the spatial-lag product are oracle inputs. */
module ChartExport {
  import opened Common
  import opened Serialization
  import opened Spatial

  // ---------------------------------------------------------------------
  // Residual flattening (export_residuals, prepare_choropleth_data)

  /** One line of the residuals table. */
  datatype FlatResidual = FlatResidual(commodity: Json, regime: Json, regionId: Json, date: Json, residual: Json)

  /** `d.get(k, default)` on a JSON object. */
  function FieldOr(members: seq<(string, Json)>, k: string, default: Json): (v: Json)
    ensures k !in KeysOf(members) ==> v == default
    ensures k in KeysOf(members) ==> Some(v) == Get(members, k)
  {
    Get(members, k).GetOr(default)
  }

  /** Python's `needle in s` on two strings: a substring test. */
  predicate Contains(s: string, needle: string) {
    exists i :: 0 <= i <= |s| && needle <= s[i..]
  }

  /** What `for x in v` visits: the elements of a list, the keys of an
      object, the one-character strings of a string; any other value is
      not iterable. */
  function Iterate(v: Json): (r: Option<seq<Json>>)
    ensures r.None? <==> !(v.JArray? || v.JObject? || v.JStr?)
    ensures v.JArray? ==> r == Some(v.items)
    ensures v.JStr? ==> |r.value| == |v.s| && forall i :: 0 <= i < |v.s| ==> r.value[i] == JStr([v.s[i]])
    ensures v.JObject? ==> |r.value| == |v.members| && forall i :: 0 <= i < |v.members| ==> r.value[i] == JStr(v.members[i].0)
  {
    match v
    case JArray(items) => Some(items)
    case JObject(members) => Some(seq(|members|, i requires 0 <= i < |members| => JStr(members[i].0)))
    case JStr(s) => Some(seq(|s|, i requires 0 <= i < |s| => JStr([s[i]])))
    case _ => None
  }

  /** One residual entry. `'residual' in res` is a key test on an object,
      a substring test on a string and an element test on a list, and
      raises on any other value. Without it there is no line (only a
      warning); with it, an object gives a line, or raises when region_id
      or date is missing, and indexing a string or list by a key raises. */
  function FlattenEntry(commodity: Json, regime: Json, res: Json): Result<Option<FlatResidual>> {
    match res
    case JObject(m) =>
      if Get(m, "residual").None? then Ok(None)
      else if Get(m, "region_id").None? || Get(m, "date").None? then Failure("KeyError")
      else Ok(Some(FlatResidual(commodity, regime, Get(m, "region_id").value, Get(m, "date").value, Get(m, "residual").value)))
    case JStr(text) => if Contains(text, "residual") then Failure("TypeError: string indices must be integers") else Ok(None)
    case JArray(items) => if JStr("residual") in items then Failure("TypeError: list indices must be integers") else Ok(None)
    case _ => Failure("TypeError: argument of type is not iterable")
  }

  /** The inner loop over the residual entries of one result. */
  function FlattenEntries(commodity: Json, regime: Json, entries: seq<Json>): Result<seq<FlatResidual>>
    decreases |entries|
  {
    if entries == [] then Ok([])
    else
      var n := |entries| - 1;
      match FlattenEntries(commodity, regime, entries[..n])
      case Failure(m) => Failure(m)
      case Ok(prev) =>
        match FlattenEntry(commodity, regime, entries[n])
        case Failure(m) => Failure(m)
        case Ok(line) => Ok(prev + (if line.Some? then [line.value] else []))
  }

  /** The lines of one model result: commodity and regime default to
      'Unknown Commodity' / 'Unknown Regime', a missing residual list to [];
      the loop visits whatever `for` visits in the residuals value. */
  function FlattenResult(result: Json): Result<seq<FlatResidual>> {
    match result
    case JObject(m) =>
      var commodity := FieldOr(m, "commodity", JStr("Unknown Commodity"));
      var regime := FieldOr(m, "regime", JStr("Unknown Regime"));
      (match Iterate(FieldOr(m, "residuals", JArray([])))
       case Some(entries) => FlattenEntries(commodity, regime, entries)
       case None => Failure("TypeError: residuals is not iterable"))
    case _ => Failure("model result is not an object")
  }

  /** The outer loop over the model results. */
  function FlattenAll(results: seq<Json>): Result<seq<FlatResidual>>
    decreases |results|
  {
    if results == [] then Ok([])
    else
      var n := |results| - 1;
      match FlattenAll(results[..n])
      case Failure(m) => Failure(m)
      case Ok(prev) =>
        match FlattenResult(results[n])
        case Failure(m) => Failure(m)
        case Ok(lines) => Ok(prev + lines)
  }

  /** The lines of one result, built by its own loop. */
  method FlattenOneResult(result: Json) returns (r: Result<seq<FlatResidual>>)
    ensures r == FlattenResult(result)
  {
    if !result.JObject? {
      return Failure("model result is not an object");
    }
    var m := result.members;
    var commodity := FieldOr(m, "commodity", JStr("Unknown Commodity"));
    var regime := FieldOr(m, "regime", JStr("Unknown Regime"));
    var residuals := Iterate(FieldOr(m, "residuals", JArray([])));
    if residuals.None? {
      return Failure("TypeError: residuals is not iterable");
    }
    var entries := residuals.value;
    var lines: seq<FlatResidual> := [];
    var j := 0;
    while j < |entries|
      invariant 0 <= j <= |entries|
      invariant FlattenEntries(commodity, regime, entries[..j]) == Ok(lines)
    {
      FlattenEntriesStep(commodity, regime, entries, j);
      var e := FlattenEntry(commodity, regime, entries[j]);
      if e.Failure? {
        FlattenEntriesFailureSticks(commodity, regime, entries, j + 1);
        assert entries[..|entries|] == entries;
        return Failure(e.message);
      }
      if e.value.Some? {
        lines := lines + [e.value.value];
      }
      j := j + 1;
    }
    assert entries[..|entries|] == entries;
    r := Ok(lines);
  }

  lemma FlattenEntriesStep(commodity: Json, regime: Json, entries: seq<Json>, j: nat)
    requires j < |entries| && FlattenEntries(commodity, regime, entries[..j]).Ok?
    ensures FlattenEntries(commodity, regime, entries[..j + 1]) ==
      match FlattenEntry(commodity, regime, entries[j])
      case Failure(m) => Failure(m)
      case Ok(line) =>
        var prev := FlattenEntries(commodity, regime, entries[..j]).value;
        Ok(if line.Some? then prev + [line.value] else prev)
  {
    assert entries[..j + 1][..j] == entries[..j];
    assert entries[..j + 1][j] == entries[j];
    if FlattenEntry(commodity, regime, entries[j]).Ok? && FlattenEntry(commodity, regime, entries[j]).value.None? {
      assert FlattenEntries(commodity, regime, entries[..j]).value + [] == FlattenEntries(commodity, regime, entries[..j]).value;
    }
  }

  /** Once an entry raises, the whole result raises with that message. */
  lemma {:induction false} FlattenEntriesFailureSticks(commodity: Json, regime: Json, entries: seq<Json>, j: nat)
    requires j <= |entries| && FlattenEntries(commodity, regime, entries[..j]).Failure?
    ensures FlattenEntries(commodity, regime, entries) == FlattenEntries(commodity, regime, entries[..j])
    decreases |entries| - j
  {
    if j < |entries| {
      assert entries[..j + 1][..j] == entries[..j];
      FlattenEntriesFailureSticks(commodity, regime, entries, j + 1);
    } else {
      assert entries[..j] == entries;
    }
  }

  /** `prepare_choropleth_data`'s residual loop: the lines of every
      result, in order, or the first exception, which propagates. */
  method FlattenResiduals(results: seq<Json>) returns (r: Result<seq<FlatResidual>>)
    ensures r == FlattenAll(results)
  {
    var lines: seq<FlatResidual> := [];
    var i := 0;
    while i < |results|
      invariant 0 <= i <= |results|
      invariant FlattenAll(results[..i]) == Ok(lines)
    {
      assert results[..i + 1][..i] == results[..i];
      var one := FlattenOneResult(results[i]);
      if one.Failure? {
        FlattenAllFailureSticks(results, i + 1);
        assert results[..|results|] == results;
        return Failure(one.message);
      }
      lines := lines + one.value;
      i := i + 1;
    }
    assert results[..|results|] == results;
    r := Ok(lines);
  }

  lemma {:induction false} FlattenAllFailureSticks(results: seq<Json>, i: nat)
    requires i <= |results| && FlattenAll(results[..i]).Failure?
    ensures FlattenAll(results) == FlattenAll(results[..i])
    decreases |results| - i
  {
    if i < |results| {
      assert results[..i + 1][..i] == results[..i];
      FlattenAllFailureSticks(results, i + 1);
    } else {
      assert results[..i] == results;
    }
  }

  /** `export_residuals`: the same loop, but an exception is logged and no
      table is written. */
  method ExportResiduals(results: seq<Json>) returns (table: Option<seq<FlatResidual>>)
    ensures table.Some? <==> FlattenAll(results).Ok?
    ensures table.Some? ==> table.value == FlattenAll(results).value
  {
    var r := FlattenResiduals(results);
    table := if r.Ok? then Some(r.value) else None;
  }

  /** The objects of a residual list that carry a 'residual' key, in order. */
  function ResidualEntries(entries: seq<Json>): seq<seq<(string, Json)>>
    decreases |entries|
  {
    if entries == [] then []
    else
      var n := |entries| - 1;
      ResidualEntries(entries[..n]) +
        (if entries[n].JObject? && Get(entries[n].members, "residual").Some? then [entries[n].members] else [])
  }

  /** The line copies the object's region_id, date and residual, and takes
      the result's commodity and regime. */
  predicate LineFrom(x: FlatResidual, commodity: Json, regime: Json, m: seq<(string, Json)>) {
    x.commodity == commodity && x.regime == regime && Get(m, "residual") == Some(x.residual) &&
    Get(m, "region_id") == Some(x.regionId) && Get(m, "date") == Some(x.date)
  }

  /** A line comes from an entry of the list that has a 'residual' key. */
  predicate LineOf(x: FlatResidual, commodity: Json, regime: Json, entries: seq<Json>) {
    exists e :: e in entries && e.JObject? && LineFrom(x, commodity, regime, e.members)
  }

  /** The flattened list fails exactly when some entry raises; otherwise
      its j-th line is copied from the j-th object with a 'residual' key,
      so the lines follow the entries one to one and in order. */
  lemma FlattenEntriesMeaning(commodity: Json, regime: Json, entries: seq<Json>)
    ensures FlattenEntries(commodity, regime, entries).Ok? <==>
      forall i :: 0 <= i < |entries| ==> FlattenEntry(commodity, regime, entries[i]).Ok?
    ensures FlattenEntries(commodity, regime, entries).Ok? ==>
      |FlattenEntries(commodity, regime, entries).value| == |ResidualEntries(entries)| &&
      forall j :: 0 <= j < |ResidualEntries(entries)| ==>
        LineFrom(FlattenEntries(commodity, regime, entries).value[j], commodity, regime, ResidualEntries(entries)[j])
    ensures FlattenEntries(commodity, regime, entries).Ok? ==>
      forall x :: x in FlattenEntries(commodity, regime, entries).value ==> LineOf(x, commodity, regime, entries)
  {
    FlattenEntriesOk(commodity, regime, entries);
    if FlattenEntries(commodity, regime, entries).Ok? {
      FlattenEntriesInOrder(commodity, regime, entries);
      FlattenEntriesSound(commodity, regime, entries);
    }
  }

  lemma {:induction false} FlattenEntriesOk(commodity: Json, regime: Json, entries: seq<Json>)
    ensures FlattenEntries(commodity, regime, entries).Ok? <==>
      forall i :: 0 <= i < |entries| ==> FlattenEntry(commodity, regime, entries[i]).Ok?
    decreases |entries|
  {
    if entries != [] {
      var n := |entries| - 1;
      FlattenEntriesOk(commodity, regime, entries[..n]);
      assert forall i :: 0 <= i < n ==> entries[..n][i] == entries[i];
      assert FlattenEntries(commodity, regime, entries).Ok? <==>
        FlattenEntries(commodity, regime, entries[..n]).Ok? && FlattenEntry(commodity, regime, entries[n]).Ok?;
    }
  }

  lemma {:induction false} FlattenEntriesInOrder(commodity: Json, regime: Json, entries: seq<Json>)
    requires FlattenEntries(commodity, regime, entries).Ok?
    ensures |FlattenEntries(commodity, regime, entries).value| == |ResidualEntries(entries)|
    ensures forall j :: 0 <= j < |ResidualEntries(entries)| ==>
      LineFrom(FlattenEntries(commodity, regime, entries).value[j], commodity, regime, ResidualEntries(entries)[j])
    decreases |entries|
  {
    if entries != [] {
      var n := |entries| - 1;
      var prev := FlattenEntries(commodity, regime, entries[..n]);
      var line := FlattenEntry(commodity, regime, entries[n]);
      assert prev.Ok? && line.Ok?;
      FlattenEntriesInOrder(commodity, regime, entries[..n]);
      var all := FlattenEntries(commodity, regime, entries).value;
      var re := ResidualEntries(entries);
      var e := entries[n];
      assert all == prev.value + (if line.value.Some? then [line.value.value] else []);
      assert re == ResidualEntries(entries[..n]) + (if e.JObject? && Get(e.members, "residual").Some? then [e.members] else []);
      assert line.value.Some? <==> e.JObject? && Get(e.members, "residual").Some?;
      forall j | 0 <= j < |re| ensures LineFrom(all[j], commodity, regime, re[j]) {
        if j < |prev.value| {
          assert all[j] == prev.value[j] && re[j] == ResidualEntries(entries[..n])[j];
        }
      }
    }
  }

  lemma {:induction false} FlattenEntriesSound(commodity: Json, regime: Json, entries: seq<Json>)
    requires FlattenEntries(commodity, regime, entries).Ok?
    ensures forall x :: x in FlattenEntries(commodity, regime, entries).value ==> LineOf(x, commodity, regime, entries)
    decreases |entries|
  {
    if entries != [] {
      var n := |entries| - 1;
      var prev := FlattenEntries(commodity, regime, entries[..n]);
      var line := FlattenEntry(commodity, regime, entries[n]);
      assert prev.Ok? && line.Ok?;
      FlattenEntriesSound(commodity, regime, entries[..n]);
      var all := FlattenEntries(commodity, regime, entries).value;
      assert all == prev.value + (if line.value.Some? then [line.value.value] else []);
      forall x | x in all ensures LineOf(x, commodity, regime, entries) {
        if x in prev.value {
          LineOfPrefix(x, commodity, regime, entries, n);
        } else {
          assert entries[n] in entries;
        }
      }
    }
  }

  lemma LineOfPrefix(x: FlatResidual, commodity: Json, regime: Json, entries: seq<Json>, n: nat)
    requires n <= |entries| && LineOf(x, commodity, regime, entries[..n])
    ensures LineOf(x, commodity, regime, entries)
  {
    var e :| e in entries[..n] && e.JObject? && LineFrom(x, commodity, regime, e.members);
    assert e in entries;
  }

  /** Strings that do not contain 'residual' are skipped with a warning. */
  lemma {:induction false} PlainStringsGiveNoLines(commodity: Json, regime: Json, entries: seq<Json>)
    requires forall i :: 0 <= i < |entries| ==> entries[i].JStr? && !Contains(entries[i].s, "residual")
    ensures FlattenEntries(commodity, regime, entries) == Ok([])
    decreases |entries|
  {
    if entries != [] {
      var n := |entries| - 1;
      forall i | 0 <= i < n ensures entries[..n][i].JStr? && !Contains(entries[..n][i].s, "residual") {
        assert entries[..n][i] == entries[i];
      }
      PlainStringsGiveNoLines(commodity, regime, entries[..n]);
      assert FlattenEntry(commodity, regime, entries[n]) == Ok(None);
      assert FlattenEntries(commodity, regime, entries[..n]) == Ok([]);
      var none: seq<FlatResidual> := [];
      assert none + none == none;
    }
  }

  /** A string where the residual list should be is iterated character by
      character; no one-character string contains 'residual', so the
      result gives no lines and raises nothing. */
  lemma StringResidualsGiveNoLines(m: seq<(string, Json)>, text: string)
    requires Get(m, "residuals") == Some(JStr(text))
    ensures FlattenResult(JObject(m)) == Ok([])
  {
    var entries := Iterate(JStr(text)).value;
    forall i | 0 <= i < |entries| ensures entries[i].JStr? && !Contains(entries[i].s, "residual") {
      assert entries[i] == JStr([text[i]]);
    }
    PlainStringsGiveNoLines(FieldOr(m, "commodity", JStr("Unknown Commodity")), FieldOr(m, "regime", JStr("Unknown Regime")), entries);
  }

  /** Results without a commodity or regime key are labelled with the
      defaults. */
  lemma FlattenResultDefaults(m: seq<(string, Json)>)
    requires FlattenResult(JObject(m)).Ok?
    ensures "commodity" !in KeysOf(m) ==>
      forall x :: x in FlattenResult(JObject(m)).value ==> x.commodity == JStr("Unknown Commodity")
    ensures "regime" !in KeysOf(m) ==>
      forall x :: x in FlattenResult(JObject(m)).value ==> x.regime == JStr("Unknown Regime")
  {
    var entries := Iterate(FieldOr(m, "residuals", JArray([]))).value;
    FlattenEntriesMeaning(FieldOr(m, "commodity", JStr("Unknown Commodity")), FieldOr(m, "regime", JStr("Unknown Regime")), entries);
  }

  // ---------------------------------------------------------------------
  // export_spatial_weights

  /** Every key of the neighbour dictionary and every neighbour index is a
      row position of the frame. */
  predicate IndicesFit(nb: seq<seq<nat>>, n: nat) {
    |nb| <= n && forall k :: 0 <= k < |nb| ==> forall i :: 0 <= i < |nb[k]| ==> nb[k][i] < n
  }

  /** The region ids of the neighbours of row `k`, in neighbour order. */
  function NeighbourRegions(ids: seq<Cell>, nb: seq<seq<nat>>, k: nat): (rs: seq<Cell>)
    requires IndicesFit(nb, |ids|) && k < |nb|
    ensures |rs| == |nb[k]| && forall i :: 0 <= i < |nb[k]| ==> rs[i] == ids[nb[k][i]]
  {
    seq(|nb[k]|, i requires 0 <= i < |nb[k]| => ids[nb[k][i]])
  }

  function RegionRows(ids: seq<Cell>, nb: seq<seq<nat>>): (ps: seq<(Cell, seq<Cell>)>)
    requires IndicesFit(nb, |ids|)
    ensures |ps| == |nb|
  {
    seq(|nb|, k requires 0 <= k < |nb| => (ids[k], NeighbourRegions(ids, nb, k)))
  }

  /** `export_spatial_weights`: each positional key becomes its region id
      and each neighbour list the list of the neighbours' region ids. A
      failing KNN or an index past the frame is logged, and nothing is
      written (None). */
  method ExportSpatialWeights(ids: seq<Cell>, knn: Option<seq<seq<nat>>>) returns (r: Option<map<Cell, seq<Cell>>>)
    ensures r.Some? <==> knn.Some? && IndicesFit(knn.value, |ids|)
    ensures r.Some? ==> r.value == MapFrom(RegionRows(ids, knn.value))
  {
    if knn.None? {
      return None;
    }
    var nb := knn.value;
    if !IndicesFit(nb, |ids|) {
      return None;
    }
    var rows := RegionRows(ids, nb);
    var weights: map<Cell, seq<Cell>> := map[];
    var k := 0;
    while k < |nb|
      invariant 0 <= k <= |nb|
      invariant weights == MapFrom(rows[..k])
    {
      assert rows[..k + 1][..k] == rows[..k];
      var regions := seq(|nb[k]|, i requires 0 <= i < |nb[k]| => ids[nb[k][i]]);
      weights := weights[ids[k] := regions];
      k := k + 1;
    }
    assert rows[..|nb|] == rows;
    r := Some(weights);
  }

  /** The keys are the region ids of the listed rows; a region id repeated
      among them keeps the neighbour list of its last row, and that list
      is the row's neighbours in order, each by its region id. */
  lemma ExportSpatialWeightsMeaning(ids: seq<Cell>, nb: seq<seq<nat>>, k: nat)
    requires IndicesFit(nb, |ids|)
    requires k < |nb| && forall k' :: k < k' < |nb| ==> ids[k'] != ids[k]
    ensures forall c :: c in MapFrom(RegionRows(ids, nb)) <==> exists j :: 0 <= j < |nb| && ids[j] == c
    ensures ids[k] in MapFrom(RegionRows(ids, nb))
    ensures |MapFrom(RegionRows(ids, nb))[ids[k]]| == |nb[k]|
    ensures forall i :: 0 <= i < |nb[k]| ==> MapFrom(RegionRows(ids, nb))[ids[k]][i] == ids[nb[k][i]]
  {
    var rows := RegionRows(ids, nb);
    forall c ensures c in MapFrom(rows) <==> exists j :: 0 <= j < |nb| && ids[j] == c {
      if exists j :: 0 <= j < |nb| && ids[j] == c {
        var j :| 0 <= j < |nb| && ids[j] == c;
        assert rows[j].0 == c;
      }
    }
    MapFromLastWins(rows, k);
  }

  // ---------------------------------------------------------------------
  // generate_network_data

  /** One edge of the network graph. */
  datatype Edge = Edge(source: Cell, target: Cell, weight: real)

  /** KNN's neighbour lists cover every row position and point only at
      rows of the frame. */
  predicate CoversRows(nb: seq<seq<nat>>, n: nat) {
    |nb| >= n && forall k :: 0 <= k < n ==> forall i :: 0 <= i < |nb[k]| ==> nb[k][i] < n
  }

  /** The edges of the first `n` rows: one per neighbour, weighted by the
      source row's spatial lag. */
  function EdgesUpTo(ids: seq<Cell>, lag: seq<real>, nb: seq<seq<nat>>, n: nat): seq<Edge>
    requires |lag| == |ids| && CoversRows(nb, |ids|) && n <= |ids|
    decreases n
  {
    if n == 0 then []
    else
      var k := n - 1;
      EdgesUpTo(ids, lag, nb, k) + seq(|nb[k]|, i requires 0 <= i < |nb[k]| => Edge(ids[k], ids[nb[k][i]], lag[k]))
  }

  /** The edge of neighbour `i` of row `k` follows the edges of all earlier
      rows; it joins the two rows' region ids and carries row `k`'s lag. */
  lemma {:induction false} NetworkEdgeLayout(ids: seq<Cell>, lag: seq<real>, nb: seq<seq<nat>>, n: nat, k: nat, i: nat)
    requires |lag| == |ids| && CoversRows(nb, |ids|) && n <= |ids|
    requires k < n && i < |nb[k]|
    ensures |EdgesUpTo(ids, lag, nb, n)| == NeighbourCount(nb, n)
    ensures NeighbourCount(nb, k) + i < |EdgesUpTo(ids, lag, nb, n)|
    ensures EdgesUpTo(ids, lag, nb, n)[NeighbourCount(nb, k) + i] == Edge(ids[k], ids[nb[k][i]], lag[k])
    decreases n
  {
    EdgesLength(ids, lag, nb, n - 1);
    if k < n - 1 {
      NetworkEdgeLayout(ids, lag, nb, n - 1, k, i);
      NeighbourCountMonotone(nb, k + 1, n - 1);
    }
  }

  lemma {:induction false} EdgesLength(ids: seq<Cell>, lag: seq<real>, nb: seq<seq<nat>>, n: nat)
    requires |lag| == |ids| && CoversRows(nb, |ids|) && n <= |ids|
    ensures |EdgesUpTo(ids, lag, nb, n)| == NeighbourCount(nb, n)
    decreases n
  {
    if n > 0 {
      EdgesLength(ids, lag, nb, n - 1);
    }
  }

  /** The frame `generate_network_data` works on: its region ids and, when
      present, its `spatial_lag_price` column. */
  class NetworkFrame {
    var regionIds: seq<Cell>
    var spatialLag: Option<seq<real>>

    /** A data-frame column has one cell per row. */
    ghost predicate Valid()
      reads this
    {
      spatialLag.Some? ==> |spatialLag.value| == |regionIds|
    }

    constructor(ids: seq<Cell>, lag: Option<seq<real>>)
      requires lag.Some? ==> |lag.value| == |ids|
      ensures Valid() && regionIds == ids && spatialLag == lag
    {
      regionIds := ids;
      spatialLag := lag;
    }

    /** `generate_network_data`: the lag column is added first when it is
        missing (`lagProduct` is `w.sparse.dot(usdprice)`), then one edge per
        (row, neighbour). A failing KNN or an index past the frame is
        logged and no edge table is written (None); a lag added before
        the failure stays on the frame. */
    method GenerateNetworkData(knn: Option<seq<seq<nat>>>, lagProduct: seq<real>) returns (edges: Option<seq<Edge>>)
      requires Valid()
      modifies this
      ensures Valid() && regionIds == old(regionIds)
      ensures old(spatialLag).Some? ==> spatialLag == old(spatialLag)
      ensures old(spatialLag).None? ==>
        spatialLag == (if knn.Some? && |lagProduct| == |regionIds| then Some(lagProduct) else None)
      ensures edges.Some? <==> knn.Some? && spatialLag.Some? && CoversRows(knn.value, |regionIds|)
      ensures edges.Some? ==> edges.value == EdgesUpTo(regionIds, spatialLag.value, knn.value, |regionIds|)
    {
      if spatialLag.None? {
        if knn.None? || |lagProduct| != |regionIds| {
          return None;
        }
        spatialLag := Some(lagProduct);
      }
      if knn.None? {
        return None;
      }
      var nb := knn.value;
      var ids := regionIds;
      var lag := spatialLag.value;
      if !CoversRows(nb, |ids|) {
        return None;
      }
      var flow: seq<Edge> := [];
      var k := 0;
      while k < |ids|
        invariant 0 <= k <= |ids|
        invariant flow == EdgesUpTo(ids, lag, nb, k)
      {
        var i := 0;
        var rowEdges: seq<Edge> := [];
        while i < |nb[k]|
          invariant 0 <= i <= |nb[k]|
          invariant rowEdges == seq(i, j requires 0 <= j < i => Edge(ids[k], ids[nb[k][j]], lag[k]))
        {
          rowEdges := rowEdges + [Edge(ids[k], ids[nb[k][i]], lag[k])];
          i := i + 1;
        }
        flow := flow + rowEdges;
        k := k + 1;
      }
      edges := Some(flow);
    }
  }
}

=== FILE: cointegration.dfy ===
/** The cointegration gate of both ECM scripts (`run_cointegration_tests`):
    the price and conflict-intensity columns of one unit are joined
    positionally, the Engle-Granger test is an oracle over the joined rows,
    and `cointegrated` is exactly "p-value below 0.05". */
module Cointegration {
  import opened Common
  import opened Stationarity

  /** One row of the inner join: (price, conflict intensity). Both columns
      come from the same frame, so the inner join keeps every row. */
  type Row = (Num, Num)

  /** What `engle_granger` reports on the rows it is given. */
  datatype EgOutcome = EgThrew | EgOk(stat: real, pValue: real, criticalValues: seq<real>, rho: real)

  datatype EgRecord = EgRecord(
    stat: real, pValue: real, criticalValues: seq<real>, cointegrated: bool, rho: Option<real>)

  /** The per-unit stationarity entry: one result per variable. */
  datatype UnitStationarity = UnitStationarity(usdprice: StationarityResult, conflictIntensity: StationarityResult)

  datatype CointegrationResult = CointegrationResult(
    engleGranger: EgRecord, priceTransformation: Transform, conflictTransformation: Transform)

  predicate RowHasNaN(row: Row) {
    row.0.NaN? || row.1.NaN?
  }

  /** `DataFrame.dropna()` on the two-column join: rows holding a NaN in
      either column go, every other row stays, in order. Infinite values
      are not NaN and stay. */
  function DropNaRows(rows: seq<Row>): (r: seq<Row>)
    ensures |r| <= |rows|
    ensures forall i :: 0 <= i < |r| ==> !RowHasNaN(r[i]) && r[i] in rows
    ensures forall i :: 0 <= i < |rows| && !RowHasNaN(rows[i]) ==> rows[i] in r
  {
    if rows == [] then []
    else if RowHasNaN(rows[0]) then DropNaRows(rows[1..])
    else [rows[0]] + DropNaRows(rows[1..])
  }

  /** `dropna` works row by row: on two blocks of rows it is the drop of the
      first followed by the drop of the second, and one row is kept exactly
      when it holds no NaN. Together these fix the order and the number of
      copies of every kept row. */
  lemma {:induction false} DropNaRowsAppend(a: seq<Row>, b: seq<Row>)
    ensures DropNaRows(a + b) == DropNaRows(a) + DropNaRows(b)
    ensures |a| == 1 ==> DropNaRows(a) == if RowHasNaN(a[0]) then [] else a
    decreases |a|
  {
    if a != [] {
      assert (a + b)[0] == a[0] && (a + b)[1..] == a[1..] + b;
      DropNaRowsAppend(a[1..], b);
    } else {
      assert a + b == b;
    }
  }

  /** A join without NaN loses nothing. */
  lemma {:induction false} DropNaRowsKeepsCleanRows(rows: seq<Row>)
    requires forall i :: 0 <= i < |rows| ==> !RowHasNaN(rows[i])
    ensures DropNaRows(rows) == rows
  {
    if rows != [] {
      DropNaRowsKeepsCleanRows(rows[1..]);
    }
  }

  /** `run_cointegration_tests` of the newer script: NaN rows are dropped,
      fewer than two remaining rows or a failing test give no result. */
  function RunCointegrationTests(rows: seq<Row>, st: UnitStationarity, eg: seq<Row> -> EgOutcome): (r: Option<CointegrationResult>)
    ensures r.Some? <==> |DropNaRows(rows)| >= 2 && eg(DropNaRows(rows)).EgOk?
    ensures r.Some? ==>
      var o := eg(DropNaRows(rows));
      && r.value.engleGranger.pValue == o.pValue
      && (r.value.engleGranger.cointegrated <==> o.pValue < SIGNIFICANCE)
      && r.value.engleGranger.rho == Some(o.rho)
      && r.value.priceTransformation == st.usdprice.transformation
      && r.value.conflictTransformation == st.conflictIntensity.transformation
  {
    var aligned := DropNaRows(rows);
    if |aligned| < 2 then None
    else match eg(aligned)
      case EgThrew => None
      case EgOk(stat, p, cv, rho) =>
        Some(CointegrationResult(EgRecord(stat, p, cv, p < SIGNIFICANCE, Some(rho)),
          st.usdprice.transformation, st.conflictIntensity.transformation))
  }

  /** `run_cointegration_tests` of the older script: the join is not
      cleaned of NaN rows and no rho is recorded. */
  function RunCointegrationTestsLegacy(rows: seq<Row>, st: UnitStationarity, eg: seq<Row> -> EgOutcome): (r: Option<CointegrationResult>)
    ensures r.Some? <==> |rows| >= 2 && eg(rows).EgOk?
    ensures r.Some? ==>
      && r.value.engleGranger.pValue == eg(rows).pValue
      && (r.value.engleGranger.cointegrated <==> eg(rows).pValue < SIGNIFICANCE)
      && r.value.engleGranger.rho.None?
  {
    if |rows| < 2 then None
    else match eg(rows)
      case EgThrew => None
      case EgOk(stat, p, cv, _) =>
        Some(CointegrationResult(EgRecord(stat, p, cv, p < SIGNIFICANCE, None),
          st.usdprice.transformation, st.conflictIntensity.transformation))
  }

  /** On a join without NaN the two scripts pass and fail the gate together
      and agree on `cointegrated`; they differ only in the rho field. */
  lemma VariantsAgreeWithoutNaN(rows: seq<Row>, st: UnitStationarity, eg: seq<Row> -> EgOutcome)
    requires forall i :: 0 <= i < |rows| ==> !RowHasNaN(rows[i])
    ensures RunCointegrationTests(rows, st, eg).Some? == RunCointegrationTestsLegacy(rows, st, eg).Some?
    ensures RunCointegrationTests(rows, st, eg).Some? ==>
      RunCointegrationTests(rows, st, eg).value.engleGranger.cointegrated ==
      RunCointegrationTestsLegacy(rows, st, eg).value.engleGranger.cointegrated
  {
    DropNaRowsKeepsCleanRows(rows);
  }
}

=== FILE: common.dfy ===
/** Shared vocabulary of the econometrics pipeline: optional values, numbers
    that may be NaN or infinite, the configuration constants and the decimal
    rendering of integers used when numeric keys become strings. */
module Common {

  datatype Option<+T> = None | Some(value: T) {
    function GetOr(default: T): T {
      match this
      case Some(v) => v
      case None => default
    }
  }

  /** An operation that either yields a value or raises with a message. */
  datatype Result<+T> = Ok(value: T) | Failure(message: string)

  /** A floating-point cell of a data frame: a real value, NaN or an infinity. */
  datatype Num = Real(v: real) | NaN | Inf

  /** Minimum number of rows a (commodity, regime) unit needs (project_config). */
  const MIN_OBSERVATIONS: nat := 30
  /** Hard cap on the VECM lag order (project_config). */
  const ECM_LAGS: nat := 2
  /** Search ceiling of the lag-order selection and Granger tests (project_config). */
  const COINTEGRATION_MAX_LAGS: nat := 12

  /** The significance level every test in the pipeline compares against. */
  const SIGNIFICANCE: real := 0.05

  /** The commodities every per-commodity loop walks (project_config). */
  const COMMODITIES: seq<string> := [
    "Beans (kidney red)", "Beans (white)", "Eggs", "Fuel (diesel)", "Fuel (gas)",
    "Fuel (petrol-gasoline)", "Lentils", "Livestock (sheep, two-year-old male)",
    "Oil (vegetable)", "Onions", "Peas (yellow, split)", "Rice (imported)", "Salt",
    "Sugar", "Tomatoes", "Wheat flour", "Wheat"]

  /** The exchange-rate regimes (project_config). */
  const EXCHANGE_RATE_REGIMES: seq<string> := ["North", "South", "Unified"]

  /** The commodity whose prices are exchange rates. */
  const EXCHANGE_RATE_COMMODITY: string := "Exchange rate (unofficial)"

  predicate AllReal(s: seq<Num>) {
    forall i :: 0 <= i < |s| ==> s[i].Real?
  }

  function Values(s: seq<Num>): (r: seq<real>)
    requires AllReal(s)
    ensures |r| == |s|
    ensures forall i :: 0 <= i < |s| ==> r[i] == s[i].v
  {
    if s == [] then [] else [s[0].v] + Values(s[1..])
  }

  function DigitChar(d: nat): (c: char)
    requires d < 10
    ensures '0' <= c <= '9'
  {
    "0123456789"[d]
  }

  function NatToString(n: nat): (s: string)
    ensures |s| >= 1
    ensures forall i :: 0 <= i < |s| ==> '0' <= s[i] <= '9'
    decreases n
  {
    if n < 10 then [DigitChar(n)] else NatToString(n / 10) + [DigitChar(n % 10)]
  }

  /** Python's `str(i)` for an integer. */
  function IntToString(i: int): (s: string)
    ensures |s| >= 1
    ensures (i < 0) == (s[0] == '-')
  {
    if i < 0 then "-" + NatToString(-i) else NatToString(i)
  }

  /** Splitting off the last element of the second block of a concatenation. */
  lemma AppendSplitLast<T>(a: seq<T>, b: seq<T>)
    requires b != []
    ensures b == b[..|b| - 1] + [b[|b| - 1]]
    ensures a + b == (a + b[..|b| - 1]) + [b[|b| - 1]]
  {
  }

  lemma AppendAssociates<T>(x: seq<T>, y: seq<T>, z: seq<T>)
    ensures (x + y) + z == x + (y + z)
  {
  }
}

=== FILE: consolidation.dfy ===
/** Result assembly of the newer ECM script: `save_results` builds the
    commodity -> regime -> record map and back-fills the eight required
    fields, and `create_summary_report` counts and pairs results with
    diagnostics. */
module Consolidation {
  import opened Common
  import opened Cointegration
  import opened EcmPipeline

  /** The value stored under one field of a consolidated record. The
      `Default…` and `EmptyObject` variants are the literals the script
      writes when nothing matches; `NullValue` is a None the back-fill replaces. */
  datatype Field =
    | Ecm(result: EcmResult)
    | EcmSkeleton(commodity: string, regime: string)
    | Diag(diagnostic: Diagnostic)
    | Summary(summary: Tagged<string>)
    | IrfRecord(irf: Tagged<Irf>)
    | FevdRecord(fevd: Tagged<seq<seq<real>>>)
    | DefaultIrf
    | DefaultFevd
    | StationarityEntry(stationarity: UnitStationarity)
    | CointegrationEntry(cointegration: CointegrationResult)
    | Granger(granger: map<string, seq<real>>)
    | EmptyObject
    | NullValue

  type Entry = map<string, Field>
  type Consolidated = map<string, map<string, Entry>>

  const RequiredFields: seq<string> :=
    ["ecm_results", "diagnostics", "summaries", "irfs", "fevds",
     "stationarity_results", "cointegration_results", "granger_causality"]

  /** `next((d for d in diagnostics if ...), None)`: the first record of the unit. */
  function FirstDiagnostic(ds: seq<Diagnostic>, c: string, r: string): (o: Option<Diagnostic>)
    ensures o.Some? ==> exists k :: 0 <= k < |ds| && ds[k] == o.value && ds[k].commodity == c && ds[k].regime == r
    ensures o.None? ==> forall k :: 0 <= k < |ds| ==> !(ds[k].commodity == c && ds[k].regime == r)
    ensures o.Some? ==> o.value.commodity == c && o.value.regime == r
  {
    if ds == [] then None
    else if ds[0].commodity == c && ds[0].regime == r then Some(ds[0])
    else FirstDiagnostic(ds[1..], c, r)
  }

  /** `k` is the first position of a diagnostics record of unit (c, r). */
  predicate DiagnosticAt(ds: seq<Diagnostic>, k: int, c: string, r: string) {
    && 0 <= k < |ds| && ds[k].commodity == c && ds[k].regime == r
    && forall j :: 0 <= j < k ==> !(ds[j].commodity == c && ds[j].regime == r)
  }

  predicate HasDiagnostic(ds: seq<Diagnostic>, c: string, r: string) {
    exists k :: 0 <= k < |ds| && ds[k].commodity == c && ds[k].regime == r
  }

  /** `next` returns the record at the first matching position. */
  lemma {:induction false} FirstDiagnosticIsFirst(ds: seq<Diagnostic>, c: string, r: string)
    ensures forall k :: DiagnosticAt(ds, k, c, r) ==> FirstDiagnostic(ds, c, r) == Some(ds[k])
    decreases |ds|
  {
    if ds != [] && !(ds[0].commodity == c && ds[0].regime == r) {
      FirstDiagnosticIsFirst(ds[1..], c, r);
      forall k | DiagnosticAt(ds, k, c, r) ensures FirstDiagnostic(ds, c, r) == Some(ds[k]) {
        assert DiagnosticAt(ds[1..], k - 1, c, r) by {
          forall j | 0 <= j < k - 1 ensures ds[1..][j] == ds[j + 1] {}
        }
      }
    }
  }

  function FirstTagged<T>(xs: seq<Tagged<T>>, c: string, r: string): (o: Option<Tagged<T>>)
    ensures o.Some? ==> o.value in xs && o.value.commodity == c && o.value.regime == r
    ensures o.None? ==> forall k :: 0 <= k < |xs| ==> !(xs[k].commodity == c && xs[k].regime == r)
  {
    if xs == [] then None
    else if xs[0].commodity == c && xs[0].regime == r then Some(xs[0])
    else FirstTagged(xs[1..], c, r)
  }

  /** `k` is the first position of a record of unit (c, r). */
  predicate TaggedAt<T>(xs: seq<Tagged<T>>, k: int, c: string, r: string) {
    && 0 <= k < |xs| && xs[k].commodity == c && xs[k].regime == r
    && forall j :: 0 <= j < k ==> !(xs[j].commodity == c && xs[j].regime == r)
  }

  predicate HasTagged<T>(xs: seq<Tagged<T>>, c: string, r: string) {
    exists k :: 0 <= k < |xs| && xs[k].commodity == c && xs[k].regime == r
  }

  lemma {:induction false} FirstTaggedIsFirst<T>(xs: seq<Tagged<T>>, c: string, r: string)
    ensures forall k :: TaggedAt(xs, k, c, r) ==> FirstTagged(xs, c, r) == Some(xs[k])
    decreases |xs|
  {
    if xs != [] && !(xs[0].commodity == c && xs[0].regime == r) {
      FirstTaggedIsFirst(xs[1..], c, r);
      forall k | TaggedAt(xs, k, c, r) ensures FirstTagged(xs, c, r) == Some(xs[k]) {
        assert TaggedAt(xs[1..], k - 1, c, r) by {
          forall j | 0 <= j < k - 1 ensures xs[1..][j] == xs[j + 1] {}
        }
      }
    }
  }

  /** The side lists and maps `save_results` receives besides the results. */
  datatype Inputs = Inputs(
    diagnostics: seq<Diagnostic>, summaries: seq<Tagged<string>>, irfs: seq<Tagged<Irf>>,
    fevds: seq<Tagged<seq<seq<real>>>>, stationarity: map<string, UnitStationarity>,
    cointegration: map<string, CointegrationResult>)

  /** The record stored for one result (lines 461-470). EntryForRecords and
      EntryForTests state what each field holds. */
  function EntryFor(res: EcmResult, inp: Inputs): (e: Entry)
    ensures e.Keys == set f | f in RequiredFields
    ensures e["ecm_results"] == Ecm(res)
    ensures forall f :: f in e ==> !e[f].NullValue?
  {
    var c, r := res.commodity, res.regime;
    var key := UnitKey(c, r);
    var d := FirstDiagnostic(inp.diagnostics, c, r);
    var s := FirstTagged(inp.summaries, c, r);
    var i := FirstTagged(inp.irfs, c, r);
    var f := FirstTagged(inp.fevds, c, r);
    map[
      "ecm_results" := Ecm(res),
      "diagnostics" := if d.Some? then Diag(d.value) else EmptyObject,
      "summaries" := if s.Some? then Summary(s.value) else EmptyObject,
      "irfs" := if i.Some? then IrfRecord(i.value) else DefaultIrf,
      "fevds" := if f.Some? then FevdRecord(f.value) else DefaultFevd,
      "stationarity_results" := if key in inp.stationarity then StationarityEntry(inp.stationarity[key]) else EmptyObject,
      "cointegration_results" := if key in inp.cointegration then CointegrationEntry(inp.cointegration[key]) else EmptyObject,
      "granger_causality" := Granger(res.granger)]
  }

  /** The looked-up diagnostics of a stored record: the first diagnostics
      record of the result's unit, or `{}` when the unit has none. */
  lemma EntryForDiagnostics(res: EcmResult, inp: Inputs)
    ensures forall k :: DiagnosticAt(inp.diagnostics, k, res.commodity, res.regime) ==>
      EntryFor(res, inp)["diagnostics"] == Diag(inp.diagnostics[k])
    ensures !HasDiagnostic(inp.diagnostics, res.commodity, res.regime) ==> EntryFor(res, inp)["diagnostics"] == EmptyObject
  {
    var e, c, r := EntryFor(res, inp), res.commodity, res.regime;
    var d := FirstDiagnostic(inp.diagnostics, c, r);
    assert e["diagnostics"] == if d.Some? then Diag(d.value) else EmptyObject;
    FirstDiagnosticIsFirst(inp.diagnostics, c, r);
  }

  /** Likewise the summary: the first of the unit, or `{}`. */
  lemma EntryForSummaries(res: EcmResult, inp: Inputs)
    ensures forall k :: TaggedAt(inp.summaries, k, res.commodity, res.regime) ==>
      EntryFor(res, inp)["summaries"] == Summary(inp.summaries[k])
    ensures !HasTagged(inp.summaries, res.commodity, res.regime) ==> EntryFor(res, inp)["summaries"] == EmptyObject
  {
    var e, c, r := EntryFor(res, inp), res.commodity, res.regime;
    var o := FirstTagged(inp.summaries, c, r);
    assert e["summaries"] == if o.Some? then Summary(o.value) else EmptyObject;
    FirstTaggedIsFirst(inp.summaries, c, r);
  }

  /** The IRF: the first of the unit, or the script's empty impulse-response object. */
  lemma EntryForIrfs(res: EcmResult, inp: Inputs)
    ensures forall k :: TaggedAt(inp.irfs, k, res.commodity, res.regime) ==>
      EntryFor(res, inp)["irfs"] == IrfRecord(inp.irfs[k])
    ensures !HasTagged(inp.irfs, res.commodity, res.regime) ==> EntryFor(res, inp)["irfs"] == DefaultIrf
  {
    var e, c, r := EntryFor(res, inp), res.commodity, res.regime;
    var o := FirstTagged(inp.irfs, c, r);
    assert e["irfs"] == if o.Some? then IrfRecord(o.value) else DefaultIrf;
    FirstTaggedIsFirst(inp.irfs, c, r);
  }

  /** The FEVD: the first of the unit, or the script's empty decomposition object. */
  lemma EntryForFevds(res: EcmResult, inp: Inputs)
    ensures forall k :: TaggedAt(inp.fevds, k, res.commodity, res.regime) ==>
      EntryFor(res, inp)["fevds"] == FevdRecord(inp.fevds[k])
    ensures !HasTagged(inp.fevds, res.commodity, res.regime) ==> EntryFor(res, inp)["fevds"] == DefaultFevd
  {
    var e, c, r := EntryFor(res, inp), res.commodity, res.regime;
    var o := FirstTagged(inp.fevds, c, r);
    assert e["fevds"] == if o.Some? then FevdRecord(o.value) else DefaultFevd;
    FirstTaggedIsFirst(inp.fevds, c, r);
  }

  /** The keyed fields of a stored record: `.get(f"{commodity}_{regime}", {})`
      on the two test maps, and the result's own Granger map. */
  lemma EntryForTests(res: EcmResult, inp: Inputs)
    ensures UnitKey(res.commodity, res.regime) in inp.stationarity ==>
      EntryFor(res, inp)["stationarity_results"] == StationarityEntry(inp.stationarity[UnitKey(res.commodity, res.regime)])
    ensures UnitKey(res.commodity, res.regime) !in inp.stationarity ==>
      EntryFor(res, inp)["stationarity_results"] == EmptyObject
    ensures UnitKey(res.commodity, res.regime) in inp.cointegration ==>
      EntryFor(res, inp)["cointegration_results"] == CointegrationEntry(inp.cointegration[UnitKey(res.commodity, res.regime)])
    ensures UnitKey(res.commodity, res.regime) !in inp.cointegration ==>
      EntryFor(res, inp)["cointegration_results"] == EmptyObject
    ensures EntryFor(res, inp)["granger_causality"] == Granger(res.granger)
  {
  }

  /** `if not commodity or not regime: continue` — the empty string is falsy. */
  predicate Keyed(res: EcmResult) {
    res.commodity != "" && res.regime != ""
  }

  function Store(cons: Consolidated, res: EcmResult, inp: Inputs): Consolidated {
    if !Keyed(res) then cons
    else
      var inner := if res.commodity in cons then cons[res.commodity] else map[];
      cons[res.commodity := inner[res.regime := EntryFor(res, inp)]]
  }

  /** The first loop of `save_results` over `ecm_results`, in order. */
  function Consolidate(results: seq<EcmResult>, inp: Inputs): Consolidated
    decreases |results|
  {
    if results == [] then map[]
    else Store(Consolidate(results[..|results| - 1], inp), results[|results| - 1], inp)
  }

  method ConsolidateResults(results: seq<EcmResult>, inp: Inputs) returns (cons: Consolidated)
    ensures cons == Consolidate(results, inp)
  {
    cons := map[];
    var i := 0;
    while i < |results|
      invariant 0 <= i <= |results|
      invariant cons == Consolidate(results[..i], inp)
    {
      var res := results[i];
      assert results[..i + 1][..i] == results[..i];
      i := i + 1;
      if res.commodity == "" || res.regime == "" {
        continue;
      }
      if res.commodity !in cons {
        cons := cons[res.commodity := map[]];
      }
      cons := cons[res.commodity := cons[res.commodity][res.regime := EntryFor(res, inp)]];
    }
    assert results[..|results|] == results;
  }

  /** A result that is stored under (c, r). */
  predicate StoredAs(res: EcmResult, c: string, r: string) {
    Keyed(res) && res.commodity == c && res.regime == r
  }

  /** Every field of a record is one of the eight required ones, all eight
      are there, and none of them is None. */
  predicate Complete(e: Entry) {
    e.Keys == (set f | f in RequiredFields) && forall f :: f in e ==> !e[f].NullValue?
  }

  predicate AllComplete(cons: Consolidated) {
    forall c, r :: c in cons && r in cons[c] ==> Complete(cons[c][r])
  }

  lemma StoreKeys(cons: Consolidated, res: EcmResult, inp: Inputs, c: string, r: string)
    ensures (c in Store(cons, res, inp) && r in Store(cons, res, inp)[c]) <==> (c in cons && r in cons[c]) || StoredAs(res, c, r)
  {
  }

  /** The (commodity, regime) pairs present are exactly those of the
      results with a non-empty commodity and regime. */
  lemma {:induction false} ConsolidateKeys(results: seq<EcmResult>, inp: Inputs, c: string, r: string)
    ensures var cons := Consolidate(results, inp);
            (c in cons && r in cons[c]) <==> exists i :: 0 <= i < |results| && StoredAs(results[i], c, r)
    decreases |results|
  {
    if results != [] {
      var init := results[..|results| - 1];
      ConsolidateKeys(init, inp, c, r);
      StoreKeys(Consolidate(init, inp), results[|results| - 1], inp, c, r);
      if exists i :: 0 <= i < |init| && StoredAs(init[i], c, r) {
        var i :| 0 <= i < |init| && StoredAs(init[i], c, r);
        assert results[i] == init[i];
      }
      if exists i :: 0 <= i < |results| && StoredAs(results[i], c, r) {
        var i :| 0 <= i < |results| && StoredAs(results[i], c, r);
        if i < |init| { assert results[i] == init[i]; }
      }
    }
  }

  /** When several results share a (commodity, regime), the last one wins. */
  lemma {:induction false} ConsolidateLastWins(results: seq<EcmResult>, inp: Inputs, i: nat)
    requires i < |results| && Keyed(results[i])
    requires forall j :: i < j < |results| ==> !StoredAs(results[j], results[i].commodity, results[i].regime)
    ensures var cons := Consolidate(results, inp);
            var c, r := results[i].commodity, results[i].regime;
            c in cons && r in cons[c] && "ecm_results" in cons[c][r] && cons[c][r]["ecm_results"] == Ecm(results[i])
    decreases |results|
  {
    if i < |results| - 1 {
      var init := results[..|results| - 1];
      assert init[i] == results[i];
      forall j | i < j < |init| ensures !StoredAs(init[j], init[i].commodity, init[i].regime) {
        assert init[j] == results[j];
      }
      ConsolidateLastWins(init, inp, i);
    }
  }

  /** Every stored record has all eight required fields, none of them None. */
  lemma {:induction false} ConsolidateComplete(results: seq<EcmResult>, inp: Inputs)
    ensures AllComplete(Consolidate(results, inp))
    decreases |results|
  {
    if results != [] {
      ConsolidateComplete(results[..|results| - 1], inp);
      StoreKeepsComplete(Consolidate(results[..|results| - 1], inp), results[|results| - 1], inp);
    }
  }

  lemma StoreKeepsComplete(cons: Consolidated, res: EcmResult, inp: Inputs)
    requires AllComplete(cons)
    ensures AllComplete(Store(cons, res, inp))
  {
    var s := Store(cons, res, inp);
    forall c, r | c in s && r in s[c] ensures Complete(s[c][r]) {
      if Keyed(res) && c == res.commodity && r == res.regime {
        assert s[c][r] == EntryFor(res, inp);
      } else {
        assert s[c][r] == cons[c][r];
      }
    }
  }

  function DefaultFor(field: string, c: string, r: string): Field {
    if field == "ecm_results" then EcmSkeleton(c, r) else EmptyObject
  }

  /** The back-fill loop over the required fields of one record (lines 476-519). */
  function FillFields(e: Entry, fields: seq<string>, c: string, r: string): (e': Entry)
    ensures e'.Keys == e.Keys + set f | f in fields
    ensures forall f :: f in e' && f in fields ==> !e'[f].NullValue?
    ensures forall f :: f in e && !e[f].NullValue? ==> e'[f] == e[f]
    ensures forall f :: f in fields && (f !in e || e[f].NullValue?) ==>
      e'[f] == if f == "ecm_results" then EcmSkeleton(c, r) else EmptyObject
    decreases |fields|
  {
    if fields == [] then e
    else
      var f := fields[0];
      var e1 := if f !in e || e[f].NullValue? then e[f := DefaultFor(f, c, r)] else e;
      FillFields(e1, fields[1..], c, r)
  }

  /** The back-fill pass of `save_results` over every stored record. */
  function BackFill(cons: Consolidated): (r: Consolidated)
    ensures r.Keys == cons.Keys
    ensures forall c :: c in r ==> r[c].Keys == cons[c].Keys
    ensures forall c, g :: c in r && g in r[c] ==>
              (forall f :: f in RequiredFields ==> f in r[c][g] && !r[c][g][f].NullValue?)
  {
    map c | c in cons :: map g | g in cons[c] :: FillFields(cons[c][g], RequiredFields, c, g)
  }

  lemma {:induction false} FillFieldsKeepsFilled(e: Entry, fields: seq<string>, c: string, r: string)
    requires forall f :: f in fields ==> f in e && !e[f].NullValue?
    ensures FillFields(e, fields, c, r) == e
    decreases |fields|
  {
    if fields != [] {
      FillFieldsKeepsFilled(e, fields[1..], c, r);
    }
  }

  /** The back-fill never changes a record the first loop built: every
      required field is already present and none of them is None. */
  lemma BackFillChangesNothing(results: seq<EcmResult>, inp: Inputs)
    ensures BackFill(Consolidate(results, inp)) == Consolidate(results, inp)
  {
    ConsolidateComplete(results, inp);
    BackFillKeepsComplete(Consolidate(results, inp));
  }

  lemma BackFillKeepsComplete(cons: Consolidated)
    requires AllComplete(cons)
    ensures BackFill(cons) == cons
  {
    var b := BackFill(cons);
    forall c | c in cons ensures b[c] == cons[c] {
      forall g | g in cons[c] ensures b[c][g] == cons[c][g] {
        FillFieldsKeepsFilled(cons[c][g], RequiredFields, c, g);
      }
    }
  }

  // ---------------------------------------------------------------------
  // create_summary_report

  datatype DatasetSummary = DatasetSummary(
    commodity: string, regime: string, aic: Num, logLikelihood: Option<real>,
    breuschGodfreyP: Option<real>, jarqueBeraP: Option<real>, durbinWatson: Option<real>,
    granger: map<string, seq<real>>, optimalLags: int)

  datatype SummaryReport = SummaryReport(
    totalDatasets: nat, successfulEstimations: nat, diagnosticsPassed: nat, datasets: seq<DatasetSummary>)

  function DatasetOf(res: EcmResult, d: Diagnostic): DatasetSummary {
    DatasetSummary(res.commodity, res.regime, res.aic, res.logLikelihood,
      d.breuschGodfreyP, d.jarqueBeraP, d.durbinWatson, res.granger, res.optimalLags)
  }

  /** Whether the Jarque-Bera comparison counts a record as passed. */
  predicate JbPassed(d: Diagnostic) {
    d.jarqueBeraP.Some? && d.jarqueBeraP.value > SIGNIFICANCE
  }

  function CountPassed(ds: seq<Diagnostic>): (n: nat)
    ensures n <= |ds|
    ensures n == 0 <==> forall i :: 0 <= i < |ds| ==> !JbPassed(ds[i])
    ensures n == |ds| <==> forall i :: 0 <= i < |ds| ==> JbPassed(ds[i])
  {
    if ds == [] then 0 else (if JbPassed(ds[0]) then 1 else 0) + CountPassed(ds[1..])
  }

  predicate SomeJbMissing(ds: seq<Diagnostic>) {
    exists i :: 0 <= i < |ds| && ds[i].jarqueBeraP.None?
  }

  /** `create_summary_report`. As written, `None > 0.05` raises for a
      failed diagnostics record and no report is produced; corrected, a
      missing p-value simply does not count as passed. */
  function CreateSummaryReport(v: Variant, results: seq<EcmResult>, ds: seq<Diagnostic>): (r: Option<SummaryReport>)
    ensures v == AsWritten ==> (r.None? <==> SomeJbMissing(ds))
    ensures v == Corrected ==> r.Some?
    ensures r.Some? ==> r.value.totalDatasets == r.value.successfulEstimations == |results|
    ensures r.Some? ==> r.value.diagnosticsPassed == CountPassed(ds) <= |ds|
    ensures r.Some? ==> |r.value.datasets| == if |results| <= |ds| then |results| else |ds|
    ensures r.Some? ==> forall i :: 0 <= i < |r.value.datasets| ==>
              r.value.datasets[i].commodity == results[i].commodity &&
              r.value.datasets[i].regime == results[i].regime &&
              r.value.datasets[i].jarqueBeraP == ds[i].jarqueBeraP
  {
    if v == AsWritten && SomeJbMissing(ds) then None
    else
      var n := if |results| <= |ds| then |results| else |ds|;
      Some(SummaryReport(|results|, |results|, CountPassed(ds),
        seq(n, i requires 0 <= i < n => DatasetOf(results[i], ds[i]))))
  }

  lemma {:induction false} CountPassedAppend(a: seq<Diagnostic>, b: seq<Diagnostic>)
    ensures CountPassed(a + b) == CountPassed(a) + CountPassed(b)
    decreases |a|
  {
    if a != [] {
      assert (a + b)[1..] == a[1..] + b;
      CountPassedAppend(a[1..], b);
    } else {
      assert a + b == b;
    }
  }

  /** A diagnostics record without a Jarque-Bera p-value, wherever it
      stands, adds nothing to the corrected report's passed count. */
  lemma MissingPValueNeverCounts(results: seq<EcmResult>, a: seq<Diagnostic>, d: Diagnostic, b: seq<Diagnostic>)
    requires d.jarqueBeraP.None?
    ensures CountPassed(a + [d] + b) == CountPassed(a + b)
    ensures CreateSummaryReport(Corrected, results, a + [d] + b).value.diagnosticsPassed == CountPassed(a + b)
  {
    CountPassedAppend(a + [d], b);
    CountPassedAppend(a, [d]);
    CountPassedAppend(a, b);
    assert CountPassed([d]) == 0 by {
      assert [d][1..] == [];
    }
  }

  /** The two readings agree whenever every diagnostics record has its p-value. */
  lemma ReportVariantsAgree(results: seq<EcmResult>, ds: seq<Diagnostic>)
    requires !SomeJbMissing(ds)
    ensures CreateSummaryReport(AsWritten, results, ds) == CreateSummaryReport(Corrected, results, ds)
  {
  }

  /** A run in which one unit's diagnostics block failed: the report as
      written raises, the corrected one counts nothing as passed. */
  lemma FailedDiagnosticsBreakReport(res: EcmResult)
    ensures var ds := [FailedDiagnostic(res.commodity, res.regime)];
            CreateSummaryReport(AsWritten, [res], ds).None? &&
            CreateSummaryReport(Corrected, [res], ds).value.diagnosticsPassed == 0
  {
    var ds := [FailedDiagnostic(res.commodity, res.regime)];
    assert ds[0].jarqueBeraP.None?;
  }
}

=== FILE: ecm_estimation.dfy ===
/** The bookkeeping around the VECM fit (`estimate_ecm`,
    `compute_model_criteria` and the Granger lag cap): the lag order chosen by
    AIC is an oracle input, and what is modelled is how it is clamped and how
    the parameter count and AIC are formed. */
module EcmEstimation {
  import opened Common

  function Min(a: int, b: int): int { if a <= b then a else b }
  function Max(a: int, b: int): int { if a >= b then a else b }

  /** `max(1, min(aic or ecm_lags, ecm_lags))` of the newer script. */
  function ClampLag(aic: Option<int>, ecmLags: int): (k: int)
    ensures 1 <= k <= Max(1, ecmLags)
    ensures aic.Some? && 1 <= aic.value <= ecmLags ==> k == aic.value
    ensures aic.Some? && aic.value < 1 ==> k == 1
    ensures (aic.None? || aic.value >= ecmLags) ==> k == Max(1, ecmLags)
  {
    Max(1, Min(aic.GetOr(ecmLags), ecmLags))
  }

  /** `max(1, min(lag_order.aic, ecm_lags))` of the older script: comparing
      None with an int raises, so a missing AIC order is an estimation failure. */
  function ClampLagLegacy(aic: Option<int>, ecmLags: int): (k: Option<int>)
    ensures k.None? <==> aic.None?
    ensures k.Some? ==> 1 <= k.value <= Max(1, ecmLags)
  {
    if aic.None? then None else Some(Max(1, Min(aic.value, ecmLags)))
  }

  /** The two clamps agree whenever the AIC order exists. */
  lemma ClampVariantsAgree(aic: Option<int>, ecmLags: int)
    requires aic.Some?
    ensures ClampLagLegacy(aic, ecmLags) == Some(ClampLag(aic, ecmLags))
  {
  }

  datatype Criteria = Criteria(aic: real, kParams: int, nObs: int)

  /** `compute_model_criteria` without the logarithmic BIC/HQIC terms: a
      missing log-likelihood makes `-2 * llf` raise, and the except clause
      returns no criteria. */
  function ModelCriteria(neqs: int, kArDiff: int, nobs: int, cointRank: int, llf: Option<real>): (r: Option<Criteria>)
    ensures r.Some? <==> llf.Some?
    ensures r.Some? ==> r.value.kParams == neqs * (kArDiff + 1) + cointRank
    ensures r.Some? ==> r.value.nObs == neqs * (nobs - kArDiff)
    ensures r.Some? ==> r.value.aic + 2.0 * llf.value == 2.0 * r.value.kParams as real
  {
    match llf
    case None => None
    case Some(l) =>
      var k := neqs * (kArDiff + 1) + cointRank;
      Some(Criteria(-2.0 * l + 2.0 * k as real, k, neqs * (nobs - kArDiff)))
  }

  /** For the same log-likelihood, one more lagged difference in a system of
      `neqs` equations raises AIC by exactly 2·neqs. */
  lemma {:induction false} AicPenaltyPerLag(neqs: int, k: int, nobs: int, rank: int, llf: real)
    ensures ModelCriteria(neqs, k + 1, nobs, rank, Some(llf)).value.aic ==
            ModelCriteria(neqs, k, nobs, rank, Some(llf)).value.aic + 2.0 * neqs as real
  {
    var a := ModelCriteria(neqs, k, nobs, rank, Some(llf)).value;
    var b := ModelCriteria(neqs, k + 1, nobs, rank, Some(llf)).value;
    assert b.kParams == a.kParams + neqs;
  }

  /** Granger lag cap of the newer script: `min(12, max(int(len(y)/5), 1))`,
      the largest lag up to 12 that leaves five observations per lag, and
      at least 1. */
  function GrangerMaxLag(n: nat): (m: int)
    ensures 1 <= m <= COINTEGRATION_MAX_LAGS
    ensures 5 * m <= n || m == 1
    ensures m == COINTEGRATION_MAX_LAGS || 5 * (m + 1) > n
  {
    Min(COINTEGRATION_MAX_LAGS, Max(n / 5, 1))
  }

  /** Granger lag cap of the older script: `min(12, int(len(y)/5))`, the
      largest lag up to 12 that leaves five observations per lag, which is
      0 for fewer than 5 observations. */
  function GrangerMaxLagLegacy(n: nat): (m: int)
    ensures 0 <= m <= COINTEGRATION_MAX_LAGS
    ensures m == 0 <==> n < 5
    ensures 5 * m <= n
    ensures m == COINTEGRATION_MAX_LAGS || 5 * (m + 1) > n
  {
    Min(COINTEGRATION_MAX_LAGS, n / 5)
  }

  /** Past the MIN_OBSERVATIONS gate the missing lower bound never matters. */
  lemma GrangerCapsAgreePastGate(n: nat)
    requires n >= MIN_OBSERVATIONS
    ensures GrangerMaxLag(n) == GrangerMaxLagLegacy(n) >= 6
  {
  }
}

=== FILE: ecm_legacy.dfy ===
/** The older ECM script (2_ECM_Analysis.py): units keyed by the tuple
    (commodity, regime), a lag clamp without a fallback for a missing AIC
    order, and skip rules under which a failed estimation, empty residuals or
    failed diagnostics leave no trace at all. */
module EcmLegacy {
  import opened Common
  import opened Stationarity
  import opened Cointegration
  import opened EcmEstimation
  import opened EcmPipeline

  type UnitId = (string, string)

  datatype LegacyDiagnostic = LegacyDiagnostic(
    commodity: string, regime: string, breuschGodfreyP: real, archP: real,
    jarqueBeraP: real, durbinWatson: real, skewness: real, kurtosis: real)

  datatype LegacyResult = LegacyResult(
    commodity: string, regime: string, optimalLags: int, granger: map<string, seq<real>>)

  datatype LegacyOutput = LegacyOutput(result: Option<LegacyResult>, diagnostic: Option<LegacyDiagnostic>)

  datatype LegacyAccumulated = LegacyAccumulated(results: seq<LegacyResult>, diagnostics: seq<LegacyDiagnostic>)

  /** One iteration of the loop of the older `run_ecm_analysis`. */
  function ProcessUnitLegacy(u: Unit, st: map<UnitId, UnitStationarity>, co: map<UnitId, CointegrationResult>): LegacyOutput
  {
    var id := (u.commodity, u.regime);
    var aligned := DropNaRows(u.rows);
    if |u.rows| < MIN_OBSERVATIONS || id !in st || id !in co || !co[id].engleGranger.cointegrated
       || |aligned| < MIN_OBSERVATIONS || u.fit.FitFailed? then LegacyOutput(None, None)
    else match ClampLagLegacy(u.fit.aicLag, ECM_LAGS)
      case None => LegacyOutput(None, None)
      case Some(lags) =>
        if u.fit.residLen == 0 || u.diag.None? then LegacyOutput(None, None)
        else
          var d := u.diag.value;
          var diagnostic := LegacyDiagnostic(u.commodity, u.regime, d.breuschGodfreyP, d.archP,
            d.jarqueBeraP, d.durbinWatson, d.skewness, d.kurtosis);
          var result := LegacyResult(u.commodity, u.regime, lags, map["conflict_intensity" := u.granger.GetOr([])]);
          LegacyOutput(Some(result), Some(diagnostic))
  }

  function OutputsLegacy(units: seq<Unit>, st: map<UnitId, UnitStationarity>, co: map<UnitId, CointegrationResult>): LegacyAccumulated
    decreases |units|
  {
    if units == [] then LegacyAccumulated([], [])
    else
      var prev := OutputsLegacy(units[..|units| - 1], st, co);
      var o := ProcessUnitLegacy(units[|units| - 1], st, co);
      LegacyAccumulated(prev.results + AsSeq(o.result), prev.diagnostics + AsSeq(o.diagnostic))
  }

  /** The body of the older loop for one unit; each `return` is a `continue`. */
  method AnalyseUnitLegacy(u: Unit, st: map<UnitId, UnitStationarity>, co: map<UnitId, CointegrationResult>)
    returns (result: Option<LegacyResult>, diagnostic: Option<LegacyDiagnostic>)
    ensures LegacyOutput(result, diagnostic) == ProcessUnitLegacy(u, st, co)
  {
    result, diagnostic := None, None;
    var id := (u.commodity, u.regime);
    if |u.rows| < MIN_OBSERVATIONS { return; }
    if id !in st { return; }
    if id !in co || !co[id].engleGranger.cointegrated { return; }
    var aligned := DropNaRows(u.rows);
    if |aligned| < MIN_OBSERVATIONS { return; }
    if u.fit.FitFailed? { return; }
    var lags := ClampLagLegacy(u.fit.aicLag, ECM_LAGS);
    if lags.None? { return; }
    if u.fit.residLen == 0 { return; }
    if u.diag.None? { return; }
    var d := u.diag.value;
    diagnostic := Some(LegacyDiagnostic(u.commodity, u.regime, d.breuschGodfreyP, d.archP,
      d.jarqueBeraP, d.durbinWatson, d.skewness, d.kurtosis));
    var gc := if u.granger.Some? then u.granger.value else [];
    result := Some(LegacyResult(u.commodity, u.regime, lags.value, map["conflict_intensity" := gc]));
  }

  /** The older `run_ecm_analysis`: `all_results` and `all_diagnostics`. */
  method RunEcmAnalysisLegacy(units: seq<Unit>, st: map<UnitId, UnitStationarity>, co: map<UnitId, CointegrationResult>)
    returns (results: seq<LegacyResult>, diagnostics: seq<LegacyDiagnostic>)
    ensures LegacyAccumulated(results, diagnostics) == OutputsLegacy(units, st, co)
  {
    results, diagnostics := [], [];
    var i := 0;
    while i < |units|
      invariant 0 <= i <= |units|
      invariant LegacyAccumulated(results, diagnostics) == OutputsLegacy(units[..i], st, co)
    {
      assert units[..i + 1][..i] == units[..i];
      var r, d := AnalyseUnitLegacy(units[i], st, co);
      results := results + AsSeq(r);
      diagnostics := diagnostics + AsSeq(d);
      i := i + 1;
    }
    assert units[..|units|] == units;
  }

  /** A failed estimation, a missing AIC order, empty residuals or failed
      diagnostics skip the unit with neither a diagnostics record nor a result. */
  lemma LegacySkipRules(u: Unit, st: map<UnitId, UnitStationarity>, co: map<UnitId, CointegrationResult>)
    requires u.fit.FitFailed? || u.fit.aicLag.None? || u.fit.residLen == 0 || u.diag.None?
    ensures ProcessUnitLegacy(u, st, co) == LegacyOutput(None, None)
  {
  }

  /** Every result was preceded by exactly one diagnostics record for the
      same (commodity, regime): the two lists are paired by position, and
      each result passed the gates with a lag order within [1, ECM_LAGS]. */
  lemma {:induction false} LegacyResultsPairedWithDiagnostics(units: seq<Unit>, st: map<UnitId, UnitStationarity>, co: map<UnitId, CointegrationResult>)
    ensures var a := OutputsLegacy(units, st, co);
            |a.results| == |a.diagnostics| &&
            forall i :: 0 <= i < |a.results| ==>
              a.results[i].commodity == a.diagnostics[i].commodity &&
              a.results[i].regime == a.diagnostics[i].regime &&
              1 <= a.results[i].optimalLags <= ECM_LAGS &&
              (a.results[i].commodity, a.results[i].regime) in co &&
              co[(a.results[i].commodity, a.results[i].regime)].engleGranger.cointegrated
    decreases |units|
  {
    if units != [] {
      LegacyResultsPairedWithDiagnostics(units[..|units| - 1], st, co);
    }
  }

  /** The test loop of the older `main`, keyed by the (commodity, regime) tuple. */
  function UnitTestsLegacy(units: seq<Unit>, ln: real -> real): (map<UnitId, UnitStationarity>, map<UnitId, CointegrationResult>)
    decreases |units|
  {
    if units == [] then (map[], map[])
    else
      var prev := UnitTestsLegacy(units[..|units| - 1], ln);
      var u := units[|units| - 1];
      var id := (u.commodity, u.regime);
      var sp := Classify(Prices(u.rows), u.priceTests, ln);
      var sc := Classify(Conflicts(u.rows), u.conflictTests, ln);
      if |u.rows| < MIN_OBSERVATIONS || sp.None? || sc.None? then prev
      else
        var entry := UnitStationarity(sp.value, sc.value);
        var coint := RunCointegrationTestsLegacy(u.rows, entry, u.eg);
        (prev.0[id := entry], if coint.Some? then prev.1[id := coint.value] else prev.1)
  }

  method RunUnitTestsLegacy(units: seq<Unit>, ln: real -> real)
    returns (st: map<UnitId, UnitStationarity>, co: map<UnitId, CointegrationResult>)
    ensures (st, co) == UnitTestsLegacy(units, ln)
  {
    st, co := map[], map[];
    var i := 0;
    while i < |units|
      invariant 0 <= i <= |units|
      invariant (st, co) == UnitTestsLegacy(units[..i], ln)
    {
      var u := units[i];
      assert units[..i + 1][..i] == units[..i];
      i := i + 1;
      if |u.rows| < MIN_OBSERVATIONS { continue; }
      var sp := RunStationarityTests(Prices(u.rows), u.priceTests, ln);
      var sc := RunStationarityTests(Conflicts(u.rows), u.conflictTests, ln);
      if sp.None? || sc.None? { continue; }
      var id := (u.commodity, u.regime);
      st := st[id := UnitStationarity(sp.value, sc.value)];
      var coint := RunCointegrationTestsLegacy(u.rows, st[id], u.eg);
      if coint.Some? {
        co := co[id := coint.value];
      }
    }
    assert units[..|units|] == units;
  }

  /** In the older script a cointegration entry exists only beside a
      stationarity entry of the same unit. */
  lemma {:induction false} LegacyCointegrationNeedsStationarity(units: seq<Unit>, ln: real -> real)
    ensures UnitTestsLegacy(units, ln).1.Keys <= UnitTestsLegacy(units, ln).0.Keys
    decreases |units|
  {
    if units != [] {
      LegacyCointegrationNeedsStationarity(units[..|units| - 1], ln);
    }
  }
}

=== FILE: ecm_pipeline.dfy ===
/** The per-(commodity, regime) ECM pipeline of the newer script
    (5_data_prepration_for_spatial_chart_new.py): the test loop of `main`
    that fills the stationarity and cointegration maps, and
    `run_ecm_analysis`, which gates each unit, fits the VECM (an oracle) and
    appends to five accumulator lists. */
module EcmPipeline {
  import opened Common
  import opened Stationarity
  import opened Cointegration
  import opened EcmEstimation

  /** What the VECM library reports for one unit: lag selection or the fit
      raised, or it produced an AIC lag order (possibly None), `nobs`, a
      log-likelihood (possibly None), the length of the first residual
      column and the summary text (None when rendering it raises). */
  datatype Fit =
    | FitFailed
    | Fitted(aicLag: Option<int>, nobs: int, llf: Option<real>, residLen: nat, summary: Option<string>)

  /** The values of the diagnostic tests when none of them raises. */
  datatype DiagValues = DiagValues(
    breuschGodfreyP: real, archP: real, jarqueBeraP: real, breuschPaganLm: real,
    breuschPaganP: real, durbinWatson: real, skewness: real, kurtosis: real,
    acf: seq<real>, pacf: seq<real>)

  datatype Irf = Irf(irf: seq<real>, lower: seq<real>, upper: seq<real>)

  /** One (commodity, regime) group: its rows (price, conflict intensity)
      and what the library calls report on it. */
  datatype Unit = Unit(
    commodity: string, regime: string, rows: seq<Row>,
    priceTests: Transform -> TestOutcome, conflictTests: Transform -> TestOutcome,
    eg: seq<Row> -> EgOutcome,
    fit: Fit, diag: Option<DiagValues>, granger: Option<seq<real>>,
    irf: Option<Irf>, fevd: Option<seq<seq<real>>>)

  /** A diagnostics record; a failed block has every scalar None and empty acf/pacf. */
  datatype Diagnostic = Diagnostic(
    commodity: string, regime: string,
    breuschGodfreyP: Option<real>, archP: Option<real>, jarqueBeraP: Option<real>,
    breuschPaganLm: Option<real>, breuschPaganP: Option<real>, durbinWatson: Option<real>,
    skewness: Option<real>, kurtosis: Option<real>, acf: seq<real>, pacf: seq<real>)

  datatype Tagged<T> = Tagged(commodity: string, regime: string, body: T)

  /** The record appended to `all_results`. AIC is NaN when the criteria
      could not be computed. */
  datatype EcmResult = EcmResult(
    commodity: string, regime: string, optimalLags: int, aic: Num,
    logLikelihood: Option<real>, granger: map<string, seq<real>>)

  /** What one unit appends to each of the five lists. */
  datatype UnitOutput = UnitOutput(
    result: Option<EcmResult>, diagnostic: Option<Diagnostic>, summary: Option<Tagged<string>>,
    irf: Option<Tagged<Irf>>, fevd: Option<Tagged<seq<seq<real>>>>)

  /** The five lists `run_ecm_analysis` returns. */
  datatype Accumulated = Accumulated(
    results: seq<EcmResult>, diagnostics: seq<Diagnostic>, summaries: seq<Tagged<string>>,
    irfs: seq<Tagged<Irf>>, fevds: seq<Tagged<seq<seq<real>>>>)
  {
    function Add(o: UnitOutput): Accumulated {
      Accumulated(results + AsSeq(o.result), diagnostics + AsSeq(o.diagnostic),
        summaries + AsSeq(o.summary), irfs + AsSeq(o.irf), fevds + AsSeq(o.fevd))
    }
  }

  function AsSeq<T>(o: Option<T>): seq<T> {
    if o.Some? then [o.value] else []
  }

  const NoOutput := UnitOutput(None, None, None, None, None)

  /** Which line 212 is in effect: the source as written, or the evident intent. */
  datatype Variant = AsWritten | Corrected

  /** The stationarity and cointegration maps are keyed by `f"{commodity}_{regime}"`. */
  function UnitKey(commodity: string, regime: string): (k: string)
    ensures |k| == |commodity| + 1 + |regime| && k[|commodity|] == '_'
    ensures k[..|commodity|] == commodity && k[|commodity| + 1..] == regime
  {
    commodity + "_" + regime
  }

  function Prices(rows: seq<Row>): (r: seq<Num>)
    ensures |r| == |rows| && forall i :: 0 <= i < |rows| ==> r[i] == rows[i].0
  {
    seq(|rows|, i requires 0 <= i < |rows| => rows[i].0)
  }

  function Conflicts(rows: seq<Row>): (r: seq<Num>)
    ensures |r| == |rows| && forall i :: 0 <= i < |rows| ==> r[i] == rows[i].1
  {
    seq(|rows|, i requires 0 <= i < |rows| => rows[i].1)
  }

  /** Line 212. As written it calls `.dropna()` on the tuple returned by
      `Series.align`, which raises AttributeError (None here); the evident
      intent is to keep the rows where neither column is NaN. */
  function Align(v: Variant, rows: seq<Row>): (r: Option<seq<Row>>)
    ensures v == Corrected ==> r == Some(DropNaRows(rows))
    ensures v == AsWritten ==> r.None?
  {
    match v
    case AsWritten => None
    case Corrected => Some(DropNaRows(rows))
  }

  function FailedDiagnostic(commodity: string, regime: string): Diagnostic {
    Diagnostic(commodity, regime, None, None, None, None, None, None, None, None, [], [])
  }

  function DiagnosticOf(u: Unit): (d: Diagnostic)
    ensures d.commodity == u.commodity && d.regime == u.regime
    ensures u.diag.None? ==> d == FailedDiagnostic(u.commodity, u.regime)
    ensures u.diag.Some? ==> d.jarqueBeraP == Some(u.diag.value.jarqueBeraP) && d.durbinWatson == Some(u.diag.value.durbinWatson)
    ensures u.diag.Some? ==> d.breuschGodfreyP == Some(u.diag.value.breuschGodfreyP) && d.archP == Some(u.diag.value.archP)
    ensures u.diag.Some? ==>
      d.breuschPaganLm == Some(u.diag.value.breuschPaganLm) && d.breuschPaganP == Some(u.diag.value.breuschPaganP)
    ensures u.diag.Some? ==> d.skewness == Some(u.diag.value.skewness) && d.kurtosis == Some(u.diag.value.kurtosis)
    ensures u.diag.Some? ==> d.acf == u.diag.value.acf && d.pacf == u.diag.value.pacf
  {
    match u.diag
    case None => FailedDiagnostic(u.commodity, u.regime)
    case Some(v) =>
      Diagnostic(u.commodity, u.regime, Some(v.breuschGodfreyP), Some(v.archP), Some(v.jarqueBeraP),
        Some(v.breuschPaganLm), Some(v.breuschPaganP), Some(v.durbinWatson), Some(v.skewness),
        Some(v.kurtosis), v.acf, v.pacf)
  }

  /** The three gates before alignment (lines 200-210). */
  predicate PassesGates(u: Unit, st: map<string, UnitStationarity>, co: map<string, CointegrationResult>) {
    var key := UnitKey(u.commodity, u.regime);
    && |u.rows| >= MIN_OBSERVATIONS
    && key in st
    && key in co && co[key].engleGranger.cointegrated
  }

  /** One iteration of the loop of `run_ecm_analysis`; every `continue` and
      every exception caught by the outer `except` leaves the rest undone. */
  function ProcessUnit(v: Variant, u: Unit, st: map<string, UnitStationarity>, co: map<string, CointegrationResult>): UnitOutput
  {
    if !PassesGates(u, st, co) then NoOutput
    else match Align(v, u.rows)
      case None => NoOutput
      case Some(aligned) =>
        if |aligned| < MIN_OBSERVATIONS || u.fit.FitFailed? || u.fit.summary.None? then NoOutput
        else
          var summary := Some(Tagged(u.commodity, u.regime, u.fit.summary.value));
          if u.fit.residLen == 0 || u.fit.residLen > |aligned| then UnitOutput(None, None, summary, None, None)
          else
            var lags := ClampLag(u.fit.aicLag, ECM_LAGS);
            var criteria := ModelCriteria(2, lags, u.fit.nobs, 1, u.fit.llf);
            var aic := if criteria.Some? then Real(criteria.value.aic) else NaN;
            var irf := u.irf.GetOr(Irf([], [], []));
            var fevd := u.fevd.GetOr([]);
            var result := EcmResult(u.commodity, u.regime, lags, aic, u.fit.llf,
              map["conflict_intensity" := u.granger.GetOr([])]);
            UnitOutput(Some(result), Some(DiagnosticOf(u)), summary,
              Some(Tagged(u.commodity, u.regime, irf)), Some(Tagged(u.commodity, u.regime, fevd)))
  }

  /** The five lists after the loop has visited `units` in order. */
  function Outputs(v: Variant, units: seq<Unit>, st: map<string, UnitStationarity>, co: map<string, CointegrationResult>): Accumulated
    decreases |units|
  {
    if units == [] then Accumulated([], [], [], [], [])
    else Outputs(v, units[..|units| - 1], st, co).Add(ProcessUnit(v, units[|units| - 1], st, co))
  }

  /** The body of the loop of `run_ecm_analysis` (line 212 corrected) for
      one unit: each `return` is a `continue` of the source. */
  method AnalyseUnit(u: Unit, st: map<string, UnitStationarity>, co: map<string, CointegrationResult>)
    returns (out: UnitOutput)
    ensures out == ProcessUnit(Corrected, u, st, co)
  {
    out := NoOutput;
    var key := UnitKey(u.commodity, u.regime);
    if |u.rows| < MIN_OBSERVATIONS { return; }
    if key !in st { return; }
    if key !in co || !co[key].engleGranger.cointegrated { return; }
    var aligned := DropNaRows(u.rows);
    if |aligned| < MIN_OBSERVATIONS { return; }
    if u.fit.FitFailed? { return; }
    var lags := ClampLag(u.fit.aicLag, ECM_LAGS);
    var criteria := ModelCriteria(2, lags, u.fit.nobs, 1, u.fit.llf);
    var aic := if criteria.Some? then Real(criteria.value.aic) else NaN;
    if u.fit.summary.None? { return; }
    out := out.(summary := Some(Tagged(u.commodity, u.regime, u.fit.summary.value)));
    if u.fit.residLen == 0 { return; }
    if u.fit.residLen > |aligned| { return; }
    out := out.(diagnostic := Some(DiagnosticOf(u)));
    var gc := if u.granger.Some? then u.granger.value else [];
    var irf := if u.irf.Some? then u.irf.value else Irf([], [], []);
    out := out.(irf := Some(Tagged(u.commodity, u.regime, irf)));
    var fevd := if u.fevd.Some? then u.fevd.value else [];
    out := out.(fevd := Some(Tagged(u.commodity, u.regime, fevd)));
    out := out.(result := Some(EcmResult(u.commodity, u.regime, lags, aic, u.fit.llf, map["conflict_intensity" := gc])));
  }

  /** `run_ecm_analysis` with line 212 corrected: one pass over the units,
      appending to the five lists. */
  method RunEcmAnalysis(units: seq<Unit>, st: map<string, UnitStationarity>, co: map<string, CointegrationResult>)
    returns (results: seq<EcmResult>, diagnostics: seq<Diagnostic>, summaries: seq<Tagged<string>>,
             irfs: seq<Tagged<Irf>>, fevds: seq<Tagged<seq<seq<real>>>>)
    ensures Accumulated(results, diagnostics, summaries, irfs, fevds) == Outputs(Corrected, units, st, co)
  {
    results, diagnostics, summaries, irfs, fevds := [], [], [], [], [];
    var i := 0;
    while i < |units|
      invariant 0 <= i <= |units|
      invariant Accumulated(results, diagnostics, summaries, irfs, fevds) == Outputs(Corrected, units[..i], st, co)
    {
      assert units[..i + 1][..i] == units[..i];
      var out := AnalyseUnit(units[i], st, co);
      results := results + AsSeq(out.result);
      diagnostics := diagnostics + AsSeq(out.diagnostic);
      summaries := summaries + AsSeq(out.summary);
      irfs := irfs + AsSeq(out.irf);
      fevds := fevds + AsSeq(out.fevd);
      i := i + 1;
    }
    assert units[..|units|] == units;
  }

  /** A unit produces an ECM result only if it has MIN_OBSERVATIONS rows, a
      stationarity entry under its key, a cointegration entry saying
      `cointegrated`, still MIN_OBSERVATIONS rows after alignment and a
      successful fit; its lag order is then within [1, ECM_LAGS]. */
  lemma ResultImpliesGates(u: Unit, st: map<string, UnitStationarity>, co: map<string, CointegrationResult>)
    requires ProcessUnit(Corrected, u, st, co).result.Some?
    ensures |u.rows| >= MIN_OBSERVATIONS
    ensures UnitKey(u.commodity, u.regime) in st
    ensures UnitKey(u.commodity, u.regime) in co && co[UnitKey(u.commodity, u.regime)].engleGranger.cointegrated
    ensures |DropNaRows(u.rows)| >= MIN_OBSERVATIONS && u.fit.Fitted?
    ensures 1 <= ProcessUnit(Corrected, u, st, co).result.value.optimalLags <= ECM_LAGS
  {
  }

  /** Every unit that reaches the diagnostics block appends exactly one
      diagnostics record, for its own key, together with its result; a
      failed block records every scalar as None and empty acf/pacf. */
  lemma DiagnosticsAlwaysRecorded(u: Unit, st: map<string, UnitStationarity>, co: map<string, CointegrationResult>)
    ensures var o := ProcessUnit(Corrected, u, st, co);
            o.diagnostic.Some? <==> o.result.Some?
    ensures var o := ProcessUnit(Corrected, u, st, co);
            o.diagnostic.Some? ==> o.diagnostic.value.commodity == u.commodity && o.diagnostic.value.regime == u.regime
    ensures var o := ProcessUnit(Corrected, u, st, co);
            o.diagnostic.Some? && u.diag.None? ==>
              o.diagnostic.value.jarqueBeraP.None? && o.diagnostic.value.durbinWatson.None? &&
              o.diagnostic.value.acf == [] && o.diagnostic.value.pacf == []
  {
  }

  /** Over a whole run the results, diagnostics, IRFs and FEVDs lists have
      the same length and are paired by position on (commodity, regime);
      there are at least as many summaries as results. */
  lemma {:induction false} OutputsPaired(units: seq<Unit>, st: map<string, UnitStationarity>, co: map<string, CointegrationResult>)
    ensures var a := Outputs(Corrected, units, st, co);
            |a.diagnostics| == |a.results| == |a.irfs| == |a.fevds| <= |a.summaries|
    ensures var a := Outputs(Corrected, units, st, co);
            forall i :: 0 <= i < |a.results| ==>
              a.diagnostics[i].commodity == a.results[i].commodity && a.diagnostics[i].regime == a.results[i].regime &&
              a.irfs[i].commodity == a.results[i].commodity && a.irfs[i].regime == a.results[i].regime &&
              a.fevds[i].commodity == a.results[i].commodity && a.fevds[i].regime == a.results[i].regime
    decreases |units|
  {
    if units != [] {
      OutputsPaired(units[..|units| - 1], st, co);
    }
  }

  /** As written, line 212 raises for every unit that passes the
      cointegration gate, so the run never produces a result, a diagnostics
      record, a summary, an IRF or an FEVD. */
  lemma {:induction false} AsWrittenNeverEstimates(units: seq<Unit>, st: map<string, UnitStationarity>, co: map<string, CointegrationResult>)
    ensures Outputs(AsWritten, units, st, co) == Accumulated([], [], [], [], [])
    decreases |units|
  {
    if units != [] {
      AsWrittenNeverEstimates(units[..|units| - 1], st, co);
    }
  }

  /** Every unit that passes the gates, has enough clean rows and fits with
      non-empty residuals yields a result once line 212 is corrected, but
      none as written. */
  lemma CorrectedEstimatesWhatAsWrittenSkips(u: Unit, st: map<string, UnitStationarity>, co: map<string, CointegrationResult>)
    requires PassesGates(u, st, co) && |DropNaRows(u.rows)| >= MIN_OBSERVATIONS
    requires u.fit.Fitted? && u.fit.summary.Some? && 0 < u.fit.residLen <= |DropNaRows(u.rows)|
    ensures ProcessUnit(Corrected, u, st, co).result.Some?
    ensures ProcessUnit(AsWritten, u, st, co).result.None?
  {
  }

  /** The test loop of `main`, one unit at a time: too small a group,
      or a failed stationarity test on either column, leaves both maps
      untouched; a failed cointegration test leaves only the stationarity
      entry. */
  function UnitTests(units: seq<Unit>, ln: real -> real): (r: (map<string, UnitStationarity>, map<string, CointegrationResult>))
    decreases |units|
  {
    if units == [] then (map[], map[])
    else
      var prev := UnitTests(units[..|units| - 1], ln);
      var u := units[|units| - 1];
      var key := UnitKey(u.commodity, u.regime);
      var sp := Classify(Prices(u.rows), u.priceTests, ln);
      var sc := Classify(Conflicts(u.rows), u.conflictTests, ln);
      if |u.rows| < MIN_OBSERVATIONS || sp.None? || sc.None? then prev
      else
        var entry := UnitStationarity(sp.value, sc.value);
        var coint := RunCointegrationTests(u.rows, entry, u.eg);
        (prev.0[key := entry], if coint.Some? then prev.1[key := coint.value] else prev.1)
  }

  /** The test loop of `main` of the newer script. */
  method RunUnitTests(units: seq<Unit>, ln: real -> real)
    returns (st: map<string, UnitStationarity>, co: map<string, CointegrationResult>)
    ensures (st, co) == UnitTests(units, ln)
  {
    st, co := map[], map[];
    var i := 0;
    while i < |units|
      invariant 0 <= i <= |units|
      invariant (st, co) == UnitTests(units[..i], ln)
    {
      var u := units[i];
      assert units[..i + 1][..i] == units[..i];
      i := i + 1;
      if |u.rows| < MIN_OBSERVATIONS { continue; }
      var sp := RunStationarityTests(Prices(u.rows), u.priceTests, ln);
      var sc := RunStationarityTests(Conflicts(u.rows), u.conflictTests, ln);
      if sp.None? || sc.None? { continue; }
      var key := UnitKey(u.commodity, u.regime);
      st := st[key := UnitStationarity(sp.value, sc.value)];
      var coint := RunCointegrationTests(u.rows, st[key], u.eg);
      if coint.Some? {
        co := co[key := coint.value];
      } else {
        continue;
      }
    }
    assert units[..|units|] == units;
  }

  /** Every cointegration entry sits beside a stationarity entry, and every
      stationarity entry comes from a unit with MIN_OBSERVATIONS rows and
      no NaN or infinite value in either column. */
  lemma {:induction false} TestMapsConsistent(units: seq<Unit>, ln: real -> real)
    ensures UnitTests(units, ln).1.Keys <= UnitTests(units, ln).0.Keys
    ensures forall k :: k in UnitTests(units, ln).0 ==>
              exists i :: 0 <= i < |units| && UnitKey(units[i].commodity, units[i].regime) == k &&
                |units[i].rows| >= MIN_OBSERVATIONS &&
                AllReal(Prices(units[i].rows)) && AllReal(Conflicts(units[i].rows))
    decreases |units|
  {
    if units != [] {
      var init := units[..|units| - 1];
      TestMapsConsistent(init, ln);
      forall k | k in UnitTests(units, ln).0
        ensures exists i :: 0 <= i < |units| && UnitKey(units[i].commodity, units[i].regime) == k &&
                  |units[i].rows| >= MIN_OBSERVATIONS &&
                  AllReal(Prices(units[i].rows)) && AllReal(Conflicts(units[i].rows))
      {
        if k in UnitTests(init, ln).0 {
          var i :| 0 <= i < |init| && UnitKey(init[i].commodity, init[i].regime) == k &&
                   |init[i].rows| >= MIN_OBSERVATIONS &&
                   AllReal(Prices(init[i].rows)) && AllReal(Conflicts(init[i].rows));
          assert units[i] == init[i];
        } else {
          assert UnitKey(units[|units| - 1].commodity, units[|units| - 1].regime) == k;
        }
      }
    }
  }
}

=== FILE: market_pairs.dfy ===
/** Market-pair bookkeeping of the price-differential script: the per
    (market, commodity) series of one regime, the common-date gate of a
    pair, the high-VIF column replacement, the zero-variance gate of the
    pooled model and the construction of the pair list. The statistics
    (ADF/KPSS, Pearson correlation, distance, VIF, the regressions) are
    oracle inputs. */
module MarketPairs {
  import opened Common

  /** The smallest number of shared dates a pair needs. */
  const MIN_COMMON_DATES: nat := 30

  datatype MarketRow = MarketRow(
    marketId: string, commodity: string, regime: string, date: int,
    usdprice: real, conflictIntensity: real, longitude: real, latitude: real)

  /** The arrays kept for one (market, commodity). */
  datatype MarketSeries = MarketSeries(
    dates: seq<int>, usdprice: seq<real>, conflictIntensity: seq<real>, longitude: real, latitude: real)

  type PairKey = (string, string)
  type MarketData = seq<(PairKey, MarketSeries)>

  /** `unique()`: the distinct values in order of first appearance. */
  function Unique(s: seq<string>): (u: seq<string>)
    ensures forall x :: x in u <==> x in s
    ensures forall i, j :: 0 <= i < j < |u| ==> u[i] != u[j]
    decreases |s|
  {
    if s == [] then []
    else
      var n := |s| - 1;
      assert s == s[..n] + [s[n]];
      var p := Unique(s[..n]);
      if s[n] in p then p else p + [s[n]]
  }

  /** Order of first appearance: reading more of the column only appends
      values, so the distinct values of a prefix are a prefix of the
      distinct values of the whole. */
  lemma {:induction false} UniqueGrows(s: seq<string>, n: nat)
    requires n <= |s|
    ensures Unique(s[..n]) <= Unique(s)
    decreases |s| - n
  {
    if n < |s| {
      var m := |s| - 1;
      assert s[..m][..n] == s[..n];
      UniqueGrows(s[..m], n);
    } else {
      assert s[..n] == s;
    }
  }

  function InRegime(rows: seq<MarketRow>, regime: string): (r: seq<MarketRow>)
    ensures forall x :: x in r <==> x in rows && x.regime == regime
    decreases |rows|
  {
    if rows == [] then []
    else
      var n := |rows| - 1;
      assert rows == rows[..n] + [rows[n]];
      InRegime(rows[..n], regime) + (if rows[n].regime == regime then [rows[n]] else [])
  }

  /** The rows of one market and commodity, in order. */
  function Pick(rows: seq<MarketRow>, m: string, c: string): (r: seq<MarketRow>)
    ensures forall x :: x in r <==> x in rows && x.marketId == m && x.commodity == c
    decreases |rows|
  {
    if rows == [] then []
    else
      var n := |rows| - 1;
      assert rows == rows[..n] + [rows[n]];
      Pick(rows[..n], m, c) + (if rows[n].marketId == m && rows[n].commodity == c then [rows[n]] else [])
  }

  /** The boolean filter `df[df['exchange_rate_regime'] == regime]` of two
      blocks is that of the first followed by that of the second, and one
      row is kept exactly when its regime matches: rows keep their order and
      their number of copies. */
  lemma {:induction false} InRegimeAppend(a: seq<MarketRow>, b: seq<MarketRow>, regime: string)
    ensures InRegime(a + b, regime) == InRegime(a, regime) + InRegime(b, regime)
    decreases |b|
  {
    if b == [] {
      assert a + b == a;
    } else {
      var n := |b| - 1;
      AppendSplitLast(a, b);
      InRegimeSnoc(a + b[..n], b[n], regime);
      InRegimeSnoc(b[..n], b[n], regime);
      InRegimeAppend(a, b[..n], regime);
      var last := if b[n].regime == regime then [b[n]] else [];
      AppendAssociates(InRegime(a, regime), InRegime(b[..n], regime), last);
    }
  }

  /** One more row at the end is kept exactly when its regime matches. */
  lemma InRegimeSnoc(s: seq<MarketRow>, x: MarketRow, regime: string)
    ensures InRegime(s + [x], regime) == InRegime(s, regime) + (if x.regime == regime then [x] else [])
  {
    assert (s + [x])[..|s|] == s;
  }

  predicate PickMatches(x: MarketRow, m: string, c: string) {
    x.marketId == m && x.commodity == c
  }

  /** The same for the selection of one market and commodity. */
  lemma {:induction false} PickAppend(a: seq<MarketRow>, b: seq<MarketRow>, m: string, c: string)
    ensures Pick(a + b, m, c) == Pick(a, m, c) + Pick(b, m, c)
    decreases |b|
  {
    if b == [] {
      assert a + b == a;
    } else {
      var n := |b| - 1;
      AppendSplitLast(a, b);
      PickSnoc(a + b[..n], b[n], m, c);
      PickSnoc(b[..n], b[n], m, c);
      PickAppend(a, b[..n], m, c);
      var last := if PickMatches(b[n], m, c) then [b[n]] else [];
      AppendAssociates(Pick(a, m, c), Pick(b[..n], m, c), last);
    }
  }


  lemma PickSnoc(s: seq<MarketRow>, x: MarketRow, m: string, c: string)
    ensures Pick(s + [x], m, c) == Pick(s, m, c) + (if PickMatches(x, m, c) then [x] else [])
  {
    assert (s + [x])[..|s|] == s;
  }

  /** The first row of the selection, the one whose coordinates `SeriesOf`
      records, is the first matching row of the data. */
  lemma PickFirst(rows: seq<MarketRow>, m: string, c: string, k: nat)
    requires k < |rows| && PickMatches(rows[k], m, c)
    requires forall j :: 0 <= j < k ==> !PickMatches(rows[j], m, c)
    ensures |Pick(rows, m, c)| > 0 && Pick(rows, m, c)[0] == rows[k]
  {
    var before, after := rows[..k], rows[k + 1..];
    assert rows == before + ([rows[k]] + after);
    PickAppend(before, [rows[k]] + after, m, c);
    PickAppend([rows[k]], after, m, c);
    PickSnoc([], rows[k], m, c);
    assert [] + [rows[k]] == [rows[k]];
    PickNone(before, m, c);
    var tail := Pick(after, m, c);
    assert Pick(rows, m, c) == [] + ([rows[k]] + tail);
  }

  lemma {:induction false} PickNone(s: seq<MarketRow>, m: string, c: string)
    requires forall j :: 0 <= j < |s| ==> !PickMatches(s[j], m, c)
    ensures Pick(s, m, c) == []
    decreases |s|
  {
    if s != [] {
      PickNone(s[..|s| - 1], m, c);
    }
  }

  function OtherMarkets(rows: seq<MarketRow>, base: string): (r: seq<string>)
    ensures forall x :: x in r <==> x != base && exists i :: 0 <= i < |rows| && rows[i].marketId == x
    decreases |rows|
  {
    if rows == [] then []
    else
      var n := |rows| - 1;
      var p := OtherMarkets(rows[..n], base);
      assert forall i :: 0 <= i < n ==> rows[..n][i] == rows[i];
      p + (if rows[n].marketId != base then [rows[n].marketId] else [])
  }

  function CommoditiesOf(rows: seq<MarketRow>, m: string): (r: seq<string>)
    ensures forall x :: x in r <==> exists i :: 0 <= i < |rows| && rows[i].marketId == m && rows[i].commodity == x
    decreases |rows|
  {
    if rows == [] then []
    else
      var n := |rows| - 1;
      var p := CommoditiesOf(rows[..n], m);
      assert forall i :: 0 <= i < n ==> rows[..n][i] == rows[i];
      p + (if rows[n].marketId == m then [rows[n].commodity] else [])
  }

  /** The arrays of one non-empty selection; the coordinates are those of
      its first row. */
  function SeriesOf(sel: seq<MarketRow>): (s: MarketSeries)
    requires |sel| > 0
    ensures |s.dates| == |s.usdprice| == |s.conflictIntensity| == |sel|
    ensures forall i :: 0 <= i < |sel| ==>
      s.dates[i] == sel[i].date && s.usdprice[i] == sel[i].usdprice && s.conflictIntensity[i] == sel[i].conflictIntensity
    ensures s.longitude == sel[0].longitude && s.latitude == sel[0].latitude
  {
    MarketSeries(
      seq(|sel|, i requires 0 <= i < |sel| => sel[i].date),
      seq(|sel|, i requires 0 <= i < |sel| => sel[i].usdprice),
      seq(|sel|, i requires 0 <= i < |sel| => sel[i].conflictIntensity),
      sel[0].longitude, sel[0].latitude)
  }

  predicate DistinctPairKeys(md: MarketData) {
    forall i, j :: 0 <= i < j < |md| ==> md[i].0 != md[j].0
  }

  /** The inner loop for one market over the commodities `cs`. */
  function EntriesFor(rows: seq<MarketRow>, m: string, cs: seq<string>): MarketData
    decreases |cs|
  {
    if cs == [] then []
    else
      var n := |cs| - 1;
      var sel := Pick(rows, m, cs[n]);
      EntriesFor(rows, m, cs[..n]) + (if |sel| > 0 then [((m, cs[n]), SeriesOf(sel))] else [])
  }

  /** The outer loop over the markets `ms`. */
  function Entries(rows: seq<MarketRow>, ms: seq<string>): MarketData
    decreases |ms|
  {
    if ms == [] then []
    else
      var n := |ms| - 1;
      Entries(rows, ms[..n]) + EntriesFor(rows, ms[n], Unique(CommoditiesOf(rows, ms[n])))
  }

  /** Every entry holds the rows of its own (market, commodity). */
  predicate EntrySound(rows: seq<MarketRow>, e: (PairKey, MarketSeries)) {
    var sel := Pick(rows, e.0.0, e.0.1);
    |sel| > 0 && e.1 == SeriesOf(sel)
  }

  /** An entry of market `m` for one of the commodities `cs`. */
  predicate EntryOf(rows: seq<MarketRow>, e: (PairKey, MarketSeries), m: string, cs: seq<string>) {
    e.0.0 == m && e.0.1 in cs && EntrySound(rows, e)
  }

  /** An entry of one of the markets `ms`. */
  predicate EntryAmong(rows: seq<MarketRow>, e: (PairKey, MarketSeries), ms: seq<string>) {
    e.0.0 in ms && EntrySound(rows, e)
  }

  predicate HasKey(md: MarketData, k: PairKey) {
    exists i :: 0 <= i < |md| && md[i].0 == k
  }

  lemma {:induction false} EntriesForSound(rows: seq<MarketRow>, m: string, cs: seq<string>)
    ensures forall i :: 0 <= i < |EntriesFor(rows, m, cs)| ==> EntryOf(rows, EntriesFor(rows, m, cs)[i], m, cs)
    decreases |cs|
  {
    if cs != [] {
      var n := |cs| - 1;
      EntriesForSound(rows, m, cs[..n]);
      var p := EntriesFor(rows, m, cs[..n]);
      assert cs == cs[..n] + [cs[n]];
      forall i | 0 <= i < |EntriesFor(rows, m, cs)| ensures EntryOf(rows, EntriesFor(rows, m, cs)[i], m, cs) {
        if i < |p| {
          assert EntriesFor(rows, m, cs)[i] == p[i];
          assert EntryOf(rows, p[i], m, cs[..n]);
        }
      }
    }
  }

  /** A member other than the last element is in the prefix without it. */
  lemma InPrefix<T>(s: seq<T>, x: T)
    requires x in s && s[|s| - 1] != x
    ensures x in s[..|s| - 1]
  {
    assert s == s[..|s| - 1] + [s[|s| - 1]];
  }

  lemma {:induction false} EntriesForComplete(rows: seq<MarketRow>, m: string, cs: seq<string>, c: string)
    requires c in cs && |Pick(rows, m, c)| > 0
    ensures HasKey(EntriesFor(rows, m, cs), (m, c))
    decreases |cs|
  {
    var n := |cs| - 1;
    var p := EntriesFor(rows, m, cs[..n]);
    var sel := Pick(rows, m, cs[n]);
    var tail := if |sel| > 0 then [((m, cs[n]), SeriesOf(sel))] else [];
    var r := EntriesFor(rows, m, cs);
    assert r == p + tail;
    if cs[n] == c {
      assert r[|p|] == ((m, c), SeriesOf(sel));
    } else {
      InPrefix(cs, c);
      EntriesForComplete(rows, m, cs[..n], c);
      var i :| 0 <= i < |p| && p[i].0 == (m, c);
      assert r[i] == p[i];
    }
  }

  lemma {:induction false} EntriesForDistinct(rows: seq<MarketRow>, m: string, cs: seq<string>)
    requires forall i, j :: 0 <= i < j < |cs| ==> cs[i] != cs[j]
    ensures DistinctPairKeys(EntriesFor(rows, m, cs))
    decreases |cs|
  {
    if cs != [] {
      var n := |cs| - 1;
      EntriesForDistinct(rows, m, cs[..n]);
      EntriesForSound(rows, m, cs[..n]);
      var p := EntriesFor(rows, m, cs[..n]);
      var r := EntriesFor(rows, m, cs);
      assert cs[n] !in cs[..n];
      forall i, j | 0 <= i < j < |r| ensures r[i].0 != r[j].0 {
        assert r[i] == p[i];
        if j < |p| {
          assert r[j] == p[j];
        } else {
          assert EntryOf(rows, p[i], m, cs[..n]);
        }
      }
    }
  }

  lemma {:induction false} EntriesSound(rows: seq<MarketRow>, ms: seq<string>)
    ensures forall i :: 0 <= i < |Entries(rows, ms)| ==> EntryAmong(rows, Entries(rows, ms)[i], ms)
    decreases |ms|
  {
    if ms != [] {
      var n := |ms| - 1;
      var cs := Unique(CommoditiesOf(rows, ms[n]));
      EntriesSound(rows, ms[..n]);
      EntriesForSound(rows, ms[n], cs);
      var p := Entries(rows, ms[..n]);
      var q := EntriesFor(rows, ms[n], cs);
      assert ms == ms[..n] + [ms[n]];
      forall i | 0 <= i < |Entries(rows, ms)| ensures EntryAmong(rows, Entries(rows, ms)[i], ms) {
        if i < |p| {
          assert Entries(rows, ms)[i] == p[i];
          assert EntryAmong(rows, p[i], ms[..n]);
        } else {
          assert Entries(rows, ms)[i] == q[i - |p|];
          assert EntryOf(rows, q[i - |p|], ms[n], cs);
        }
      }
    }
  }

  lemma HasKeyAppend(a: MarketData, b: MarketData, k: PairKey)
    requires HasKey(a, k) || HasKey(b, k)
    ensures HasKey(a + b, k)
  {
    if HasKey(a, k) {
      var i :| 0 <= i < |a| && a[i].0 == k;
      assert (a + b)[i] == a[i];
    } else {
      var i :| 0 <= i < |b| && b[i].0 == k;
      assert (a + b)[|a| + i] == b[i];
    }
  }

  /** Every commodity of a market gets an entry of that market. */
  lemma MarketHasCommodity(rows: seq<MarketRow>, m: string, c: string)
    requires c in CommoditiesOf(rows, m)
    ensures HasKey(EntriesFor(rows, m, Unique(CommoditiesOf(rows, m))), (m, c))
  {
    var k :| 0 <= k < |rows| && rows[k].marketId == m && rows[k].commodity == c;
    assert rows[k] in Pick(rows, m, c);
    assert c in Unique(CommoditiesOf(rows, m));
    EntriesForComplete(rows, m, Unique(CommoditiesOf(rows, m)), c);
  }

  lemma {:induction false} EntriesComplete(rows: seq<MarketRow>, ms: seq<string>, m: string, c: string)
    requires m in ms && c in CommoditiesOf(rows, m)
    ensures HasKey(Entries(rows, ms), (m, c))
    decreases |ms|
  {
    var n := |ms| - 1;
    var p := Entries(rows, ms[..n]);
    var q := EntriesFor(rows, ms[n], Unique(CommoditiesOf(rows, ms[n])));
    assert Entries(rows, ms) == p + q;
    if ms[n] == m {
      MarketHasCommodity(rows, m, c);
    } else {
      InPrefix(ms, m);
      EntriesComplete(rows, ms[..n], m, c);
    }
    HasKeyAppend(p, q, (m, c));
  }

  lemma {:induction false} EntriesDistinct(rows: seq<MarketRow>, ms: seq<string>)
    requires forall i, j :: 0 <= i < j < |ms| ==> ms[i] != ms[j]
    ensures DistinctPairKeys(Entries(rows, ms))
    decreases |ms|
  {
    if ms != [] {
      var n := |ms| - 1;
      var cs := Unique(CommoditiesOf(rows, ms[n]));
      EntriesDistinct(rows, ms[..n]);
      EntriesSound(rows, ms[..n]);
      EntriesForSound(rows, ms[n], cs);
      EntriesForDistinct(rows, ms[n], cs);
      var p := Entries(rows, ms[..n]);
      var q := EntriesFor(rows, ms[n], cs);
      var r := Entries(rows, ms);
      assert ms[n] !in ms[..n];
      forall i, j | 0 <= i < j < |r| ensures r[i].0 != r[j].0 {
        if j < |p| {
          assert r[i] == p[i] && r[j] == p[j];
        } else if i < |p| {
          assert r[i] == p[i] && r[j] == q[j - |p|];
          assert EntryAmong(rows, p[i], ms[..n]);
          assert EntryOf(rows, q[j - |p|], ms[n], cs);
        } else {
          assert r[i] == q[i - |p|] && r[j] == q[j - |p|];
        }
      }
    }
  }

  function Markets(rows: seq<MarketRow>, base: string): (ms: seq<string>)
    ensures |ms| > 0 && ms[0] == base
    ensures forall i, j :: 0 <= i < j < |ms| ==> ms[i] != ms[j]
    ensures forall i :: 0 < i < |ms| ==> ms[i] != base
    ensures forall x :: x in ms <==> x == base || exists i :: 0 <= i < |rows| && rows[i].marketId == x
  {
    var others := Unique(OtherMarkets(rows, base));
    var ms := [base] + others;
    assert forall i :: 0 < i < |ms| ==> ms[i] == others[i - 1] && ms[i] in others;
    ms
  }

  /** `prepare_market_data`, as a specification. */
  function PrepareMarketDataSpec(rows: seq<MarketRow>, base: string, regime: string): MarketData {
    var r := InRegime(rows, regime);
    Entries(r, Markets(r, base))
  }

  lemma EntriesForStep(rows: seq<MarketRow>, m: string, cs: seq<string>, j: nat)
    requires j < |cs|
    ensures EntriesFor(rows, m, cs[..j + 1]) == EntriesFor(rows, m, cs[..j])
      + (if |Pick(rows, m, cs[j])| > 0 then [((m, cs[j]), SeriesOf(Pick(rows, m, cs[j])))] else [])
  {
    assert cs[..j + 1][..j] == cs[..j];
  }

  lemma EntriesStep(rows: seq<MarketRow>, ms: seq<string>, i: nat)
    requires i < |ms|
    ensures Entries(rows, ms[..i + 1]) == Entries(rows, ms[..i]) + EntriesFor(rows, ms[i], Unique(CommoditiesOf(rows, ms[i])))
  {
    assert ms[..i + 1][..i] == ms[..i];
  }

  /** The inner loop of `prepare_market_data` for one market: its
      commodities in order of first appearance, each with the arrays of its
      rows. */
  method CollectMarket(r: seq<MarketRow>, m: string) returns (entries: MarketData)
    ensures entries == EntriesFor(r, m, Unique(CommoditiesOf(r, m)))
  {
    var cs := Unique(CommoditiesOf(r, m));
    entries := [];
    var j := 0;
    while j < |cs|
      invariant 0 <= j <= |cs|
      invariant entries == EntriesFor(r, m, cs[..j])
    {
      EntriesForStep(r, m, cs, j);
      var sel := Pick(r, m, cs[j]);
      if |sel| > 0 {
        entries := entries + [((m, cs[j]), SeriesOf(sel))];
      }
      j := j + 1;
    }
    assert cs[..|cs|] == cs;
  }

  /** `prepare_market_data`: the rows of the regime, walked market by
      market (the base market first) and commodity by commodity. */
  method PrepareMarketData(rows: seq<MarketRow>, base: string, regime: string) returns (md: MarketData)
    ensures md == PrepareMarketDataSpec(rows, base, regime)
  {
    var r := InRegime(rows, regime);
    var ms := Markets(r, base);
    md := [];
    var i := 0;
    while i < |ms|
      invariant 0 <= i <= |ms|
      invariant md == Entries(r, ms[..i])
    {
      EntriesStep(r, ms, i);
      var entries := CollectMarket(r, ms[i]);
      md := md + entries;
      i := i + 1;
    }
    assert ms[..|ms|] == ms;
  }

  /** The regime has a row of market `m` and commodity `c`. */
  predicate Present(rows: seq<MarketRow>, regime: string, m: string, c: string) {
    exists x :: x in rows && x.regime == regime && x.marketId == m && x.commodity == c
  }

  /** One entry per (market, commodity) present among the regime's rows,
      each holding exactly that pair's rows, with the coordinates of the
      first of them. */
  lemma PrepareMarketDataSpecProperties(rows: seq<MarketRow>, base: string, regime: string)
    ensures DistinctPairKeys(PrepareMarketDataSpec(rows, base, regime))
    ensures forall m, c :: HasKey(PrepareMarketDataSpec(rows, base, regime), (m, c)) <==> Present(rows, regime, m, c)
    ensures forall i :: 0 <= i < |PrepareMarketDataSpec(rows, base, regime)| ==>
      EntrySound(InRegime(rows, regime), PrepareMarketDataSpec(rows, base, regime)[i])
  {
    var r := InRegime(rows, regime);
    var ms := Markets(r, base);
    var md := Entries(r, ms);
    EntriesDistinct(r, ms);
    EntriesSound(r, ms);
    forall m, c | Present(rows, regime, m, c) ensures HasKey(md, (m, c)) {
      var x :| x in rows && x.regime == regime && x.marketId == m && x.commodity == c;
      assert x in r;
      var k :| 0 <= k < |r| && r[k] == x;
      assert c in CommoditiesOf(r, m);
      assert m in ms;
      EntriesComplete(r, ms, m, c);
    }
    forall m, c | HasKey(md, (m, c)) ensures Present(rows, regime, m, c) {
      var i :| 0 <= i < |md| && md[i].0 == (m, c);
      assert EntryAmong(r, md[i], ms);
      var sel := Pick(r, m, c);
      assert sel[0] in sel;
    }
  }

  /** The base market's entries come first: no entry of the base market
      follows an entry of another market. */
  /** Every entry built for market `m` is keyed by `m`. */
  lemma EntriesForMarket(rows: seq<MarketRow>, m: string, cs: seq<string>)
    ensures forall i :: 0 <= i < |EntriesFor(rows, m, cs)| ==> EntriesFor(rows, m, cs)[i].0.0 == m
  {
    EntriesForSound(rows, m, cs);
    forall i | 0 <= i < |EntriesFor(rows, m, cs)| ensures EntriesFor(rows, m, cs)[i].0.0 == m {
      assert EntryOf(rows, EntriesFor(rows, m, cs)[i], m, cs);
    }
  }

  lemma {:induction false} EntriesOrderBaseFirst(rows: seq<MarketRow>, ms: seq<string>, base: string)
    requires |ms| > 0 && ms[0] == base && forall i :: 0 < i < |ms| ==> ms[i] != base
    ensures forall i, j :: 0 <= i < j < |Entries(rows, ms)| && Entries(rows, ms)[j].0.0 == base ==>
      Entries(rows, ms)[i].0.0 == base
    decreases |ms|
  {
    var md := Entries(rows, ms);
    var n := |ms| - 1;
    var cs := Unique(CommoditiesOf(rows, ms[n]));
    var p := Entries(rows, ms[..n]);
    var q := EntriesFor(rows, ms[n], cs);
    assert md == p + q;
    EntriesForMarket(rows, ms[n], cs);
    if n > 0 {
      EntriesOrderBaseFirst(rows, ms[..n], base);
      forall k | |p| <= k < |md| ensures md[k].0.0 == ms[n] {
        assert md[k] == q[k - |p|];
      }
      forall i, j | 0 <= i < j < |md| && md[j].0.0 == base ensures md[i].0.0 == base {
        assert j < |p|;
        assert md[j] == p[j] && md[i] == p[i];
      }
    } else {
      assert p == [];
      forall i | 0 <= i < |md| ensures md[i].0.0 == base {
        assert md[i] == q[i];
      }
    }
  }

  lemma PrepareMarketDataBaseFirst(rows: seq<MarketRow>, base: string, regime: string)
    ensures forall i, j ::
      (0 <= i < j < |PrepareMarketDataSpec(rows, base, regime)| && PrepareMarketDataSpec(rows, base, regime)[j].0.0 == base) ==>
      PrepareMarketDataSpec(rows, base, regime)[i].0.0 == base
  {
    var r := InRegime(rows, regime);
    EntriesOrderBaseFirst(r, Markets(r, base), base);
  }

  // ---------------------------------------------------------------------
  // analyze_market_pair

  /** `np.intersect1d` of the two date arrays, as a set. */
  function CommonDates(a: seq<int>, b: seq<int>): set<int> {
    set d | d in a && d in b
  }

  function Masked<T>(dates: seq<int>, values: seq<T>, keep: set<int>): (r: seq<T>)
    requires |dates| == |values|
    ensures |r| <= |values|
    decreases |dates|
  {
    if dates == [] then []
    else
      var n := |dates| - 1;
      Masked(dates[..n], values[..n], keep) + (if dates[n] in keep then [values[n]] else [])
  }

  /** `values[mask]` holds exactly the values at the kept positions, in
      their order. */
  lemma {:induction false} MaskedKeepsPositions<T>(dates: seq<int>, values: seq<T>, keep: set<int>)
    requires |dates| == |values|
    ensures |Masked(dates, values, keep)| == |KeptPositions(dates, keep)|
    ensures forall i :: 0 <= i < |Masked(dates, values, keep)| ==>
      Masked(dates, values, keep)[i] == values[KeptPositions(dates, keep)[i]]
    decreases |dates|
  {
    if dates != [] {
      var n := |dates| - 1;
      MaskedKeepsPositions(dates[..n], values[..n], keep);
    }
  }

  /** The positions the boolean mask `np.isin(dates, keep)` selects: every
      position whose date is kept, each once, in increasing order. */
  function KeptPositions(dates: seq<int>, keep: set<int>): (p: seq<nat>)
    ensures |p| <= |dates|
    ensures forall i :: 0 <= i < |p| ==> p[i] < |dates| && dates[p[i]] in keep
    ensures forall i, j :: 0 <= i < j < |p| ==> p[i] < p[j]
    ensures forall j :: 0 <= j < |dates| && dates[j] in keep ==> j in p
    decreases |dates|
  {
    if dates == [] then []
    else
      var n := |dates| - 1;
      var p := KeptPositions(dates[..n], keep);
      assert forall j :: 0 <= j < n ==> dates[..n][j] == dates[j];
      p + (if dates[n] in keep then [n] else [])
  }

  /** What the library calls report on one pair. */
  datatype PairOracles = PairOracles(
    stationarity: seq<real> -> Option<(real, real, real, real)>,
    correlation: (seq<real>, seq<real>) -> Option<real>,
    distance: real)

  datatype PairResult = PairResult(
    baseMarket: string, otherMarket: string, commodity: string, priceDifferential: seq<real>,
    stationarity: (real, real, real, real), conflictCorrelation: real, commonDates: nat, distance: real)

  predicate WellShaped(s: MarketSeries) {
    |s.dates| == |s.usdprice| == |s.conflictIntensity|
  }

  /** The base and other market's prices and conflict intensities on the
      shared dates (`data[col][mask]`). */
  function BasePrices(bs: MarketSeries, os: MarketSeries): seq<real>
    requires WellShaped(bs)
  {
    Masked(bs.dates, bs.usdprice, CommonDates(bs.dates, os.dates))
  }

  function OtherPrices(bs: MarketSeries, os: MarketSeries): seq<real>
    requires WellShaped(os)
  {
    Masked(os.dates, os.usdprice, CommonDates(bs.dates, os.dates))
  }

  function BaseConflicts(bs: MarketSeries, os: MarketSeries): seq<real>
    requires WellShaped(bs)
  {
    Masked(bs.dates, bs.conflictIntensity, CommonDates(bs.dates, os.dates))
  }

  function OtherConflicts(bs: MarketSeries, os: MarketSeries): seq<real>
    requires WellShaped(os)
  {
    Masked(os.dates, os.conflictIntensity, CommonDates(bs.dates, os.dates))
  }

  /** `calculate_price_differential(other, base)`: the log price of the
      other market minus that of the base market, date by date. */
  function Differential(po: seq<real>, pb: seq<real>, ln: real -> real): (d: seq<real>)
    requires |po| == |pb|
    ensures |d| == |po| && forall i :: 0 <= i < |po| ==> d[i] == ln(po[i]) - ln(pb[i])
  {
    seq(|po|, i requires 0 <= i < |po| => ln(po[i]) - ln(pb[i]))
  }

  /** The pair passes every step of `analyze_market_pair`: enough shared
      dates, masked price arrays of equal length, and both library calls
      succeed. */
  predicate PairPasses(bs: MarketSeries, os: MarketSeries, ln: real -> real, o: PairOracles)
    requires WellShaped(bs) && WellShaped(os)
  {
    |CommonDates(bs.dates, os.dates)| >= MIN_COMMON_DATES &&
    |BasePrices(bs, os)| == |OtherPrices(bs, os)| &&
    o.stationarity(Differential(OtherPrices(bs, os), BasePrices(bs, os), ln)).Some? &&
    o.correlation(BaseConflicts(bs, os), OtherConflicts(bs, os)).Some?
  }

  /** `analyze_market_pair`. Fewer than MIN_COMMON_DATES shared dates give
      no result; masked arrays of unequal length (a date repeated in one
      series) make the subtraction raise; a failing stationarity test or
      correlation gives no result. */
  function AnalyzeMarketPair(base: string, bs: MarketSeries, other: string, os: MarketSeries, commodity: string,
                             ln: real -> real, o: PairOracles): (r: Option<PairResult>)
    requires WellShaped(bs) && WellShaped(os)
    ensures |CommonDates(bs.dates, os.dates)| < MIN_COMMON_DATES ==> r.None?
    ensures r.Some? <==> PairPasses(bs, os, ln, o)
    ensures r.Some? ==> r.value.commonDates == |CommonDates(bs.dates, os.dates)| >= MIN_COMMON_DATES
    ensures r.Some? ==> r.value.baseMarket == base && r.value.otherMarket == other && r.value.commodity == commodity
    ensures r.Some? ==> |r.value.priceDifferential| == |BasePrices(bs, os)| == |OtherPrices(bs, os)|
    ensures r.Some? ==> forall i :: 0 <= i < |r.value.priceDifferential| ==>
      r.value.priceDifferential[i] == ln(OtherPrices(bs, os)[i]) - ln(BasePrices(bs, os)[i])
    ensures r.Some? ==> Some(r.value.stationarity) == o.stationarity(r.value.priceDifferential)
    ensures r.Some? ==> Some(r.value.conflictCorrelation) == o.correlation(BaseConflicts(bs, os), OtherConflicts(bs, os))
    ensures r.Some? ==> r.value.distance == o.distance
  {
    if |CommonDates(bs.dates, os.dates)| < MIN_COMMON_DATES then None
    else
      var pb := BasePrices(bs, os);
      var po := OtherPrices(bs, os);
      if |pb| != |po| then None
      else
        var diff := Differential(po, pb, ln);
        match o.stationarity(diff)
        case None => None
        case Some(st) =>
          match o.correlation(BaseConflicts(bs, os), OtherConflicts(bs, os))
          case None => None
          case Some(rho) => Some(PairResult(base, other, commodity, diff, st, rho, |CommonDates(bs.dates, os.dates)|, o.distance))
  }

  // ---------------------------------------------------------------------
  // handle_high_vif

  type Column = (string, seq<real>)

  function Square(v: seq<real>): (r: seq<real>)
    ensures |r| == |v| && forall i :: 0 <= i < |v| ==> r[i] == v[i] * v[i]
  {
    seq(|v|, i requires 0 <= i < |v| => v[i] * v[i])
  }

  function ColumnValues(x: seq<Column>, name: string): seq<real>
    decreases |x|
  {
    if x == [] then [] else if x[0].0 == name then x[0].1 else ColumnValues(x[1..], name)
  }

  predicate HasColumn(x: seq<Column>, name: string) {
    exists i :: 0 <= i < |x| && x[i].0 == name
  }

  /** `X[name] = values`: an existing column is overwritten where it
      stands, a new one goes at the end. */
  function SetColumn(x: seq<Column>, name: string, values: seq<real>): (r: seq<Column>)
    ensures !HasColumn(x, name) ==> r == x + [(name, values)]
    ensures HasColumn(x, name) ==> |r| == |x|
    decreases |x|
  {
    if x == [] then [(name, values)]
    else if x[0].0 == name then [(name, values)] + x[1..]
    else
      assert forall i :: 0 <= i < |x| - 1 ==> x[1..][i] == x[i + 1];
      [x[0]] + SetColumn(x[1..], name, values)
  }

  /** An existing column is overwritten where it stands: the first column
      of that name takes the new values and no other column changes. */
  lemma {:induction false} SetColumnOverwrites(x: seq<Column>, name: string, values: seq<real>)
    requires HasColumn(x, name)
    ensures SetColumn(x, name, values) == x[FirstColumn(x, name) := (name, values)]
    decreases |x|
  {
    if x[0].0 != name {
      SetColumnOverwrites(x[1..], name, values);
    }
  }

  /** The position of the first column called `name`, the one `X[name]`
      addresses. */
  function FirstColumn(x: seq<Column>, name: string): (k: nat)
    requires HasColumn(x, name)
    ensures k < |x| && x[k].0 == name
    ensures forall i :: 0 <= i < k ==> x[i].0 != name
    decreases |x|
  {
    if x[0].0 == name then 0
    else
      assert HasColumn(x[1..], name) by {
        var j :| 0 <= j < |x| && x[j].0 == name;
        assert x[1..][j - 1] == x[j];
      }
      FirstColumn(x[1..], name) + 1
  }

  /** `X.drop(columns=[name])`. */
  function DropColumn(x: seq<Column>, name: string): seq<Column>
    decreases |x|
  {
    if x == [] then []
    else (if x[0].0 == name then [] else [x[0]]) + DropColumn(x[1..], name)
  }

  /** `drop` removes exactly the columns of that name. */
  lemma {:induction false} DropColumnMembers(x: seq<Column>, name: string)
    ensures forall c :: c in DropColumn(x, name) <==> c in x && c.0 != name
    decreases |x|
  {
    if x != [] {
      DropColumnMembers(x[1..], name);
      assert x == [x[0]] + x[1..];
    }
  }

  /** One step of the loop: add `<var>_squared`, then drop `var`. */
  function Replace(x: seq<Column>, name: string): seq<Column> {
    DropColumn(SetColumn(x, name + "_squared", Square(ColumnValues(x, name))), name)
  }

  function ReplaceAll(x: seq<Column>, high: seq<string>): seq<Column>
    decreases |high|
  {
    if high == [] then x else ReplaceAll(Replace(x, high[0]), high[1..])
  }

  /** The variables above the threshold, in column order. */
  function HighVif(x: seq<Column>, vif: seq<real>, threshold: real): (h: seq<string>)
    requires |vif| == |x|
    ensures forall v :: v in h <==> exists i :: 0 <= i < |x| && x[i].0 == v && vif[i] > threshold
    decreases |x|
  {
    if x == [] then []
    else
      var rest := HighVif(x[1..], vif[1..], threshold);
      assert forall i :: 0 <= i < |x| - 1 ==> x[1..][i] == x[i + 1] && vif[1..][i] == vif[i + 1];
      (if vif[0] > threshold then [x[0].0] else []) + rest
  }

  /** `handle_high_vif`: the VIF table is computed once (the oracle
      `vif`), and each variable above the threshold is replaced in turn. */
  method HandleHighVif(x: seq<Column>, vif: seq<real>, threshold: real) returns (r: seq<Column>)
    requires |vif| == |x|
    ensures r == ReplaceAll(x, HighVif(x, vif, threshold))
    ensures ClashFree(x, HighVif(x, vif, threshold)) ==>
      r == Keep(x, HighVif(x, vif, threshold)) + Squares(x, HighVif(x, vif, threshold))
  {
    var high := HighVif(x, vif, threshold);
    r := x;
    var i := 0;
    while i < |high|
      invariant 0 <= i <= |high|
      invariant ReplaceAll(r, high[i..]) == ReplaceAll(x, high)
    {
      assert high[i..][1..] == high[i + 1..];
      r := Replace(r, high[i]);
      i := i + 1;
    }
    assert high[i..] == [];
    if ClashFree(x, high) {
      ReplaceAllLayout(x, high);
    }
  }

  /** `X` without the columns named in `names`, in column order. */
  function Keep(x: seq<Column>, names: seq<string>): seq<Column>
    decreases |x|
  {
    if x == [] then [] else (if x[0].0 in names then [] else [x[0]]) + Keep(x[1..], names)
  }

  /** The squared columns of `names`, in the order of `names`. */
  function Squares(x: seq<Column>, names: seq<string>): seq<Column> {
    seq(|names|, k requires 0 <= k < |names| => (names[k] + "_squared", Square(ColumnValues(x, names[k]))))
  }

  /** The replaced variables are distinct, and no `<var>_squared` name is a
      replaced variable or an existing column. */
  predicate ClashFree(x: seq<Column>, high: seq<string>) {
    (forall i, j :: 0 <= i < j < |high| ==> high[i] != high[j]) &&
    (forall v, w :: v in high && w in high ==> v + "_squared" != w) &&
    (forall v :: v in high ==> !HasColumn(x, v + "_squared"))
  }

  /** The whole loop of `handle_high_vif`: the untouched columns keep their
      order, and the squared columns follow in the order of the VIF table. */
  lemma {:induction false} ReplaceAllLayout(x: seq<Column>, high: seq<string>)
    requires ClashFree(x, high)
    ensures ReplaceAll(x, high) == Keep(x, high) + Squares(x, high)
    decreases |high|
  {
    if high == [] {
      KeepNothing(x, high);
    } else {
      var y := DropColumn(x, high[0]) + [(high[0] + "_squared", Square(ColumnValues(x, high[0])))];
      ReplaceStaysClashFree(x, high);
      ReplaceAllLayout(y, high[1..]);
      ClashFreeHead(x, high);
      ReplaceAllLayoutStep(x, high[0], high[1..]);
      assert [high[0]] + high[1..] == high;
    }
  }

  /** The facts about the first replaced variable that one step needs. */
  predicate HeadClashFree(x: seq<Column>, h: string, rest: seq<string>) {
    !HasColumn(x, h + "_squared") && h + "_squared" !in rest &&
    forall k :: 0 <= k < |rest| ==> rest[k] != h && rest[k] != h + "_squared"
  }

  lemma ClashFreeHead(x: seq<Column>, high: seq<string>)
    requires ClashFree(x, high) && high != []
    ensures HeadClashFree(x, high[0], high[1..])
  {
    var h, rest := high[0], high[1..];
    assert h in high;
    forall k | 0 <= k < |rest| ensures rest[k] != h && rest[k] != h + "_squared" {
      assert rest[k] == high[k + 1] && rest[k] in high;
    }
  }

  /** The inductive step: the layout after the first replacement gives
      the layout of the whole loop. */
  lemma ReplaceAllLayoutStep(x: seq<Column>, h: string, rest: seq<string>)
    requires HeadClashFree(x, h, rest)
    requires var y := DropColumn(x, h) + [(h + "_squared", Square(ColumnValues(x, h)))];
      ReplaceAll(y, rest) == Keep(y, rest) + Squares(y, rest)
    ensures ReplaceAll(x, [h] + rest) == Keep(x, [h] + rest) + Squares(x, [h] + rest)
  {
    var sq := (h + "_squared", Square(ColumnValues(x, h)));
    var y := DropColumn(x, h) + [sq];
    var kept, tail := Keep(x, [h] + rest), Squares(y, rest);
    assert ReplaceAll(x, [h] + rest) == ReplaceAll(y, rest) by {
      assert ([h] + rest)[0] == h && ([h] + rest)[1..] == rest;
      ReplaceAppends(x, h);
    }
    assert Keep(y, rest) == kept + [sq] by {
      KeepStep(x, h, rest);
    }
    assert Squares(x, [h] + rest) == [sq] + tail by {
      SquaresStep(x, h, rest);
    }
    assert (kept + [sq]) + tail == kept + ([sq] + tail);
  }

  /** One replacement drops the variable and appends its square. */
  lemma ReplaceAppends(x: seq<Column>, h: string)
    requires !HasColumn(x, h + "_squared")
    ensures Replace(x, h) == DropColumn(x, h) + [(h + "_squared", Square(ColumnValues(x, h)))]
  {
    var sq := (h + "_squared", Square(ColumnValues(x, h)));
    SquaredDiffers(h);
    assert SetColumn(x, sq.0, sq.1) == x + [sq];
    DropColumnAppend(x, sq, h);
  }

  lemma KeepStep(x: seq<Column>, h: string, rest: seq<string>)
    requires h + "_squared" !in rest
    ensures Keep(DropColumn(x, h) + [(h + "_squared", Square(ColumnValues(x, h)))], rest) ==
      Keep(x, [h] + rest) + [(h + "_squared", Square(ColumnValues(x, h)))]
  {
    var sq := (h + "_squared", Square(ColumnValues(x, h)));
    KeepAppend(DropColumn(x, h), [sq], rest);
    assert Keep([sq], rest) == [sq] by {
      assert [sq][1..] == [];
    }
    KeepDrop(x, [h] + rest);
    assert ([h] + rest)[0] == h && ([h] + rest)[1..] == rest;
  }

  lemma SquaresStep(x: seq<Column>, h: string, rest: seq<string>)
    requires forall k :: 0 <= k < |rest| ==> rest[k] != h && rest[k] != h + "_squared"
    ensures Squares(x, [h] + rest) == [(h + "_squared", Square(ColumnValues(x, h)))] +
      Squares(DropColumn(x, h) + [(h + "_squared", Square(ColumnValues(x, h)))], rest)
  {
    var sq := (h + "_squared", Square(ColumnValues(x, h)));
    var y := DropColumn(x, h) + [sq];
    forall k | 0 <= k < |rest| ensures ColumnValues(y, rest[k]) == ColumnValues(x, rest[k]) {
      ColumnValuesAppend(DropColumn(x, h), sq, rest[k]);
      ColumnValuesDrop(x, h, rest[k]);
    }
    assert Squares(y, rest) == Squares(x, rest);
  }

  lemma ReplaceStaysClashFree(x: seq<Column>, high: seq<string>)
    requires ClashFree(x, high) && high != []
    ensures ClashFree(DropColumn(x, high[0]) + [(high[0] + "_squared", Square(ColumnValues(x, high[0])))], high[1..])
  {
    var h, rest := high[0], high[1..];
    var sq := (h + "_squared", Square(ColumnValues(x, h)));
    var y := DropColumn(x, h) + [sq];
    DropColumnMembers(x, h);
    forall v | v in rest ensures v in high {
      var k :| 0 <= k < |rest| && rest[k] == v;
      assert high[k + 1] == v;
    }
    forall i, j | 0 <= i < j < |rest| ensures rest[i] != rest[j] {
      assert rest[i] == high[i + 1] && rest[j] == high[j + 1];
    }
    forall v | v in rest ensures !HasColumn(y, v + "_squared") {
      assert v in high;
      assert v != h by {
        var k :| 0 <= k < |rest| && rest[k] == v;
        assert high[k + 1] == v;
      }
      forall i | 0 <= i < |y| ensures y[i].0 != v + "_squared" {
        if i < |y| - 1 {
          assert y[i] in DropColumn(x, h);
          assert y[i] in x;
        } else if v + "_squared" == h + "_squared" {
          SquaredInjective(v, h);
          assert false;
        }
      }
    }
  }

  lemma SquaredDiffers(v: string)
    ensures v + "_squared" != v
  {
    assert |v + "_squared"| == |v| + 8;
  }

  lemma SquaredInjective(v: string, w: string)
    requires v + "_squared" == w + "_squared"
    ensures v == w
  {
    assert |v| == |w|;
    assert v == (v + "_squared")[..|v|];
    assert w == (w + "_squared")[..|w|];
  }

  lemma {:induction false} KeepNothing(x: seq<Column>, names: seq<string>)
    requires names == []
    ensures Keep(x, names) == x
    decreases |x|
  {
    if x != [] {
      KeepNothing(x[1..], names);
    }
  }

  lemma {:induction false} KeepAppend(a: seq<Column>, b: seq<Column>, names: seq<string>)
    ensures Keep(a + b, names) == Keep(a, names) + Keep(b, names)
    decreases |a|
  {
    if a == [] {
      assert a + b == b;
    } else {
      assert (a + b)[1..] == a[1..] + b;
      KeepAppend(a[1..], b, names);
    }
  }

  /** Dropping the first replaced variable, then keeping what the others
      do not name, keeps what none of them names. */
  lemma {:induction false} KeepDrop(x: seq<Column>, high: seq<string>)
    requires high != []
    ensures Keep(DropColumn(x, high[0]), high[1..]) == Keep(x, high)
    decreases |x|
  {
    if x != [] {
      KeepDrop(x[1..], high);
      var d := DropColumn(x[1..], high[0]);
      assert high == [high[0]] + high[1..];
      assert x[0].0 in high <==> x[0].0 == high[0] || x[0].0 in high[1..];
      if x[0].0 != high[0] {
        assert DropColumn(x, high[0]) == [x[0]] + d;
        assert ([x[0]] + d)[1..] == d;
        assert Keep([x[0]] + d, high[1..]) == (if x[0].0 in high[1..] then [] else [x[0]]) + Keep(d, high[1..]);
      } else {
        assert DropColumn(x, high[0]) == d;
        assert Keep(x, high) == Keep(x[1..], high);
      }
    }
  }

  lemma {:induction false} DropColumnAppend(x: seq<Column>, c: Column, name: string)
    requires c.0 != name
    ensures DropColumn(x + [c], name) == DropColumn(x, name) + [c]
    decreases |x|
  {
    if x == [] {
      assert [c][1..] == [];
    } else {
      assert (x + [c])[1..] == x[1..] + [c];
      DropColumnAppend(x[1..], c, name);
    }
  }

  lemma {:induction false} ColumnValuesAppend(x: seq<Column>, c: Column, name: string)
    requires c.0 != name
    ensures ColumnValues(x + [c], name) == ColumnValues(x, name)
    decreases |x|
  {
    if x == [] {
      assert [c][1..] == [];
    } else {
      assert (x + [c])[1..] == x[1..] + [c];
      ColumnValuesAppend(x[1..], c, name);
    }
  }

  lemma {:induction false} ColumnValuesDrop(x: seq<Column>, dropped: string, name: string)
    requires dropped != name
    ensures ColumnValues(DropColumn(x, dropped), name) == ColumnValues(x, name)
    decreases |x|
  {
    if x != [] {
      ColumnValuesDrop(x[1..], dropped, name);
      var d := DropColumn(x[1..], dropped);
      if x[0].0 != dropped {
        assert DropColumn(x, dropped) == [x[0]] + d;
        assert ([x[0]] + d)[0] == x[0];
        assert ([x[0]] + d)[1..] == d;
      } else {
        assert DropColumn(x, dropped) == d;
      }
    }
  }

  /** With column names that do not clash with the `_squared` names, a
      replacement keeps the column count: the variable is gone and its
      square is the last column. */
  lemma ReplaceKeepsWidth(x: seq<Column>, name: string)
    requires HasColumn(x, name)
    requires forall i, j :: 0 <= i < j < |x| ==> x[i].0 != x[j].0
    requires !HasColumn(x, name + "_squared")
    ensures |Replace(x, name)| == |x|
    ensures Replace(x, name)[|x| - 1] == (name + "_squared", Square(ColumnValues(x, name)))
    ensures forall c :: c in x && c.0 != name ==> c in Replace(x, name)
    ensures !HasColumn(Replace(x, name), name)
  {
    var sq := name + "_squared";
    var vals := Square(ColumnValues(x, name));
    var y := SetColumn(x, sq, vals);
    assert y == x + [(sq, vals)];
    assert sq != name by {
      assert |sq| == |name| + 8;
    }
    var k :| 0 <= k < |x| && x[k].0 == name;
    forall j | 0 <= j < |y| && j != k ensures y[j].0 != name {
      if j < |x| {
        assert y[j] == x[j];
        if j < k { assert x[j].0 != x[k].0; } else { assert x[k].0 != x[j].0; }
      }
    }
    DropOneColumn(y, name, k);
    var r := Replace(x, name);
    assert r == DropColumn(y, name);
    assert r == y[..k] + y[k + 1..];
    assert |r| == |x|;
    assert r[|x| - 1] == y[|x|];
    DropColumnMembers(y, name);
    forall c | c in x && c.0 != name ensures c in r {
      assert c in y;
    }
    forall i | 0 <= i < |r| ensures r[i].0 != name {
      assert r[i] in r;
    }
  }

  lemma {:induction false} DropOneColumn(y: seq<Column>, name: string, k: nat)
    requires k < |y| && y[k].0 == name
    requires forall j :: 0 <= j < |y| && j != k ==> y[j].0 != name
    ensures DropColumn(y, name) == y[..k] + y[k + 1..]
    decreases |y|
  {
    var t := y[1..];
    if k == 0 {
      forall j | 0 <= j < |t| ensures t[j].0 != name {
        assert t[j] == y[j + 1];
      }
      DropNothing(t, name);
      assert DropColumn(y, name) == DropColumn(t, name);
    } else {
      assert y[0].0 != name;
      forall j | 0 <= j < |t| && j != k - 1 ensures t[j].0 != name {
        assert t[j] == y[j + 1];
      }
      DropOneColumn(t, name, k - 1);
      assert DropColumn(y, name) == [y[0]] + DropColumn(t, name);
      assert t[..k - 1] == y[1..k];
      assert t[k..] == y[k + 1..];
      assert [y[0]] + (y[1..k] + y[k + 1..]) == y[..k] + y[k + 1..];
    }
  }

  lemma {:induction false} DropNothing(y: seq<Column>, name: string)
    requires forall j :: 0 <= j < |y| ==> y[j].0 != name
    ensures DropColumn(y, name) == y
    decreases |y|
  {
    if y != [] {
      DropNothing(y[1..], name);
    }
  }

  // ---------------------------------------------------------------------
  // run_price_differential_model: zero-variance gate

  /** pandas' sample variance is zero exactly for two or more equal values;
      with fewer values it is NaN, which is not zero. */
  predicate ZeroVariance(s: seq<real>) {
    |s| >= 2 && forall i :: 0 <= i < |s| ==> s[i] == s[0]
  }

  /** Every pair has a non-empty price differential, so `x[-1]` succeeds. */
  predicate AllDifferentials(pairs: seq<PairResult>) {
    forall i :: 0 <= i < |pairs| ==> |pairs[i].priceDifferential| > 0
  }

  /** `df['price_differential'].apply(lambda x: x[-1])`. */
  function LastDifferentials(pairs: seq<PairResult>): (y: seq<real>)
    requires AllDifferentials(pairs)
    ensures |y| == |pairs|
    ensures forall i :: 0 <= i < |pairs| ==> y[i] == pairs[i].priceDifferential[|pairs[i].priceDifferential| - 1]
  {
    seq(|pairs|, i requires 0 <= i < |pairs| => pairs[i].priceDifferential[|pairs[i].priceDifferential| - 1])
  }

  /** The predictor columns `df[['distance', 'conflict_correlation']]`. */
  function Predictors(pairs: seq<PairResult>): (x: seq<Column>)
    ensures |x| == 2 && x[0].0 == "distance" && x[1].0 == "conflict_correlation"
    ensures |x[0].1| == |x[1].1| == |pairs|
    ensures forall i :: 0 <= i < |pairs| ==> x[0].1[i] == pairs[i].distance && x[1].1[i] == pairs[i].conflictCorrelation
  {
    [("distance", seq(|pairs|, i requires 0 <= i < |pairs| => pairs[i].distance)),
     ("conflict_correlation", seq(|pairs|, i requires 0 <= i < |pairs| => pairs[i].conflictCorrelation))]
  }

  /** The regression inputs of `run_price_differential_model`: y is the last
      price differential of each pair, X holds distance and conflict
      correlation. No pair (a missing column), an empty differential, or a
      zero variance in y or a predictor give no model. */
  function ModelInputs(pairs: seq<PairResult>): (r: Option<(seq<real>, seq<Column>)>)
    ensures r.None? <==> (pairs == [] || !AllDifferentials(pairs) ||
      ZeroVariance(LastDifferentials(pairs)) || exists c :: c in Predictors(pairs) && ZeroVariance(c.1))
    ensures r.Some? ==> r.value == (LastDifferentials(pairs), Predictors(pairs))
    ensures r.Some? ==> |pairs| > 0 && |r.value.0| == |pairs|
    ensures r.Some? ==> forall i :: 0 <= i < |pairs| ==>
      |pairs[i].priceDifferential| > 0 && r.value.0[i] == pairs[i].priceDifferential[|pairs[i].priceDifferential| - 1]
    ensures r.Some? ==> !ZeroVariance(r.value.0) && forall c :: c in r.value.1 ==> !ZeroVariance(c.1)
  {
    if pairs == [] || !AllDifferentials(pairs) then None
    else
      var y := LastDifferentials(pairs);
      var x := Predictors(pairs);
      if ZeroVariance(y) || ZeroVariance(x[0].1) || ZeroVariance(x[1].1) then None
      else
        assert forall c :: c in x ==> c == x[0] || c == x[1];
        Some((y, x))
  }

  // ---------------------------------------------------------------------
  // main

  datatype PairArgs = PairArgs(base: string, baseSeries: MarketSeries, other: string, otherSeries: MarketSeries, commodity: string)

  /** `market_data[k]` for a key that may be absent. */
  function Lookup(md: MarketData, k: PairKey): (r: Option<MarketSeries>)
    ensures r.Some? <==> HasKey(md, k)
    ensures r.Some? ==> (k, r.value) in md
    decreases |md|
  {
    if md == [] then None
    else if md[0].0 == k then Some(md[0].1)
    else
      assert forall i :: 0 <= i < |md| - 1 ==> md[1..][i] == md[i + 1];
      assert HasKey(md, k) ==> HasKey(md[1..], k) by {
        if HasKey(md, k) {
          var i :| 0 <= i < |md| && md[i].0 == k;
          assert md[1..][i - 1] == md[i];
        }
      }
      Lookup(md[1..], k)
  }

  /** An argument tuple pairing the base market with the entry `(other,
      commodity)` of `entries`, whose commodity the base market has in `md`. */
  predicate ArgSound(a: PairArgs, entries: MarketData, md: MarketData, base: string) {
    a.base == base && a.other != base && Lookup(md, (base, a.commodity)) == Some(a.baseSeries) &&
    ((a.other, a.commodity), a.otherSeries) in entries
  }

  /** The entry `e` has an argument tuple in `args`. */
  predicate Covered(args: seq<PairArgs>, e: (PairKey, MarketSeries)) {
    exists a :: a in args && a.other == e.0.0 && a.commodity == e.0.1 && a.otherSeries == e.1
  }

  /** The comprehension of `main` over the entries `entries` of another
      market, looking the base series up in `md`; `main` builds its
      argument list as `PairArgsOver(md, md, base)`. */
  function PairArgsOver(entries: MarketData, md: MarketData, base: string): (args: seq<PairArgs>)
    ensures |args| <= |entries|
    ensures forall a :: a in args ==> ArgSound(a, entries, md, base)
    ensures forall e :: e in entries && e.0.0 != base && HasKey(md, (base, e.0.1)) ==> Covered(args, e)
    decreases |entries|
  {
    if entries == [] then []
    else
      var n := |entries| - 1;
      var p := PairArgsOver(entries[..n], md, base);
      var e := entries[n];
      assert entries == entries[..n] + [e];
      var b := Lookup(md, (base, e.0.1));
      var args := p + (if e.0.0 != base && b.Some? then [PairArgs(base, b.value, e.0.0, e.1, e.0.1)] else []);
      assert forall a :: a in p ==> a in args;
      args
  }

  /** `[r for r in results if r is not None]`. */
  function KeepResults(results: seq<Option<PairResult>>): (r: seq<PairResult>)
    ensures |r| <= |results|
    ensures forall x :: x in r <==> Some(x) in results
    decreases |results|
  {
    if results == [] then []
    else
      var n := |results| - 1;
      assert results == results[..n] + [results[n]];
      KeepResults(results[..n]) + (if results[n].Some? then [results[n].value] else [])
  }
}

=== FILE: output_mapping.dfy ===
/** The output mapper: a description of the shape of every result file,
    keyed by dotted paths for JSON documents and by header for CSV files. */
module OutputMapping {
  import opened Common
  import opened Serialization

  /** A value of the structure dictionary: either the structure of a nested
      value or the Python type name of a leaf. */
  datatype Node =
    | TypeName(name: string)
    | Sub(entries: seq<(string, Node)>)

  /** The structure dictionary itself, in insertion order. */
  type Structure = seq<(string, Node)>

  /** `type(data).__name__` of the Python value `json.load` gives for `j`. */
  function PythonTypeName(j: Json): string {
    match j
    case JNull => "NoneType"
    case JBool(_) => "bool"
    case JInt(_) => "int"
    case JFloat(_) => "float"
    case JStr(_) => "str"
    case JArray(_) => "list"
    case JObject(_) => "dict"
  }

  /** The key a member gets: `prefix.key`, or `key` alone when the prefix is
      the empty (falsy) string. */
  function NewPrefix(prefix: string, key: string): string {
    if prefix == "" then key else prefix + "." + key
  }

  lemma NewPrefixInjective(prefix: string, a: string, b: string)
    requires NewPrefix(prefix, a) == NewPrefix(prefix, b)
    ensures a == b
  {
    if prefix != "" {
      assert (prefix + "." + a)[|prefix| + 1..] == a;
      assert (prefix + "." + b)[|prefix| + 1..] == b;
    }
  }

  /** `map_json_structure(data, prefix)`: an object maps each member to the
      structure of its value under the extended prefix, a non-empty list
      is described by its first element under the same prefix, and
      anything else (the empty list included) by its type name. */
  function MapJsonStructure(data: Json, prefix: string): (r: Structure)
    ensures DistinctKeys(r)
    ensures data.JObject? ==>
      forall k :: k in KeysOf(r) <==> exists i :: 0 <= i < |data.members| && NewPrefix(prefix, data.members[i].0) == k
    ensures data == JObject([]) ==> r == []
    ensures data.JArray? && data.items != [] ==> |r| == 1 && r[0].0 == prefix && r[0].1.Sub?
    ensures !data.JObject? && !(data.JArray? && data.items != []) ==> r == [(prefix, TypeName(PythonTypeName(data)))]
    ensures data == JArray([]) ==> r == [(prefix, TypeName("list"))]
    decreases data
  {
    match data
    case JObject(members) =>
      var pairs := seq(|members|, i requires 0 <= i < |members| =>
        (NewPrefix(prefix, members[i].0), Sub(MapJsonStructure(members[i].1, NewPrefix(prefix, members[i].0)))));
      forall k ensures k in KeysOf(pairs) <==> exists i :: 0 <= i < |members| && NewPrefix(prefix, members[i].0) == k {
        KeysOfIndex(pairs, k);
        if exists i :: 0 <= i < |members| && NewPrefix(prefix, members[i].0) == k {
          var i :| 0 <= i < |members| && NewPrefix(prefix, members[i].0) == k;
          assert pairs[i].0 == k;
        }
      }
      DictFrom(pairs)
    case JArray(items) =>
      if items != [] then [(prefix, Sub(MapJsonStructure(items[0], prefix)))]
      else [(prefix, TypeName(PythonTypeName(data)))]
    case _ => [(prefix, TypeName(PythonTypeName(data)))]
  }

  /** For a member whose key does not occur again later, the structure holds
      that member's own structure under its prefixed key. */
  lemma MemberStructure(members: seq<(string, Json)>, prefix: string, i: nat)
    requires i < |members|
    requires forall j :: i < j < |members| ==> members[j].0 != members[i].0
    ensures Get(MapJsonStructure(JObject(members), prefix), NewPrefix(prefix, members[i].0))
      == Some(Sub(MapJsonStructure(members[i].1, NewPrefix(prefix, members[i].0))))
  {
    var pairs := seq(|members|, j requires 0 <= j < |members| =>
      (NewPrefix(prefix, members[j].0), Sub(MapJsonStructure(members[j].1, NewPrefix(prefix, members[j].0)))));
    forall j | i < j < |pairs| ensures pairs[j].0 != pairs[i].0 {
      if pairs[j].0 == pairs[i].0 {
        NewPrefixInjective(prefix, members[j].0, members[i].0);
      }
    }
    DictFromLastWins(pairs, i);
  }

  /** A non-empty list is described by its first element alone: lists that
      agree on it have the same structure. */
  lemma FirstElementOnly(x: Json, rest1: seq<Json>, rest2: seq<Json>, prefix: string)
    ensures MapJsonStructure(JArray([x] + rest1), prefix) == MapJsonStructure(JArray([x] + rest2), prefix)
    ensures MapJsonStructure(JArray([x] + rest1), prefix) == [(prefix, Sub(MapJsonStructure(x, prefix)))]
  {
  }

  // ---------------------------------------------------------------------
  // Depth

  /** Containers in `j` nest at most `d` deep. */
  predicate JsonWithin(j: Json, d: nat)
    decreases j
  {
    match j
    case JArray(items) => d > 0 && forall i :: 0 <= i < |items| ==> JsonWithin(items[i], d - 1)
    case JObject(members) => d > 0 && forall i :: 0 <= i < |members| ==> JsonWithin(members[i].1, d - 1)
    case _ => true
  }

  /** Nested structures in `n` nest at most `d` deep. */
  predicate NodeWithin(n: Node, d: nat)
    decreases n
  {
    match n
    case TypeName(_) => true
    case Sub(entries) => d > 0 && forall i :: 0 <= i < |entries| ==> NodeWithin(entries[i].1, d - 1)
  }

  predicate StructureWithin(r: Structure, d: nat) {
    forall i :: 0 <= i < |r| ==> NodeWithin(r[i].1, d)
  }

  lemma DictFromWithin(pairs: Structure, d: nat)
    requires StructureWithin(pairs, d)
    ensures StructureWithin(DictFrom(pairs), d)
  {
    DictIntoElements([], pairs);
    forall e | e in DictFrom(pairs) ensures NodeWithin(e.1, d) {
      var i :| 0 <= i < |pairs| && pairs[i] == e;
    }
  }

  lemma ObjectWithin(members: seq<(string, Json)>, prefix: string, d: nat)
    requires d > 0
    requires forall i :: 0 <= i < |members| ==>
      StructureWithin(MapJsonStructure(members[i].1, NewPrefix(prefix, members[i].0)), d - 1)
    ensures StructureWithin(MapJsonStructure(JObject(members), prefix), d)
  {
    var pairs := seq(|members|, i requires 0 <= i < |members| =>
      (NewPrefix(prefix, members[i].0), Sub(MapJsonStructure(members[i].1, NewPrefix(prefix, members[i].0)))));
    assert MapJsonStructure(JObject(members), prefix) == DictFrom(pairs);
    DictFromWithin(pairs, d);
  }

  /** The recursion is no deeper than the document: a document whose
      containers nest at most `d` deep yields a structure whose dictionaries
      nest at most `d` deep. */
  lemma {:induction false} DepthBounded(data: Json, prefix: string, d: nat)
    requires JsonWithin(data, d)
    ensures StructureWithin(MapJsonStructure(data, prefix), d)
    decreases data
  {
    match data
    case JObject(members) =>
      forall i | 0 <= i < |members|
        ensures StructureWithin(MapJsonStructure(members[i].1, NewPrefix(prefix, members[i].0)), d - 1)
      {
        DepthBounded(members[i].1, NewPrefix(prefix, members[i].0), d - 1);
      }
      ObjectWithin(members, prefix, d);
    case JArray(items) =>
      if items != [] {
        DepthBounded(items[0], prefix, d - 1);
      }
    case _ =>
  }

  // ---------------------------------------------------------------------
  // CSV files

  /** Every header inserted in turn with the same type name. */
  function HeaderTypes(headers: seq<string>, t: string): seq<(string, string)>
    decreases |headers|
  {
    if headers == [] then []
    else
      var n := |headers| - 1;
      Insert(HeaderTypes(headers[..n], t), headers[n], t)
  }

  /** No header is written twice, and the keys are exactly the headers. */
  lemma {:induction false} HeaderTypesKeys(headers: seq<string>, t: string)
    ensures DistinctKeys(HeaderTypes(headers, t))
    ensures KeysOf(HeaderTypes(headers, t)) == set h | h in headers
    decreases |headers|
  {
    if headers != [] {
      var n := |headers| - 1;
      HeaderTypesKeys(headers[..n], t);
      assert headers == headers[..n] + [headers[n]];
    }
  }

  lemma {:induction false} HeaderTypesValues(headers: seq<string>, t: string, k: string)
    requires k in headers
    ensures Get(HeaderTypes(headers, t), k) == Some(t)
    decreases |headers|
  {
    var n := |headers| - 1;
    var prev := HeaderTypes(headers[..n], t);
    assert HeaderTypes(headers, t) == Insert(prev, headers[n], t);
    GetInsert(prev, headers[n], t, k);
    if k != headers[n] {
      var j :| 0 <= j < |headers| && headers[j] == k;
      assert headers[..n][j] == k;
      HeaderTypesValues(headers[..n], t, k);
    }
  }

  /** `structure[header] = t` for the i-th header. */
  method AddHeader(structure: seq<(string, string)>, headers: seq<string>, i: nat, t: string) returns (s: seq<(string, string)>)
    requires i < |headers| && structure == HeaderTypes(headers[..i], t)
    ensures s == HeaderTypes(headers[..i + 1], t)
  {
    assert headers[..i + 1][..i] == headers[..i];
    s := Insert(structure, headers[i], t);
  }

  /** Whether the file has a first data row that Python finds truthy: an
      absent row and a blank line (an empty list) both count as missing. */
  predicate HasFirstRow(firstRow: Option<seq<string>>) {
    firstRow.Some? && firstRow.value != []
  }

  /** The header-to-type part of `map_csv_structure`: every cell read by
      `csv` is a string; a first row shorter than the header row makes the
      lookup `first_row[i]` fail. */
  function MapCsvStructureSpec(headers: seq<string>, firstRow: Option<seq<string>>): Result<seq<(string, string)>> {
    if HasFirstRow(firstRow) && |firstRow.value| < |headers| then Failure("IndexError: list index out of range")
    else Ok(HeaderTypes(headers, if HasFirstRow(firstRow) then "str" else "Unknown"))
  }

  method MapCsvStructure(headers: seq<string>, firstRow: Option<seq<string>>) returns (r: Result<seq<(string, string)>>)
    ensures r == MapCsvStructureSpec(headers, firstRow)
  {
    var structure: seq<(string, string)> := [];
    ghost var t := if HasFirstRow(firstRow) then "str" else "Unknown";
    var i := 0;
    while i < |headers|
      invariant 0 <= i <= |headers|
      invariant HasFirstRow(firstRow) ==> i <= |firstRow.value|
      invariant structure == HeaderTypes(headers[..i], t)
    {
      var typeName: string;
      if HasFirstRow(firstRow) {
        if i >= |firstRow.value| {
          return Failure("IndexError: list index out of range");
        }
        typeName := "str";
      } else {
        typeName := "Unknown";
      }
      structure := AddHeader(structure, headers, i, typeName);
      i := i + 1;
    }
    assert headers[..|headers|] == headers;
    return Ok(structure);
  }

  /** The CSV structure fails exactly on a short first row; otherwise it
      has one key per distinct header, each mapped to 'str' when a first
      row exists and to 'Unknown' when it does not. */
  lemma MapCsvStructureMeaning(headers: seq<string>, firstRow: Option<seq<string>>)
    ensures MapCsvStructureSpec(headers, firstRow).Failure?
      <==> HasFirstRow(firstRow) && |firstRow.value| < |headers|
    ensures var r := MapCsvStructureSpec(headers, firstRow);
      r.Ok? ==> KeysOf(r.value) == (set h | h in headers) && |r.value| == |set h | h in headers|
    ensures forall k :: k in headers && MapCsvStructureSpec(headers, firstRow).Ok? ==>
      Get(MapCsvStructureSpec(headers, firstRow).value, k) == Some(if HasFirstRow(firstRow) then "str" else "Unknown")
  {
    var t := if HasFirstRow(firstRow) then "str" else "Unknown";
    HeaderTypesKeys(headers, t);
    DistinctKeysCard(HeaderTypes(headers, t));
    forall k | k in headers {
      HeaderTypesValues(headers, t, k);
    }
  }
}

=== FILE: regimes.dfy ===
/** Regime labelling and keying of the data-preparation script: the market
    id, the column checks, the Unified/Split labelling by exchange-rate
    variance, the North/South relabelling through the cluster of Aden, the
    per-district lag columns and the choice of (commodity, regime) groups
    that go on to the analysis. */
module Regimes {
  import opened Common

  /** One row of the merged price table. */
  datatype PriceRow = PriceRow(
    market: string, admin1: string, admin2: string, commodity: string, date: int, price: Num)

  /** The `exchange_rate_regime` column; `Missing` is the NaN that `.map`
      writes for a province the regime map does not hold. */
  datatype Regime = Unified | Split | North | South | Missing

  /** `create_unique_market_id`. */
  function MarketId(market: string, admin1: string): (id: string)
    ensures |id| == |market| + 1 + |admin1|
    ensures id[..|market|] == market && id[|market|] == '_' && id[|market| + 1..] == admin1
  {
    market + "_" + admin1
  }

  /** The parts of a frame `ensure_market_id` looks at: its column names,
      its index names, and the market id of each row (None before one is built). */
  datatype Frame = Frame(columns: set<string>, indexNames: set<string>, rows: seq<PriceRow>, marketIds: seq<Option<string>>)

  /** `ensure_market_id`: an index level named market_id becomes a column,
      and `reset_index` raises when an index level's name is already a
      column; an existing column is kept; otherwise the column is built
      from market and admin1, and without both of those the call raises. */
  function EnsureMarketId(f: Frame): (r: Result<Frame>)
    requires |f.marketIds| == |f.rows|
    ensures r.Failure? <==>
      ("market_id" in f.indexNames && !(f.indexNames !! f.columns)) ||
      ("market_id" !in f.columns && "market_id" !in f.indexNames && !("market" in f.columns && "admin1" in f.columns))
    ensures r.Ok? ==> "market_id" in r.value.columns && r.value.rows == f.rows && |r.value.marketIds| == |f.rows|
    ensures r.Ok? && ("market_id" in f.columns || "market_id" in f.indexNames) ==> r.value.marketIds == f.marketIds
    ensures r.Ok? && "market_id" !in f.columns && "market_id" !in f.indexNames ==>
      forall i :: 0 <= i < |f.rows| ==> r.value.marketIds[i] == Some(MarketId(f.rows[i].market, f.rows[i].admin1))
  {
    if "market_id" in f.indexNames && !(f.indexNames !! f.columns) then
      Failure("cannot insert an index level: a column of that name already exists")
    else
      var g := if "market_id" in f.indexNames
        then Frame(f.columns + f.indexNames, {}, f.rows, f.marketIds)
        else f;
      if "market_id" in g.columns then Ok(g)
      else if "market" in g.columns && "admin1" in g.columns then
        Ok(Frame(g.columns + {"market_id"}, g.indexNames, g.rows,
          seq(|g.rows|, i requires 0 <= i < |g.rows| => Some(MarketId(g.rows[i].market, g.rows[i].admin1)))))
      else Failure("Cannot create market_id: 'market' or 'admin1' columns are missing")
  }

  /** `validate_dataframe`: raises exactly when an expected column is
      missing; null values only produce a warning. */
  function ValidateDataframe(columns: set<string>, expected: seq<string>): (r: Result<()>)
    ensures r.Ok? <==> forall i :: 0 <= i < |expected| ==> expected[i] in columns
  {
    var missing := set i | 0 <= i < |expected| && expected[i] !in columns :: expected[i];
    if missing == {} then
      assert forall i :: 0 <= i < |expected| ==> expected[i] in columns by {
        forall i | 0 <= i < |expected| ensures expected[i] in columns {
          var e := expected[i];
          assert e !in columns ==> e in missing;
        }
      }
      Ok(())
    else
      assert exists i :: 0 <= i < |expected| && expected[i] !in columns by {
        var m :| m in missing;
      }
      Failure("Missing columns")
  }

  // ---------------------------------------------------------------------
  // Unified / Split

  /** The dates whose exchange-rate variance is below the threshold. A date
      with a single quote has a NaN variance, which is never below. */
  function UnifiedPeriod(variance: map<int, Num>, threshold: real): (u: set<int>)
    ensures u <= variance.Keys
    ensures forall d :: d in u <==> d in variance && variance[d].Real? && variance[d].v < threshold
  {
    set d | d in variance && variance[d].Real? && variance[d].v < threshold
  }

  /** `classify_exchange_rate_regimes` on the regime column: with no
      variance the column is left as it was and the period is empty;
      otherwise every row is labelled Unified exactly when its date lies in
      the unified period, and Split otherwise. */
  method ClassifyExchangeRateRegimes(rows: seq<PriceRow>, variance: map<int, Num>, threshold: real, regime: array<Regime>)
    returns (classified: bool, unified: set<int>)
    requires regime.Length == |rows|
    modifies regime
    ensures classified <==> |variance| > 0
    ensures unified == if classified then UnifiedPeriod(variance, threshold) else {}
    ensures !classified ==> regime[..] == old(regime[..])
    ensures classified ==> forall i :: 0 <= i < |rows| ==>
      (regime[i] == Unified <==> rows[i].date in unified) && (regime[i] == Split <==> rows[i].date !in unified)
  {
    if |variance| == 0 {
      return false, {};
    }
    classified := true;
    unified := UnifiedPeriod(variance, threshold);
    forall i | 0 <= i < regime.Length {
      regime[i] := if rows[i].date in unified then Unified else Split;
    }
  }

  // ---------------------------------------------------------------------
  // North / South

  /** The exchange-rate rows outside the unified period. */
  function SplitRows(rows: seq<PriceRow>, unified: set<int>): (s: seq<PriceRow>)
    ensures |s| <= |rows|
    ensures forall r :: r in s <==> r in rows && r.date !in unified && r.commodity == EXCHANGE_RATE_COMMODITY
  {
    if rows == [] then []
    else
      var rest := SplitRows(rows[1..], unified);
      assert forall r :: r in rows <==> r == rows[0] || r in rows[1..];
      if rows[0].date !in unified && rows[0].commodity == EXCHANGE_RATE_COMMODITY then [rows[0]] + rest else rest
  }

  /** The split rows of two blocks are those of the first followed by those
      of the second, and one row is kept exactly when it is an exchange-rate
      quote outside the unified period: order and multiplicity are kept. */
  lemma {:induction false} SplitRowsAppend(a: seq<PriceRow>, b: seq<PriceRow>, unified: set<int>)
    ensures SplitRows(a + b, unified) == SplitRows(a, unified) + SplitRows(b, unified)
    ensures |a| == 1 ==> (SplitRows(a, unified) ==
      if a[0].date !in unified && a[0].commodity == EXCHANGE_RATE_COMMODITY then a else [])
    decreases |a|
  {
    if a != [] {
      assert (a + b)[0] == a[0] && (a + b)[1..] == a[1..] + b;
      SplitRowsAppend(a[1..], b, unified);
    } else {
      assert a + b == b;
    }
  }

  /** The rows of the pivot table: provinces with at least one quote among
      the split rows that is not NaN (a province whose quotes are all NaN
      has no row; an infinite quote keeps its province). */
  function Provinces(split: seq<PriceRow>): set<string> {
    set r | r in split && !r.price.NaN? :: r.admin1
  }

  /** Where a Split row of `admin1` ends up: the cluster of Aden is South,
      the other cluster North, a province outside the pivot table NaN. */
  function RegionOf(admin1: string, provinces: set<string>, cluster: string -> bool): Regime {
    if admin1 !in provinces then Missing
    else if cluster(admin1) == cluster("Aden") then South
    else North
  }

  /** The gates of `determine_north_south_regimes` under which it returns
      the frame unchanged. */
  predicate NorthSouthApplies(rows: seq<PriceRow>, unified: set<int>) {
    var split := SplitRows(rows, unified);
    |split| >= 2 && |Provinces(split)| >= 2 && "Aden" in Provinces(split)
  }

  /** `StandardScaler().fit_transform` rejects an infinite cell. A pivot
      cell is the mean of its province's quotes on that date, and a NaN cell
      is filled with its row's mean, so some cell is infinite exactly when
      some split quote is. The scaler runs once both row gates have passed. */
  predicate ScalerFails(rows: seq<PriceRow>, unified: set<int>) {
    var split := SplitRows(rows, unified);
    |split| >= 2 && |Provinces(split)| >= 2 && exists q :: q in split && q.price.Inf?
  }

  /** `determine_north_south_regimes` on the regime column. The two-cluster
      labels of the pivot's provinces are an oracle `cluster`. `raised` is
      the exception the function logs and re-raises; the column is then
      untouched. */
  method DetermineNorthSouthRegimes(rows: seq<PriceRow>, unified: set<int>, cluster: string -> bool, regime: array<Regime>)
    returns (raised: bool)
    requires regime.Length == |rows|
    modifies regime
    ensures raised <==> ScalerFails(rows, unified)
    ensures raised || !NorthSouthApplies(rows, unified) ==> regime[..] == old(regime[..])
    ensures !raised && NorthSouthApplies(rows, unified) ==> forall i :: 0 <= i < |rows| ==>
      regime[i] == if old(regime[i]) == Split then RegionOf(rows[i].admin1, Provinces(SplitRows(rows, unified)), cluster) else old(regime[i])
  {
    var split := SplitRows(rows, unified);
    if |split| < 2 {
      return false;
    }
    var provinces := Provinces(split);
    if |provinces| < 2 {
      return false;
    }
    if exists q :: q in split && q.price.Inf? {
      return true;
    }
    if "Aden" !in provinces {
      return false;
    }
    forall i | 0 <= i < regime.Length && regime[i] == Split {
      regime[i] := RegionOf(rows[i].admin1, provinces, cluster);
    }
    raised := false;
  }

  /** The relabelling names exactly two regions: Aden's own Split rows are
      South, every province of the pivot is North or South, and two
      provinces share a label exactly when they share a cluster. */
  lemma NorthSouthLabels(provinces: set<string>, cluster: string -> bool, p: string, q: string)
    requires "Aden" in provinces && p in provinces && q in provinces
    ensures RegionOf("Aden", provinces, cluster) == South
    ensures RegionOf(p, provinces, cluster) in {North, South}
    ensures RegionOf(p, provinces, cluster) == RegionOf(q, provinces, cluster) <==> cluster(p) == cluster(q)
  {
  }

  // ---------------------------------------------------------------------
  // Lag columns

  /** The values of the rows of group `g`, in order. */
  function GroupValues(groups: seq<string>, values: seq<Num>, g: string): (s: seq<Num>)
    requires |groups| == |values|
    ensures |s| <= |groups|
    decreases |groups|
  {
    if groups == [] then []
    else
      var n := |groups| - 1;
      GroupValues(groups[..n], values[..n], g) + (if groups[n] == g then [values[n]] else [])
  }

  /** Python's `groupby(groups).shift(k)`: for each row, the value of the
      row k places earlier within its own group, absent for the first k rows. */
  function ShiftWithinGroup(groups: seq<string>, values: seq<Num>, k: nat): (r: seq<Option<Num>>)
    requires |groups| == |values| && k >= 1
    ensures |r| == |values|
  {
    seq(|values|, i requires 0 <= i < |values| =>
      var h := GroupValues(groups[..i], values[..i], groups[i]);
      if |h| < k then None else Some(h[|h| - k]))
  }

  /** A row has no lag-k value exactly when fewer than k earlier rows share its group. */
  lemma {:induction false} GroupValuesCount(groups: seq<string>, values: seq<Num>, g: string)
    requires |groups| == |values|
    ensures |GroupValues(groups, values, g)| == |set j | 0 <= j < |groups| && groups[j] == g|
    decreases |groups|
  {
    if groups != [] {
      var n := |groups| - 1;
      GroupValuesCount(groups[..n], values[..n], g);
      var before := set j | 0 <= j < n && groups[..n][j] == g;
      var all := set j | 0 <= j < |groups| && groups[j] == g;
      assert before == set j | 0 <= j < n && groups[j] == g;
      if groups[n] == g {
        assert all == before + {n};
      } else {
        assert all == before;
      }
    }
  }

  /** The first lag is the value of the nearest earlier row of the same
      group, and is absent exactly when no earlier row shares the group. */
  lemma {:induction false} LagOneIsPreviousInGroup(groups: seq<string>, values: seq<Num>, g: string)
    requires |groups| == |values|
    ensures var h := GroupValues(groups, values, g);
      (h == [] <==> forall j :: 0 <= j < |groups| ==> groups[j] != g) &&
      (h != [] ==> exists j :: 0 <= j < |groups| && groups[j] == g && h[|h| - 1] == values[j] &&
                     forall m :: j < m < |groups| ==> groups[m] != g)
    decreases |groups|
  {
    if groups != [] {
      var n := |groups| - 1;
      LagOneIsPreviousInGroup(groups[..n], values[..n], g);
      var h0 := GroupValues(groups[..n], values[..n], g);
      var h := GroupValues(groups, values, g);
      assert h == h0 + (if groups[n] == g then [values[n]] else []);
      if groups[n] == g {
        assert h[|h| - 1] == values[n];
        assert 0 <= n < |groups| && groups[n] == g && h[|h| - 1] == values[n];
      } else if h0 != [] {
        var j :| 0 <= j < n && groups[..n][j] == g && h0[|h0| - 1] == values[..n][j] &&
                 forall m :: j < m < n ==> groups[..n][m] != g;
        assert groups[j] == g && values[j] == values[..n][j];
        forall m | j < m < |groups| ensures groups[m] != g {
          if m < n { assert groups[..n][m] == groups[m]; }
        }
        assert h[|h| - 1] == values[j];
      } else {
        forall j | 0 <= j < |groups| ensures groups[j] != g {
          if j < n { assert groups[..n][j] == groups[j]; }
        }
      }
    }
  }

  /** Lag k of a row is absent exactly for the first k rows of its group. */
  lemma ShiftAbsentForFirstRows(groups: seq<string>, values: seq<Num>, k: nat, i: nat)
    requires |groups| == |values| && k >= 1 && i < |values|
    ensures ShiftWithinGroup(groups, values, k)[i].None? <==>
      |set j | 0 <= j < i && groups[j] == groups[i]| < k
  {
    GroupValuesCount(groups[..i], values[..i], groups[i]);
    assert (set j | 0 <= j < i && groups[..i][j] == groups[i]) == set j | 0 <= j < i && groups[j] == groups[i];
  }

  /** Lag 1 of a row is the value of the nearest earlier row of its group. */
  lemma ShiftOneIsNearestEarlier(groups: seq<string>, values: seq<Num>, i: nat)
    requires |groups| == |values| && i < |values|
    ensures ShiftWithinGroup(groups, values, 1)[i].None? <==> forall j :: 0 <= j < i ==> groups[j] != groups[i]
    ensures ShiftWithinGroup(groups, values, 1)[i].Some? ==>
      exists j :: 0 <= j < i && groups[j] == groups[i] && ShiftWithinGroup(groups, values, 1)[i].value == values[j] &&
        forall m :: j < m < i ==> groups[m] != groups[i]
  {
    var g := groups[i];
    LagOneIsPreviousInGroup(groups[..i], values[..i], g);
    if forall j :: 0 <= j < i ==> groups[j] != g {
      forall j | 0 <= j < i ensures groups[..i][j] != g {
        assert groups[..i][j] == groups[j];
      }
    } else {
      var h := GroupValues(groups[..i], values[..i], g);
      var j :| 0 <= j < i && groups[..i][j] == g && h[|h| - 1] == values[..i][j] &&
               forall m :: j < m < i ==> groups[..i][m] != g;
      assert groups[j] == g && values[j] == values[..i][j];
      forall m | j < m < i ensures groups[m] != g {
        assert groups[..i][m] == groups[m];
      }
    }
  }

  /** The lag loop of `calculate_conflict_intensity_index`: columns
      `conflict_intensity_lag1` to `lag3`, each the normalised intensity
      shifted within its admin2 district. */
  method AddConflictLags(admin2: seq<string>, normalized: seq<Num>) returns (lags: map<nat, seq<Option<Num>>>)
    requires |admin2| == |normalized|
    ensures lags.Keys == {1, 2, 3}
    ensures forall k :: k in lags ==> lags[k] == ShiftWithinGroup(admin2, normalized, k)
  {
    lags := map[];
    var k := 1;
    while k <= 3
      invariant 1 <= k <= 4
      invariant forall m :: m in lags <==> 1 <= m < k
      invariant forall m :: m in lags ==> lags[m] == ShiftWithinGroup(admin2, normalized, m)
    {
      lags := lags[k := ShiftWithinGroup(admin2, normalized, k)];
      k := k + 1;
    }
  }

  // ---------------------------------------------------------------------
  // Group acceptance in main

  /** The regimes examined for a commodity: the exchange rate only as Unified. */
  function RegimesFor(commodity: string): (rs: seq<string>)
    ensures commodity == EXCHANGE_RATE_COMMODITY ==> rs == ["Unified"]
    ensures commodity != EXCHANGE_RATE_COMMODITY ==> rs == EXCHANGE_RATE_REGIMES
  {
    if commodity == EXCHANGE_RATE_COMMODITY then ["Unified"] else EXCHANGE_RATE_REGIMES
  }

  function RegimeName(r: Regime): Option<string> {
    match r
    case Unified => Some("Unified")
    case Split => Some("Split")
    case North => Some("North")
    case South => Some("South")
    case Missing => None
  }

  /** The row indices of one (commodity, regime) group. */
  function Select(rows: seq<PriceRow>, regime: seq<Regime>, commodity: string, name: string): (s: seq<nat>)
    requires |regime| == |rows|
    ensures forall j :: 0 <= j < |s| ==> s[j] < |rows| && rows[s[j]].commodity == commodity && RegimeName(regime[s[j]]) == Some(name)
    ensures forall i :: 0 <= i < |rows| && rows[i].commodity == commodity && RegimeName(regime[i]) == Some(name) ==> i in s
    ensures forall a, b :: 0 <= a < b < |s| ==> s[a] < s[b]
    decreases |rows|
  {
    if rows == [] then []
    else
      var n := |rows| - 1;
      Select(rows[..n], regime[..n], commodity, name) +
        (if rows[n].commodity == commodity && RegimeName(regime[n]) == Some(name) then [n] else [])
  }

  datatype Group = Group(commodity: string, regime: string, rows: seq<nat>)

  function GroupsFor(rows: seq<PriceRow>, regime: seq<Regime>, commodity: string, names: seq<string>): seq<Group>
    requires |regime| == |rows|
    decreases |names|
  {
    if names == [] then []
    else
      var n := |names| - 1;
      var sel := Select(rows, regime, commodity, names[n]);
      GroupsFor(rows, regime, commodity, names[..n]) +
        (if |sel| > 0 && |sel| >= MIN_OBSERVATIONS then [Group(commodity, names[n], sel)] else [])
  }

  function Groups(rows: seq<PriceRow>, regime: seq<Regime>, commodities: seq<string>): seq<Group>
    requires |regime| == |rows|
    decreases |commodities|
  {
    if commodities == [] then []
    else
      var n := |commodities| - 1;
      Groups(rows, regime, commodities[..n]) + GroupsFor(rows, regime, commodities[n], RegimesFor(commodities[n]))
  }

  /** One more regime name adds its group when that group is large enough. */
  lemma GroupsForStep(rows: seq<PriceRow>, regime: seq<Regime>, commodity: string, names: seq<string>, j: nat)
    requires |regime| == |rows|
    requires j < |names|
    ensures var sel := Select(rows, regime, commodity, names[j]);
      GroupsFor(rows, regime, commodity, names[..j + 1]) ==
        GroupsFor(rows, regime, commodity, names[..j]) +
        (if |sel| > 0 && |sel| >= MIN_OBSERVATIONS then [Group(commodity, names[j], sel)] else [])
  {
    assert names[..j + 1][..j] == names[..j];
  }

  /** The nested loop of `main`. Without a regime column the first lookup
      raises; with no accepted group the script exits. */
  method AccumulateGroups(rows: seq<PriceRow>, regime: seq<Regime>, labelled: bool, commodities: seq<string>)
    returns (r: Result<seq<Group>>)
    requires |regime| == |rows|
    ensures !labelled && commodities != [] ==> r.Failure?
    ensures labelled ==> (r.Ok? <==> Groups(rows, regime, commodities) != [])
    ensures r.Ok? ==> r.value == Groups(rows, regime, commodities)
  {
    if !labelled && commodities != [] {
      return Failure("KeyError: 'exchange_rate_regime'");
    }
    var acc: seq<Group> := [];
    var i := 0;
    while i < |commodities|
      invariant 0 <= i <= |commodities|
      invariant acc == Groups(rows, regime, commodities[..i])
    {
      var c := commodities[i];
      var names := RegimesFor(c);
      var j := 0;
      while j < |names|
        invariant 0 <= j <= |names|
        invariant acc == Groups(rows, regime, commodities[..i]) + GroupsFor(rows, regime, c, names[..j])
      {
        var sel := Select(rows, regime, c, names[j]);
        GroupsForStep(rows, regime, c, names, j);
        var added := if |sel| > 0 && |sel| >= MIN_OBSERVATIONS then [Group(c, names[j], sel)] else [];
        AppendAssociates(Groups(rows, regime, commodities[..i]), GroupsFor(rows, regime, c, names[..j]), added);
        acc := acc + added;
        j := j + 1;
      }
      assert names[..|names|] == names;
      assert commodities[..i + 1][..i] == commodities[..i];
      i := i + 1;
    }
    assert commodities[..|commodities|] == commodities;
    if acc == [] {
      return Failure("No data was accumulated");
    }
    return Ok(acc);
  }

  /** Every accepted group has at least MIN_OBSERVATIONS rows, all of its
      commodity and regime, and the exchange rate only ever as Unified. */
  lemma {:induction false} AcceptedGroupsAreLargeEnough(rows: seq<PriceRow>, regime: seq<Regime>, commodities: seq<string>)
    requires |regime| == |rows|
    ensures forall g :: g in Groups(rows, regime, commodities) ==>
      |g.rows| >= MIN_OBSERVATIONS &&
      (g.commodity == EXCHANGE_RATE_COMMODITY ==> g.regime == "Unified") &&
      forall j :: 0 <= j < |g.rows| ==>
        (g.rows[j] < |rows| && rows[g.rows[j]].commodity == g.commodity && RegimeName(regime[g.rows[j]]) == Some(g.regime))
    decreases |commodities|
  {
    if commodities != [] {
      var n := |commodities| - 1;
      AcceptedGroupsAreLargeEnough(rows, regime, commodities[..n]);
      GroupsForSound(rows, regime, commodities[n], RegimesFor(commodities[n]));
    }
  }

  lemma {:induction false} GroupsForSound(rows: seq<PriceRow>, regime: seq<Regime>, c: string, names: seq<string>)
    requires |regime| == |rows|
    ensures forall g :: g in GroupsFor(rows, regime, c, names) ==>
      g.commodity == c && g.regime in names && |g.rows| >= MIN_OBSERVATIONS &&
      forall j :: 0 <= j < |g.rows| ==>
        (g.rows[j] < |rows| && rows[g.rows[j]].commodity == g.commodity && RegimeName(regime[g.rows[j]]) == Some(g.regime))
    decreases |names|
  {
    if names != [] {
      var n := |names| - 1;
      GroupsForSound(rows, regime, c, names[..n]);
    }
  }
}

=== FILE: serialization.dfy ===
/** The two recursive JSON normalisers: `make_serializable` of the older ECM
    script turns a Python value into a JSON document, `convert_keys` of the
    newer one (the JSON encoder's fallback) turns numpy and pandas values
    into native Python values. */
module Serialization {
  import opened Common

  /** A dictionary key as it occurs in the pipeline's results. `KNpInt` is
      a numpy int64, `KNpNarrowInt` a numpy integer of another width
      (int32, say). */
  datatype Key =
    | KStr(s: string)
    | KInt(i: int)
    | KNpInt(i: int)
    | KNpNarrowInt(i: int)
    | KBool(b: bool)
    | KNone
    | KTuple(items: seq<Key>)

  /** The Python values the results hold. `Formatted` is a timestamp or
      period with its `strftime('%Y-%m-%d')` text; `Other` is any other
      object, with its `str()` text. */
  datatype PyValue =
    | PNone
    | PBool(b: bool)
    | NpBool(b: bool)
    | PInt(i: int)
    | NpInt(i: int)
    | PFloat(x: Num)
    | NpFloat(x: Num)
    | PStr(s: string)
    | PList(items: seq<PyValue>)
    | PTuple(items: seq<PyValue>)
    | NpArray(items: seq<PyValue>)
    | PdSeries(items: seq<PyValue>)
    | PDict(entries: seq<(Key, PyValue)>)
    | Formatted(text: string)
    | Other(text: string)

  /** A JSON document. An object is its (key, value) pairs in insertion order. */
  datatype Json =
    | JNull
    | JBool(b: bool)
    | JInt(i: int)
    | JFloat(x: Num)
    | JStr(s: string)
    | JArray(items: seq<Json>)
    | JObject(members: seq<(string, Json)>)

  // ---------------------------------------------------------------------
  // Python dictionaries, as (key, value) pairs in insertion order

  function KeysOf<K(==), V>(ps: seq<(K, V)>): set<K>
    decreases |ps|
  {
    if ps == [] then {} else {ps[0].0} + KeysOf(ps[1..])
  }

  predicate DistinctKeys<K(==), V>(ps: seq<(K, V)>)
    decreases |ps|
  {
    ps == [] || (ps[0].0 !in KeysOf(ps[1..]) && DistinctKeys(ps[1..]))
  }

  lemma {:induction false} KeysOfIndex<K, V>(ps: seq<(K, V)>, k: K)
    ensures k in KeysOf(ps) <==> exists i :: 0 <= i < |ps| && ps[i].0 == k
    decreases |ps|
  {
    if ps != [] {
      KeysOfIndex(ps[1..], k);
      if exists i :: 0 <= i < |ps| && ps[i].0 == k {
        var i :| 0 <= i < |ps| && ps[i].0 == k;
        if i > 0 { assert ps[1..][i - 1] == ps[i]; }
      }
      if exists i :: 0 <= i < |ps[1..]| && ps[1..][i].0 == k {
        var i :| 0 <= i < |ps[1..]| && ps[1..][i].0 == k;
        assert ps[i + 1] == ps[1..][i];
      }
    }
  }

  /** `d[k] = v`: an existing key keeps its position and takes the new
      value, a new key goes at the end. */
  function Insert<K(==), V>(ps: seq<(K, V)>, k: K, v: V): (r: seq<(K, V)>)
    ensures KeysOf(r) == KeysOf(ps) + {k}
    ensures DistinctKeys(ps) ==> DistinctKeys(r)
    ensures k !in KeysOf(ps) ==> r == ps + [(k, v)]
    decreases |ps|
  {
    if ps == [] then [(k, v)]
    else if ps[0].0 == k then [(k, v)] + ps[1..]
    else
      assert ([ps[0]] + Insert(ps[1..], k, v))[1..] == Insert(ps[1..], k, v);
      assert ps == [ps[0]] + ps[1..];
      [ps[0]] + Insert(ps[1..], k, v)
  }

  /** The value a dictionary holds under `k`. On pairs with a repeated key
      this is the first; the dictionaries of this model are built by
      `DictFrom` and hold each key once, so the case does not arise. */
  function Get<K(==), V>(ps: seq<(K, V)>, k: K): (o: Option<V>)
    ensures o.Some? <==> k in KeysOf(ps)
    decreases |ps|
  {
    if ps == [] then None
    else if ps[0].0 == k then Some(ps[0].1)
    else Get(ps[1..], k)
  }

  lemma {:induction false} GetInsert<K, V>(ps: seq<(K, V)>, k: K, v: V, q: K)
    ensures Get(Insert(ps, k, v), q) == if q == k then Some(v) else Get(ps, q)
    decreases |ps|
  {
    if ps != [] && ps[0].0 != k {
      GetInsert(ps[1..], k, v, q);
      assert ([ps[0]] + Insert(ps[1..], k, v))[1..] == Insert(ps[1..], k, v);
    }
  }

  /** The pairs inserted one after another into `acc`. */
  function DictInto<K(==), V>(acc: seq<(K, V)>, pairs: seq<(K, V)>): (r: seq<(K, V)>)
    ensures DistinctKeys(acc) ==> DistinctKeys(r)
    ensures KeysOf(r) == KeysOf(acc) + KeysOf(pairs)
    decreases |pairs|
  {
    if pairs == [] then acc
    else DictInto(Insert(acc, pairs[0].0, pairs[0].1), pairs[1..])
  }

  /** `dict(pairs)`. */
  function DictFrom<K(==), V>(pairs: seq<(K, V)>): (r: seq<(K, V)>)
    ensures DistinctKeys(r)
    ensures KeysOf(r) == KeysOf(pairs)
  {
    DictInto([], pairs)
  }

  lemma {:induction false} DictIntoOther<K, V>(acc: seq<(K, V)>, pairs: seq<(K, V)>, k: K)
    requires k !in KeysOf(pairs)
    ensures Get(DictInto(acc, pairs), k) == Get(acc, k)
    decreases |pairs|
  {
    if pairs != [] {
      DictIntoOther(Insert(acc, pairs[0].0, pairs[0].1), pairs[1..], k);
      GetInsert(acc, pairs[0].0, pairs[0].1, k);
    }
  }

  lemma {:induction false} DictIntoLastWins<K, V>(acc: seq<(K, V)>, pairs: seq<(K, V)>, i: nat)
    requires i < |pairs|
    requires forall j :: i < j < |pairs| ==> pairs[j].0 != pairs[i].0
    ensures Get(DictInto(acc, pairs), pairs[i].0) == Some(pairs[i].1)
    decreases |pairs|
  {
    var acc' := Insert(acc, pairs[0].0, pairs[0].1);
    if i == 0 {
      KeysOfIndex(pairs[1..], pairs[0].0);
      DictIntoOther(acc', pairs[1..], pairs[0].0);
      GetInsert(acc, pairs[0].0, pairs[0].1, pairs[0].0);
    } else {
      assert pairs[1..][i - 1] == pairs[i];
      DictIntoLastWins(acc', pairs[1..], i - 1);
    }
  }

  /** When a key occurs several times among the pairs, the dictionary keeps
      the value of the last occurrence. */
  lemma DictFromLastWins<K, V>(pairs: seq<(K, V)>, i: nat)
    requires i < |pairs|
    requires forall j :: i < j < |pairs| ==> pairs[j].0 != pairs[i].0
    ensures Get(DictFrom(pairs), pairs[i].0) == Some(pairs[i].1)
  {
    DictIntoLastWins([], pairs, i);
  }

  lemma {:induction false} InsertElements<K, V>(ps: seq<(K, V)>, k: K, v: V)
    ensures forall e :: e in Insert(ps, k, v) ==> e in ps || e == (k, v)
    decreases |ps|
  {
    if ps != [] && ps[0].0 != k {
      InsertElements(ps[1..], k, v);
      assert Insert(ps, k, v) == [ps[0]] + Insert(ps[1..], k, v);
      forall e | e in ps[1..] ensures e in ps {
      }
    } else if ps != [] {
      forall e | e in ps[1..] ensures e in ps {
      }
    }
  }

  /** Every pair of the dictionary was in the accumulator or among the inserted pairs. */
  lemma {:induction false} DictIntoElements<K, V>(acc: seq<(K, V)>, pairs: seq<(K, V)>)
    ensures forall e :: e in DictInto(acc, pairs) ==> e in acc || e in pairs
    decreases |pairs|
  {
    if pairs != [] {
      InsertElements(acc, pairs[0].0, pairs[0].1);
      DictIntoElements(Insert(acc, pairs[0].0, pairs[0].1), pairs[1..]);
      forall e | e in pairs[1..] ensures e in pairs {
      }
    }
  }

  lemma {:induction false} KeysOfAppend<K, V>(a: seq<(K, V)>, b: seq<(K, V)>)
    ensures KeysOf(a + b) == KeysOf(a) + KeysOf(b)
    decreases |a|
  {
    if a != [] {
      assert (a + b)[1..] == a[1..] + b;
      assert (a + b)[0] == a[0];
      KeysOfAppend(a[1..], b);
    } else {
      assert a + b == b;
    }
  }

  /** Inserting a fresh first pair appends it. */
  lemma DictIntoFreshStep<K, V>(acc: seq<(K, V)>, pairs: seq<(K, V)>)
    requires pairs != [] && DistinctKeys(pairs)
    requires KeysOf(acc) !! KeysOf(pairs)
    ensures DictInto(acc, pairs) == DictInto(acc + [pairs[0]], pairs[1..])
    ensures DistinctKeys(pairs[1..]) && KeysOf(acc + [pairs[0]]) !! KeysOf(pairs[1..])
  {
    var acc' := acc + [pairs[0]];
    assert KeysOf(pairs) == {pairs[0].0} + KeysOf(pairs[1..]);
    assert pairs[0].0 !in KeysOf(acc);
    assert Insert(acc, pairs[0].0, pairs[0].1) == acc';
    KeysOfAppend(acc, [pairs[0]]);
    assert KeysOf([pairs[0]]) == {pairs[0].0} by {
      assert [pairs[0]][1..] == [];
    }
  }

  lemma AppendFirst<T>(a: seq<T>, b: seq<T>)
    requires b != []
    ensures a + [b[0]] + b[1..] == a + b
  {
    assert b == [b[0]] + b[1..];
  }

  lemma {:induction false} DictIntoFresh<K, V>(acc: seq<(K, V)>, pairs: seq<(K, V)>)
    requires DistinctKeys(pairs)
    requires KeysOf(acc) !! KeysOf(pairs)
    ensures DictInto(acc, pairs) == acc + pairs
    decreases |pairs|
  {
    if pairs != [] {
      DictIntoFreshStep(acc, pairs);
      DictIntoFresh(acc + [pairs[0]], pairs[1..]);
      AppendFirst(acc, pairs);
    }
  }

  /** Pairs with distinct keys are already a dictionary. */
  lemma DictFromDistinct<K, V>(pairs: seq<(K, V)>)
    requires DistinctKeys(pairs)
    ensures DictFrom(pairs) == pairs
  {
    DictIntoFresh([], pairs);
  }

  // ---------------------------------------------------------------------
  // str() of keys

  /** `repr` of a key inside a tuple: strings are quoted. Strings holding a
      quote character are rendered as if they had none. */
  function KeyRepr(k: Key): string
    decreases k, 1
  {
    if k.KStr? then "'" + k.s + "'" else KeyString(k)
  }

  function Join(parts: seq<string>, sep: string): string {
    if parts == [] then ""
    else if |parts| == 1 then parts[0]
    else parts[0] + sep + Join(parts[1..], sep)
  }

  /** Python's `str(k)` of a dictionary key. */
  function KeyString(k: Key): (s: string)
    ensures k.KStr? ==> s == k.s
    ensures k.KTuple? ==> |s| >= 2 && s[0] == '(' && s[|s| - 1] == ')'
    decreases k, 0
  {
    match k
    case KStr(s) => s
    case KInt(i) => IntToString(i)
    case KNpInt(i) => IntToString(i)
    case KNpNarrowInt(i) => IntToString(i)
    case KBool(b) => if b then "True" else "False"
    case KNone => "None"
    case KTuple(items) =>
      var reprs := seq(|items|, i requires 0 <= i < |items| => KeyRepr(items[i]));
      if |items| == 1 then "(" + reprs[0] + ",)" else "(" + Join(reprs, ", ") + ")"
  }

  // ---------------------------------------------------------------------
  // make_serializable

  /** `tolist()` turns the numpy scalars of an array or series into Python ones. */
  function ToPython(v: PyValue): (r: PyValue)
    ensures !r.NpInt? && !r.NpFloat? && !r.NpBool?
  {
    match v
    case NpInt(i) => PInt(i)
    case NpFloat(x) => PFloat(x)
    case NpBool(b) => PBool(b)
    case _ => v
  }

  /** The scalar branches of `make_serializable`. */
  function ScalarJson(v: PyValue): (j: Json)
    requires !(v.PList? || v.PTuple? || v.NpArray? || v.PdSeries? || v.PDict?)
  {
    match v
    case NpInt(i) => JInt(i)
    case NpFloat(x) => JFloat(x)
    case NpBool(b) => JBool(b)
    case PBool(b) => JBool(b)
    case Formatted(text) => JStr(text)
    case PInt(i) => JInt(i)
    case PFloat(x) => if x.NaN? then JNull else JFloat(x)
    case PStr(s) => JStr(s)
    case PNone => JNull
    case Other(text) => JStr(text)
  }

  predicate IsContainer(v: PyValue) {
    v.PList? || v.PTuple? || v.NpArray? || v.PdSeries? || v.PDict?
  }

  /** `make_serializable` of the older ECM script, branch by branch. The
      elements of an array or series pass through `tolist()` first, which
      turns their numpy scalars into Python ones. */
  function MakeSerializable(v: PyValue): (j: Json)
    ensures IsContainer(v) && !v.PDict? ==> j.JArray? && |j.items| == |v.items|
    ensures v.PDict? ==> j.JObject? && DistinctKeys(j.members)
    ensures (v.PList? || v.PTuple?) ==> forall i :: 0 <= i < |v.items| ==> j.items[i] == MakeSerializable(v.items[i])
    ensures v.PFloat? && v.x.NaN? ==> j == JNull
    ensures v == PNone ==> j == JNull
    ensures v.NpInt? || v.PInt? ==> j == JInt(v.i)
    ensures v.NpFloat? || (v.PFloat? && !v.x.NaN?) ==> j == JFloat(v.x)
    ensures v.NpBool? || v.PBool? ==> j == JBool(v.b)
    ensures v.PStr? ==> j == JStr(v.s)
    ensures v.Formatted? || v.Other? ==> j == JStr(v.text)
    decreases v
  {
    match v
    case NpArray(items) =>
      JArray(seq(|items|, i requires 0 <= i < |items| =>
        if IsContainer(items[i]) then MakeSerializable(items[i]) else ScalarJson(ToPython(items[i]))))
    case PdSeries(items) =>
      JArray(seq(|items|, i requires 0 <= i < |items| =>
        if IsContainer(items[i]) then MakeSerializable(items[i]) else ScalarJson(ToPython(items[i]))))
    case PDict(entries) =>
      var pairs := seq(|entries|, i requires 0 <= i < |entries| => (KeyString(entries[i].0), MakeSerializable(entries[i].1)));
      JObject(DictFrom(pairs))
    case PList(items) => JArray(seq(|items|, i requires 0 <= i < |items| => MakeSerializable(items[i])))
    case PTuple(items) => JArray(seq(|items|, i requires 0 <= i < |items| => MakeSerializable(items[i])))
    case _ => ScalarJson(v)
  }

  /** The keys of a converted dictionary are exactly the `str` of its keys. */
  lemma DictKeysRendered(entries: seq<(Key, PyValue)>)
    ensures forall k :: k in KeysOf(MakeSerializable(PDict(entries)).members) <==>
      exists i :: 0 <= i < |entries| && KeyString(entries[i].0) == k
  {
    var pairs := seq(|entries|, i requires 0 <= i < |entries| => (KeyString(entries[i].0), MakeSerializable(entries[i].1)));
    assert MakeSerializable(PDict(entries)).members == DictFrom(pairs);
    forall k ensures k in KeysOf(DictFrom(pairs)) <==> exists i :: 0 <= i < |entries| && KeyString(entries[i].0) == k {
      KeysOfIndex(pairs, k);
      if exists i :: 0 <= i < |entries| && KeyString(entries[i].0) == k {
        var i :| 0 <= i < |entries| && KeyString(entries[i].0) == k;
        assert pairs[i].0 == k;
      }
    }
  }

  /** Each key of a converted dictionary holds the conversion of the value
      of the last entry whose key renders to it. */
  lemma DictValuesSerialized(entries: seq<(Key, PyValue)>, i: nat)
    requires i < |entries|
    requires forall k :: i < k < |entries| ==> KeyString(entries[k].0) != KeyString(entries[i].0)
    ensures Get(MakeSerializable(PDict(entries)).members, KeyString(entries[i].0)) == Some(MakeSerializable(entries[i].1))
  {
    var pairs := seq(|entries|, i requires 0 <= i < |entries| => (KeyString(entries[i].0), MakeSerializable(entries[i].1)));
    assert MakeSerializable(PDict(entries)).members == DictFrom(pairs);
    assert pairs[i] == (KeyString(entries[i].0), MakeSerializable(entries[i].1));
    DictFromLastWins(pairs, i);
  }

  /** Each element of a converted array or series is the conversion of its
      `tolist()` element. */
  lemma ArrayElementsViaToList(v: PyValue, i: nat)
    requires v.NpArray? || v.PdSeries?
    requires i < |v.items|
    ensures MakeSerializable(v).items[i] == MakeSerializable(ToPython(v.items[i]))
  {
    var x := v.items[i];
    if IsContainer(x) {
      assert ToPython(x) == x;
    } else {
      assert !IsContainer(ToPython(x));
      assert MakeSerializable(ToPython(x)) == ScalarJson(ToPython(x));
    }
  }

  /** The Python value `json.load` would give for a document. */
  function Embed(j: Json): (v: PyValue)
    decreases j
  {
    match j
    case JNull => PNone
    case JBool(b) => PBool(b)
    case JInt(i) => PInt(i)
    case JFloat(x) => PFloat(x)
    case JStr(s) => PStr(s)
    case JArray(items) => PList(seq(|items|, i requires 0 <= i < |items| => Embed(items[i])))
    case JObject(members) =>
      PDict(seq(|members|, i requires 0 <= i < |members| => (KStr(members[i].0), Embed(members[i].1))))
  }

  /** A document in the form `json.dump` writes it: object keys distinct
      and no NaN (which the Python side would read back as a float NaN). */
  predicate WellFormed(j: Json)
    decreases j
  {
    match j
    case JFloat(x) => !x.NaN?
    case JArray(items) => forall i :: 0 <= i < |items| ==> WellFormed(items[i])
    case JObject(members) => DistinctKeys(members) && forall i :: 0 <= i < |members| ==> WellFormed(members[i].1)
    case _ => true
  }

  /** Round trip: serializing what a well-formed document loads as gives the
      document back. */
  lemma {:induction false} SerializeEmbedRoundTrip(j: Json)
    requires WellFormed(j)
    ensures MakeSerializable(Embed(j)) == j
    decreases j
  {
    match j
    case JArray(items) =>
      forall i | 0 <= i < |items| ensures MakeSerializable(Embed(items[i])) == items[i] {
        SerializeEmbedRoundTrip(items[i]);
      }
      ArrayRoundTrip(items);
    case JObject(members) =>
      forall i | 0 <= i < |members| ensures MakeSerializable(Embed(members[i].1)) == members[i].1 {
        SerializeEmbedRoundTrip(members[i].1);
      }
      ObjectRoundTrip(members);
    case _ =>
  }

  lemma ArrayRoundTrip(items: seq<Json>)
    requires forall i :: 0 <= i < |items| ==> MakeSerializable(Embed(items[i])) == items[i]
    ensures MakeSerializable(Embed(JArray(items))) == JArray(items)
  {
    var r := MakeSerializable(Embed(JArray(items))).items;
    assert |r| == |items|;
    forall i | 0 <= i < |items| ensures r[i] == items[i] {
      assert Embed(JArray(items)).items[i] == Embed(items[i]);
    }
  }

  lemma ObjectRoundTrip(members: seq<(string, Json)>)
    requires DistinctKeys(members)
    requires forall i :: 0 <= i < |members| ==> MakeSerializable(Embed(members[i].1)) == members[i].1
    ensures MakeSerializable(Embed(JObject(members))) == JObject(members)
  {
    var entries := Embed(JObject(members)).entries;
    var pairs := seq(|entries|, i requires 0 <= i < |entries| => (KeyString(entries[i].0), MakeSerializable(entries[i].1)));
    DictSerialized(entries, pairs);
    forall i | 0 <= i < |members| ensures pairs[i] == members[i] {
      assert entries[i] == (KStr(members[i].0), Embed(members[i].1));
    }
    assert pairs == members;
    DictFromDistinct(members);
  }

  /** A numpy NaN is caught by the numpy-float branch before the NaN check,
      so it stays a float NaN, while a Python NaN becomes null. */
  lemma NumpyNaNStaysNaN()
    ensures MakeSerializable(NpFloat(NaN)) == JFloat(NaN)
    ensures MakeSerializable(PFloat(NaN)) == JNull
    ensures MakeSerializable(NpArray([NpFloat(NaN)])) == JArray([JNull])
  {
  }

  /** Distinct Python keys can render to the same string; the dictionary then
      holds one key with the later value. */
  lemma KeyStringOne()
    ensures KeyString(KInt(1)) == "1"
  {
    assert NatToString(1) == "1";
  }

  /** A dictionary becomes the object built from its rendered pairs. */
  lemma DictSerialized(entries: seq<(Key, PyValue)>, built: seq<(string, Json)>)
    requires built == seq(|entries|, i requires 0 <= i < |entries| => (KeyString(entries[i].0), MakeSerializable(entries[i].1)))
    ensures MakeSerializable(PDict(entries)) == JObject(DictFrom(built))
  {
  }

  lemma KeysCollide(a: PyValue, b: PyValue)
    ensures MakeSerializable(PDict([(KInt(1), a), (KStr("1"), b)])) == JObject([("1", MakeSerializable(b))])
  {
    var entries := [(KInt(1), a), (KStr("1"), b)];
    var ja, jb := MakeSerializable(a), MakeSerializable(b);
    var built := seq(|entries|, i requires 0 <= i < |entries| => (KeyString(entries[i].0), MakeSerializable(entries[i].1)));
    DictSerialized(entries, built);
    KeyStringOne();
    assert built[0] == ("1", ja) && built[1] == ("1", jb);
    assert built == [("1", ja), ("1", jb)];
    SameKeyTwice("1", ja, jb);
  }

  /** `dict([(k, x), (k, y)])` is `{k: y}`. */
  lemma SameKeyTwice<K, V>(k: K, x: V, y: V)
    ensures DictFrom([(k, x), (k, y)]) == [(k, y)]
  {
    var pairs := [(k, x), (k, y)];
    assert Insert([], k, x) == [(k, x)];
    assert Insert([(k, x)], k, y) == [(k, y)];
    assert pairs[1..] == [(k, y)];
    assert DictInto([(k, x)], [(k, y)]) == DictInto([(k, y)], []);
  }

  // ---------------------------------------------------------------------
  // convert_keys

  /** `convert_keys` of the newer ECM script. A series becomes its `tolist()`
      without further conversion; tuples, arrays and every other value are
      returned unchanged. A dictionary is rebuilt by a comprehension whose
      int64 keys become their decimal string: when that string is already
      a key, the later value replaces the earlier one at the earlier
      key's position. */
  function ConvertKeys(v: PyValue): (r: PyValue)
    ensures v.NpBool? ==> r == PBool(v.b)
    ensures v.NpInt? ==> r == PInt(v.i)
    ensures v.NpFloat? ==> r == PFloat(v.x)
    ensures v.PList? ==> (r.PList? && |r.items| == |v.items| &&
      forall i :: 0 <= i < |v.items| ==> r.items[i] == ConvertKeys(v.items[i]))
    ensures v.PdSeries? ==> r.PList? && r.items == seq(|v.items|, i requires 0 <= i < |v.items| => ToPython(v.items[i]))
    ensures v.PDict? ==> r.PDict? && DistinctKeys(r.entries) && |r.entries| <= |v.entries|
    ensures !(v.PList? || v.PdSeries? || v.PDict? || v.NpBool? || v.NpInt? || v.NpFloat?) ==> r == v
    decreases v
  {
    match v
    case PdSeries(items) => PList(seq(|items|, i requires 0 <= i < |items| => ToPython(items[i])))
    case NpBool(b) => PBool(b)
    case NpInt(i) => PInt(i)
    case NpFloat(x) => PFloat(x)
    case PDict(entries) =>
      var pairs := seq(|entries|, i requires 0 <= i < |entries| => (NativeKey(entries[i].0), ConvertKeys(entries[i].1)));
      DistinctKeysBound(DictFrom(pairs), pairs);
      PDict(DictFrom(pairs))
    case PList(items) => PList(seq(|items|, i requires 0 <= i < |items| => ConvertKeys(items[i])))
    case _ => v
  }

  /** A dictionary has no more entries than the pairs it was built from. */
  lemma {:induction false} DistinctKeysBound<K, V>(d: seq<(K, V)>, pairs: seq<(K, V)>)
    requires DistinctKeys(d) && KeysOf(d) <= KeysOf(pairs)
    ensures |d| <= |pairs|
  {
    DistinctKeysCard(d);
    KeysOfCard(pairs);
    var a, b := KeysOf(d), KeysOf(pairs);
    assert b == a + (b - a);
    assert |b| == |a| + |b - a|;
  }

  lemma {:induction false} DistinctKeysCard<K, V>(ps: seq<(K, V)>)
    requires DistinctKeys(ps)
    ensures |KeysOf(ps)| == |ps|
    decreases |ps|
  {
    if ps != [] {
      DistinctKeysCard(ps[1..]);
    }
  }

  lemma {:induction false} KeysOfCard<K, V>(ps: seq<(K, V)>)
    ensures |KeysOf(ps)| <= |ps|
    decreases |ps|
  {
    if ps != [] {
      KeysOfCard(ps[1..]);
    }
  }

  /** Only int64 keys are rewritten, to their decimal string; numpy
      integers of other widths stay as they are. */
  function NativeKey(k: Key): (r: Key)
    ensures !r.KNpInt?
    ensures k.KNpInt? ==> r == KStr(KeyString(k))
    ensures !k.KNpInt? ==> r == k
  {
    if k.KNpInt? then KStr(IntToString(k.i)) else k
  }

  /** The keys of a converted dictionary are exactly the converted keys,
      none of them an int64; each converted key holds the converted value
      of its last occurrence. */
  lemma ConvertKeysDict(entries: seq<(Key, PyValue)>)
    ensures forall k :: k in KeysOf(ConvertKeys(PDict(entries)).entries) <==>
      exists i :: 0 <= i < |entries| && NativeKey(entries[i].0) == k
    ensures forall k :: k in KeysOf(ConvertKeys(PDict(entries)).entries) ==> !k.KNpInt?
    ensures forall i :: 0 <= i < |entries| && LastOccurrence(entries, i) ==>
      Get(ConvertKeys(PDict(entries)).entries, NativeKey(entries[i].0)) == Some(ConvertKeys(entries[i].1))
  {
    var pairs := seq(|entries|, i requires 0 <= i < |entries| => (NativeKey(entries[i].0), ConvertKeys(entries[i].1)));
    var d := ConvertKeys(PDict(entries)).entries;
    assert d == DictFrom(pairs);
    forall k ensures k in KeysOf(d) <==> exists i :: 0 <= i < |entries| && NativeKey(entries[i].0) == k {
      KeysOfIndex(pairs, k);
      if exists i :: 0 <= i < |entries| && NativeKey(entries[i].0) == k {
        var i :| 0 <= i < |entries| && NativeKey(entries[i].0) == k;
        assert pairs[i].0 == k;
      }
    }
    forall i | 0 <= i < |entries| && LastOccurrence(entries, i)
      ensures Get(d, NativeKey(entries[i].0)) == Some(ConvertKeys(entries[i].1))
    {
      forall j | i < j < |pairs| ensures pairs[j].0 != pairs[i].0 {
        assert pairs[j].0 == NativeKey(entries[j].0);
      }
      DictFromLastWins(pairs, i);
    }
  }

  /** No later entry converts to the same key as entry `i`. */
  predicate LastOccurrence(entries: seq<(Key, PyValue)>, i: nat)
    requires i < |entries|
  {
    forall j :: i < j < |entries| ==> NativeKey(entries[j].0) != NativeKey(entries[i].0)
  }

  /** `{np.int64(1): a, "1": b}` becomes `{'1': b}`: the two keys merge. */
  lemma ConvertedKeysMerge(a: PyValue, b: PyValue)
    ensures ConvertKeys(PDict([(KNpInt(1), a), (KStr("1"), b)])) == PDict([(KStr("1"), ConvertKeys(b))])
  {
    var entries := [(KNpInt(1), a), (KStr("1"), b)];
    var pairs := seq(|entries|, i requires 0 <= i < |entries| => (NativeKey(entries[i].0), ConvertKeys(entries[i].1)));
    assert NativeKey(KNpInt(1)) == KStr("1") by {
      KeyStringOne();
    }
    assert pairs[0] == (KStr("1"), ConvertKeys(a)) && pairs[1] == (KStr("1"), ConvertKeys(b));
    assert pairs == [(KStr("1"), ConvertKeys(a)), (KStr("1"), ConvertKeys(b))];
    SameKeyTwice(KStr("1"), ConvertKeys(a), ConvertKeys(b));
  }

  /** A value none of whose series holds a list or dictionary (whose
      elements `tolist()` would leave unconverted). */
  predicate FlatSeries(v: PyValue)
    decreases v
  {
    match v
    case PdSeries(items) => forall i :: 0 <= i < |items| ==> !items[i].PList? && !items[i].PDict? && !items[i].PdSeries?
    case PList(items) => forall i :: 0 <= i < |items| ==> FlatSeries(items[i])
    case PDict(entries) => forall i :: 0 <= i < |entries| ==> FlatSeries(entries[i].1)
    case _ => true
  }

  /** No numpy scalar is left where the encoder would look next: not at
      the top, not among a list's elements, not among a dictionary's
      values. Tuples and arrays are returned as they are and not looked into. */
  predicate NumpyFree(v: PyValue)
    decreases v
  {
    match v
    case NpBool(_) => false
    case NpInt(_) => false
    case NpFloat(_) => false
    case PList(items) => forall i :: 0 <= i < |items| ==> NumpyFree(items[i])
    case PDict(entries) => forall i :: 0 <= i < |entries| ==> NumpyFree(entries[i].1)
    case _ => true
  }

  /** `convert_keys` does what its name promises: numpy scalars become
      native ones all the way down through lists and dictionaries. */
  lemma {:induction false} ConvertKeysNumpyFree(v: PyValue)
    requires FlatSeries(v)
    ensures NumpyFree(ConvertKeys(v))
    decreases v
  {
    match v
    case PList(items) =>
      forall i | 0 <= i < |items| ensures NumpyFree(ConvertKeys(v).items[i]) {
        ConvertKeysNumpyFree(items[i]);
      }
    case PDict(entries) =>
      var d := ConvertKeys(v).entries;
      var pairs := seq(|entries|, i requires 0 <= i < |entries| => (NativeKey(entries[i].0), ConvertKeys(entries[i].1)));
      assert d == DictFrom(pairs);
      forall j | 0 <= j < |d| ensures NumpyFree(d[j].1) {
        DictIntoElements([], pairs);
        assert d[j] in d;
        var i :| 0 <= i < |pairs| && pairs[i] == d[j];
        ConvertKeysNumpyFree(entries[i].1);
      }
    case _ =>
  }

  /** Once converted, converting again changes nothing. */
  lemma {:induction false} ConvertKeysIdempotent(v: PyValue)
    requires FlatSeries(v)
    ensures ConvertKeys(ConvertKeys(v)) == ConvertKeys(v)
    decreases v
  {
    match v
    case PdSeries(items) =>
      var l := ConvertKeys(v).items;
      var r := ConvertKeys(ConvertKeys(v)).items;
      forall i | 0 <= i < |l| ensures r[i] == l[i] {}
    case PList(items) =>
      var l := ConvertKeys(v).items;
      var r := ConvertKeys(ConvertKeys(v)).items;
      forall i | 0 <= i < |l| ensures r[i] == l[i] {
        ConvertKeysIdempotent(items[i]);
      }
    case PDict(entries) =>
      forall i | 0 <= i < |entries| ensures ConvertKeys(ConvertKeys(entries[i].1)) == ConvertKeys(entries[i].1) {
        ConvertKeysIdempotent(entries[i].1);
      }
      ConvertDictTwice(entries);
    case _ =>
  }

  lemma ConvertDictTwice(entries: seq<(Key, PyValue)>)
    requires forall i :: 0 <= i < |entries| ==> ConvertKeys(ConvertKeys(entries[i].1)) == ConvertKeys(entries[i].1)
    ensures ConvertKeys(ConvertKeys(PDict(entries))) == ConvertKeys(PDict(entries))
  {
    var d := ConvertKeys(PDict(entries)).entries;
    var pairs := seq(|entries|, i requires 0 <= i < |entries| => (NativeKey(entries[i].0), ConvertKeys(entries[i].1)));
    assert d == DictFrom(pairs);
    forall e | e in d ensures ConvertKeys(e.1) == e.1 && NativeKey(e.0) == e.0 {
      DictIntoElements([], pairs);
      var i :| 0 <= i < |pairs| && pairs[i] == e;
    }
    ConvertedDictFixed(d);
  }

  /** A dictionary whose keys and values conversion leaves alone is left alone. */
  lemma ConvertedDictFixed(d: seq<(Key, PyValue)>)
    requires DistinctKeys(d)
    requires forall e :: e in d ==> ConvertKeys(e.1) == e.1 && NativeKey(e.0) == e.0
    ensures ConvertKeys(PDict(d)) == PDict(d)
  {
    var pairs := seq(|d|, i requires 0 <= i < |d| => (NativeKey(d[i].0), ConvertKeys(d[i].1)));
    forall i | 0 <= i < |d| ensures pairs[i] == d[i] {
      assert d[i] in d;
    }
    assert pairs == d;
    DictFromDistinct(d);
  }
}

=== FILE: spatial.dfy ===
/** The bookkeeping of the two spatial scripts: where the `region_id` column
    comes from, the persistent name-to-id mapping, the observation gate of
    the per-(commodity, regime) regression, the commodity-by-regime work
    list, and the conversion of positional KNN neighbour lists into a
    region-id weights map and a flow table. KNN, the regression, Moran's I
    and the UUID generator are oracle inputs. */
module Spatial {
  import opened Common

  /** The smallest subset the newer script analyses. */
  const MIN_SPATIAL_OBSERVATIONS: nat := 5
  /** The same gate in the older script. */
  const MIN_SPATIAL_OBSERVATIONS_OLD: nat := 30

  /** One cell of an identifier column: missing, a string, or an integer
      row label written by `reset_index`. */
  datatype Cell = Null | Text(s: string) | Index(i: int)

  /** The attribute columns of a GeoDataFrame by name, and its row count. */
  datatype GeoFrame = GeoFrame(columns: map<string, seq<Cell>>, height: nat)

  /** `rename(columns={from: to})`. */
  function Rename(f: GeoFrame, from: string, to: string): (g: GeoFrame)
    requires from in f.columns
    ensures g.height == f.height
    ensures g.columns.Keys == f.columns.Keys - {from} + {to}
    ensures g.columns[to] == f.columns[from]
    ensures forall c :: c in f.columns && c != from && c != to ==> g.columns[c] == f.columns[c]
  {
    GeoFrame((f.columns - {from})[to := f.columns[from]], f.height)
  }

  predicate AllDistinct(s: seq<Cell>) {
    forall i, j :: 0 <= i < j < |s| ==> s[i] != s[j]
  }

  // ---------------------------------------------------------------------
  // load_geojson (newer script)

  /** `load_geojson`: `market_id` is renamed to `region_id`; a frame without
      `date` or `market_id`, or with a missing id, ends the run. */
  function LoadGeojson(f: GeoFrame): (r: Result<GeoFrame>)
    ensures r.Ok? <==> "date" in f.columns && "market_id" in f.columns && Null !in f.columns["market_id"]
    ensures r.Ok? ==> r.value.height == f.height && "region_id" in r.value.columns && "market_id" !in r.value.columns
    ensures r.Ok? ==> r.value.columns["region_id"] == f.columns["market_id"]
    ensures r.Ok? ==> forall c :: c in f.columns && c != "market_id" && c != "region_id" ==>
      c in r.value.columns && r.value.columns[c] == f.columns[c]
  {
    if "date" !in f.columns then Failure("Failed to load GeoJSON data: 'date'")
    else if "market_id" !in f.columns then Failure("'market_id' column not found in GeoJSON data.")
    else
      var g := Rename(f, "market_id", "region_id");
      if Null in g.columns["region_id"] then Failure("Some 'region_id' values are missing. Please check the data.")
      else Ok(g)
  }

  // ---------------------------------------------------------------------
  // assign_persistent_region_ids (older script)

  /** The mapping after the loop over `names`, and the names that drew a
      fresh id, in the order they drew it; `uuid(j)` is the j-th id drawn. */
  function AssignIds(names: seq<Cell>, stored: map<Cell, string>, uuid: nat -> string): (r: (map<Cell, string>, seq<Cell>))
    ensures forall k :: k in stored ==> k in r.0 && r.0[k] == stored[k]
    ensures forall n :: n in names ==> n in r.0
    ensures forall k :: k in r.0 ==> k in stored || k in names
    ensures forall j :: 0 <= j < |r.1| ==> r.1[j] in r.0 && r.1[j] !in stored && r.0[r.1[j]] == uuid(j)
    ensures forall k :: k in r.0 && k !in stored ==> k in r.1
    ensures AllDistinct(r.1)
    decreases |names|
  {
    if names == [] then (stored, [])
    else
      var n := |names| - 1;
      var p := AssignIds(names[..n], stored, uuid);
      assert names == names[..n] + [names[n]];
      if names[n] in p.0 then p
      else (p.0[names[n] := uuid(|p.1|)], p.1 + [names[n]])
  }

  /** The NAME-to-id mapping as the script starts from it: the stored file
      (None when there is none; a failure when it cannot be read). */
  function StartMapping(stored: Option<Result<map<Cell, string>>>): Result<map<Cell, string>> {
    match stored
    case None => Ok(map[])
    case Some(Failure(m)) => Failure(m)
    case Some(Ok(m)) => Ok(m)
  }

  /** `assign_persistent_region_ids`, as a specification: the frame with
      its `region_id` column, and the mapping written back. */
  function AssignPersistentRegionIdsSpec(f: GeoFrame, stored: Option<Result<map<Cell, string>>>, uuid: nat -> string): Result<(GeoFrame, map<Cell, string>)> {
    match StartMapping(stored)
    case Failure(m) => Failure(m)
    case Ok(start) =>
      if "NAME" !in f.columns then Failure("Failed to assign persistent 'region_id's: 'NAME'")
      else
        var names := f.columns["NAME"];
        var mapping := AssignIds(names, start, uuid).0;
        var ids := seq(|names|, i requires 0 <= i < |names| => Text(mapping[names[i]]));
        Ok((GeoFrame(f.columns["region_id" := ids], f.height), mapping))
  }

  /** The call fails only when the stored mapping cannot be read or there
      is no NAME column; otherwise stored entries are never changed, and
      every row's `region_id` is the id its NAME maps to. */
  lemma AssignPersistentRegionIdsMeaning(f: GeoFrame, stored: Option<Result<map<Cell, string>>>, uuid: nat -> string)
    ensures AssignPersistentRegionIdsSpec(f, stored, uuid).Ok? <==> StartMapping(stored).Ok? && "NAME" in f.columns
    ensures AssignPersistentRegionIdsSpec(f, stored, uuid).Ok? ==>
      var r := AssignPersistentRegionIdsSpec(f, stored, uuid).value;
      var names := f.columns["NAME"];
      "region_id" in r.0.columns && |r.0.columns["region_id"]| == |names| &&
      (forall i :: 0 <= i < |names| ==> names[i] in r.1 && r.0.columns["region_id"][i] == Text(r.1[names[i]])) &&
      (forall k :: k in StartMapping(stored).value ==> k in r.1 && r.1[k] == StartMapping(stored).value[k])
  {
  }

  /** `assign_persistent_region_ids`: every NAME not yet mapped draws one
      fresh id; every row's `region_id` is the id of its NAME. */
  method AssignPersistentRegionIds(f: GeoFrame, stored: Option<Result<map<Cell, string>>>, uuid: nat -> string)
    returns (r: Result<(GeoFrame, map<Cell, string>)>)
    ensures r == AssignPersistentRegionIdsSpec(f, stored, uuid)
  {
    var start := StartMapping(stored);
    if start.Failure? {
      return Failure(start.message);
    }
    if "NAME" !in f.columns {
      return Failure("Failed to assign persistent 'region_id's: 'NAME'");
    }
    var names := f.columns["NAME"];
    var mapping, drawn := DrawIds(names, start.value, uuid);
    var ids := seq(|names|, k requires 0 <= k < |names| => Text(mapping[names[k]]));
    r := Ok((GeoFrame(f.columns["region_id" := ids], f.height), mapping));
  }

  lemma AssignIdsStep(names: seq<Cell>, stored: map<Cell, string>, uuid: nat -> string, i: nat)
    requires i < |names|
    ensures AssignIds(names[..i + 1], stored, uuid) ==
      var p := AssignIds(names[..i], stored, uuid);
      if names[i] in p.0 then p else (p.0[names[i] := uuid(|p.1|)], p.1 + [names[i]])
  {
    assert names[..i + 1][..i] == names[..i];
  }

  /** The loop of `assign_persistent_region_ids` over the NAME column. */
  method DrawIds(names: seq<Cell>, stored: map<Cell, string>, uuid: nat -> string) returns (mapping: map<Cell, string>, drawn: seq<Cell>)
    ensures (mapping, drawn) == AssignIds(names, stored, uuid)
  {
    mapping := stored;
    drawn := [];
    var i := 0;
    while i < |names|
      invariant 0 <= i <= |names|
      invariant (mapping, drawn) == AssignIds(names[..i], stored, uuid)
    {
      AssignIdsStep(names, stored, uuid, i);
      if names[i] !in mapping {
        mapping := mapping[names[i] := uuid(|drawn|)];
        drawn := drawn + [names[i]];
      }
      i := i + 1;
    }
    assert names[..|names|] == names;
  }

  /** Rows with the same NAME get the same `region_id`, and a name that was
      new to the mapping gets exactly one fresh id, in order of first
      appearance. */
  lemma RepeatedNamesShareId(f: GeoFrame, stored: Option<Result<map<Cell, string>>>, uuid: nat -> string, i: nat, j: nat)
    requires AssignPersistentRegionIdsSpec(f, stored, uuid).Ok?
    requires i < |f.columns["NAME"]| && j < |f.columns["NAME"]| && f.columns["NAME"][i] == f.columns["NAME"][j]
    ensures AssignPersistentRegionIdsSpec(f, stored, uuid).value.0.columns["region_id"][i] ==
            AssignPersistentRegionIdsSpec(f, stored, uuid).value.0.columns["region_id"][j]
  {
  }

  // ---------------------------------------------------------------------
  // load_geojson_data (older script): the region-id cascade

  /** Where the older loader takes `region_id` from, in priority order. */
  datatype RegionSource = ExistingColumn | AdminCode | NameMapping | RowIndex

  function RegionSourceOf(f: GeoFrame): RegionSource {
    if "region_id" in f.columns then ExistingColumn
    else if "ADM1_CODE" in f.columns then AdminCode
    else if "NAME" in f.columns then NameMapping
    else RowIndex
  }

  /** The row labels `reset_index` writes for a frame read from file. */
  function RowLabels(n: nat): (s: seq<Cell>)
    ensures |s| == n && forall i :: 0 <= i < n ==> s[i] == Index(i)
  {
    seq(n, i requires 0 <= i < n => Index(i))
  }

  /** The frame once it has a `region_id` column. */
  function WithRegionId(f: GeoFrame, stored: Option<Result<map<Cell, string>>>, uuid: nat -> string): (r: Result<GeoFrame>)
    ensures r.Ok? ==> "region_id" in r.value.columns
  {
    match RegionSourceOf(f)
    case ExistingColumn => Ok(f)
    case AdminCode => Ok(Rename(f, "ADM1_CODE", "region_id"))
    case NameMapping =>
      (match AssignPersistentRegionIdsSpec(f, stored, uuid)
       case Failure(m) => Failure(m)
       case Ok(p) => Ok(p.0))
    case RowIndex => Ok(GeoFrame(f.columns["region_id" := RowLabels(f.height)], f.height))
  }

  /** `load_geojson_data`, as a specification. */
  function LoadGeojsonDataSpec(f: GeoFrame, stored: Option<Result<map<Cell, string>>>, uuid: nat -> string): Result<GeoFrame> {
    if "date" !in f.columns then Failure("Failed to load GeoJSON data: 'date'")
    else
      match WithRegionId(f, stored, uuid)
      case Failure(m) => Failure(m)
      case Ok(g) =>
        if AllDistinct(g.columns["region_id"]) then Ok(g)
        else Failure("'region_id' values are not unique. Please provide a unique identifier.")
  }

  lemma LoadGeojsonDataChecks(f: GeoFrame, stored: Option<Result<map<Cell, string>>>, uuid: nat -> string, g: GeoFrame)
    requires "date" in f.columns && WithRegionId(f, stored, uuid) == Ok(g)
    ensures "region_id" in g.columns && LoadGeojsonDataSpec(f, stored, uuid) == if AllDistinct(g.columns["region_id"]) then Ok(g)
      else Failure("'region_id' values are not unique. Please provide a unique identifier.")
  {
  }

  /** `load_geojson_data`: the cascade renames or adds the column in place;
      only the NAME branch calls out to the mapping loop. */
  method LoadGeojsonData(f: GeoFrame, stored: Option<Result<map<Cell, string>>>, uuid: nat -> string) returns (r: Result<GeoFrame>)
    ensures r == LoadGeojsonDataSpec(f, stored, uuid)
  {
    if "date" !in f.columns {
      return Failure("Failed to load GeoJSON data: 'date'");
    }
    var g := f;
    match RegionSourceOf(f) {
      case ExistingColumn =>
        assert WithRegionId(f, stored, uuid) == Ok(g);
      case AdminCode =>
        g := Rename(f, "ADM1_CODE", "region_id");
        assert WithRegionId(f, stored, uuid) == Ok(g);
      case NameMapping =>
        var a := AssignPersistentRegionIds(f, stored, uuid);
        if a.Failure? {
          return Failure(a.message);
        }
        g := a.value.0;
        assert WithRegionId(f, stored, uuid) == Ok(g);
      case RowIndex =>
        g := GeoFrame(f.columns["region_id" := RowLabels(f.height)], f.height);
        assert WithRegionId(f, stored, uuid) == Ok(g);
    }
    LoadGeojsonDataChecks(f, stored, uuid, g);
    if !AllDistinct(g.columns["region_id"]) {
      return Failure("'region_id' values are not unique. Please provide a unique identifier.");
    }
    r := Ok(g);
  }

  /** The load succeeds exactly when there is a date column, the cascade
      succeeds and its `region_id` column has no repeated value. */
  lemma LoadGeojsonDataUnique(f: GeoFrame, stored: Option<Result<map<Cell, string>>>, uuid: nat -> string)
    ensures LoadGeojsonDataSpec(f, stored, uuid).Ok? <==>
      ("date" in f.columns && WithRegionId(f, stored, uuid).Ok? &&
       AllDistinct(WithRegionId(f, stored, uuid).value.columns["region_id"]))
    ensures LoadGeojsonDataSpec(f, stored, uuid).Ok? ==>
      "region_id" in LoadGeojsonDataSpec(f, stored, uuid).value.columns &&
      AllDistinct(LoadGeojsonDataSpec(f, stored, uuid).value.columns["region_id"])
  {
  }

  /** The cascade takes an existing `region_id` column first, then
      ADM1_CODE, then the NAME mapping, and numbers the rows only when
      none of those exists; the row numbering always passes the
      uniqueness check. */
  lemma RegionIdCascade(f: GeoFrame, stored: Option<Result<map<Cell, string>>>, uuid: nat -> string)
    requires "date" in f.columns
    ensures RegionSourceOf(f) == ExistingColumn ==>
      (LoadGeojsonDataSpec(f, stored, uuid).Ok? <==> AllDistinct(f.columns["region_id"]))
    ensures RegionSourceOf(f) == AdminCode ==>
      (LoadGeojsonDataSpec(f, stored, uuid).Ok? <==> AllDistinct(f.columns["ADM1_CODE"]))
    ensures RegionSourceOf(f) == AdminCode && LoadGeojsonDataSpec(f, stored, uuid).Ok? ==>
      LoadGeojsonDataSpec(f, stored, uuid).value.columns["region_id"] == f.columns["ADM1_CODE"] &&
      "ADM1_CODE" !in LoadGeojsonDataSpec(f, stored, uuid).value.columns
    ensures RegionSourceOf(f) == RowIndex ==>
      LoadGeojsonDataSpec(f, stored, uuid) == Ok(GeoFrame(f.columns["region_id" := RowLabels(f.height)], f.height))
  {
  }

  // ---------------------------------------------------------------------
  // run_spatial_analysis: the observation gate

  /** The columns of one row the regression step reads or reports. */
  datatype SpatialRow = SpatialRow(regionId: Cell, commodity: string, regime: string, date: string)

  /** What the library calls report for one subset: Ridge coefficients
      and p-values for (conflict_intensity, spatial_lag_price), fit
      statistics, Moran's I of the residuals, and one residual per row. */
  datatype RegressionFit = RegressionFit(
    coefficients: (real, real), intercept: real, pValues: (real, real), rSquared: real, mse: real,
    moranI: real, moranP: real, residuals: seq<real>)

  datatype ResidualRecord = ResidualRecord(regionId: Cell, date: string, residual: real)

  datatype SpatialResult = SpatialResult(
    commodity: string, regime: string, coefficients: map<string, real>, intercept: real,
    pValues: map<string, real>, rSquared: real, mse: real, moranI: real, moranP: real,
    observations: nat, residuals: seq<ResidualRecord>)

  function Subset(rows: seq<SpatialRow>, commodity: string, regime: string): (s: seq<SpatialRow>)
    ensures |s| <= |rows|
    ensures forall x :: x in s <==> x in rows && x.commodity == commodity && x.regime == regime
    decreases |rows|
  {
    if rows == [] then []
    else
      var n := |rows| - 1;
      assert rows == rows[..n] + [rows[n]];
      Subset(rows[..n], commodity, regime) + (if rows[n].commodity == commodity && rows[n].regime == regime then [rows[n]] else [])
  }

  /** The subset of two blocks is the subset of the first followed by that
      of the second, and one row is kept exactly when commodity and regime
      match: rows keep their order and number of copies, so the row gate
      counts what the source counts. */
  lemma {:induction false} SubsetAppend(a: seq<SpatialRow>, b: seq<SpatialRow>, commodity: string, regime: string)
    ensures Subset(a + b, commodity, regime) == Subset(a, commodity, regime) + Subset(b, commodity, regime)
    decreases |b|
  {
    if b == [] {
      assert a + b == a;
    } else {
      var n := |b| - 1;
      AppendSplitLast(a, b);
      SubsetSnoc(a + b[..n], b[n], commodity, regime);
      SubsetSnoc(b[..n], b[n], commodity, regime);
      SubsetAppend(a, b[..n], commodity, regime);
      var last := if b[n].commodity == commodity && b[n].regime == regime then [b[n]] else [];
      AppendAssociates(Subset(a, commodity, regime), Subset(b[..n], commodity, regime), last);
    }
  }

  /** One more row at the end is kept exactly when commodity and regime match. */
  lemma SubsetSnoc(s: seq<SpatialRow>, x: SpatialRow, commodity: string, regime: string)
    ensures Subset(s + [x], commodity, regime) ==
      Subset(s, commodity, regime) + (if x.commodity == commodity && x.regime == regime then [x] else [])
  {
    assert (s + [x])[..|s|] == s;
  }

  /** `dict(zip(X.columns, values))` for the two predictors. */
  function Named(v: (real, real)): map<string, real> {
    map["conflict_intensity" := v.0, "spatial_lag_price" := v.1]
  }

  /** `run_spatial_analysis`: a subset below `minObs` rows is skipped; a
      failing library call (`fit` None, or residuals that do not fit the
      rows) gives None; otherwise one residual record per subset row. */
  function RunSpatialAnalysis(rows: seq<SpatialRow>, commodity: string, regime: string, minObs: nat,
                              fit: seq<SpatialRow> -> Option<RegressionFit>): (r: Option<SpatialResult>)
    ensures |Subset(rows, commodity, regime)| < minObs ==> r.None?
    ensures r.Some? <==> |Subset(rows, commodity, regime)| >= minObs && fit(Subset(rows, commodity, regime)).Some? &&
                         |fit(Subset(rows, commodity, regime)).value.residuals| == |Subset(rows, commodity, regime)|
    ensures r.Some? ==> (r.value.commodity == commodity && r.value.regime == regime &&
                         r.value.observations == |Subset(rows, commodity, regime)| >= minObs)
    ensures r.Some? ==> (fit(Subset(rows, commodity, regime)).Some? && |r.value.residuals| == r.value.observations &&
                         |fit(Subset(rows, commodity, regime)).value.residuals| == r.value.observations)
    ensures r.Some? ==> forall i :: 0 <= i < |r.value.residuals| ==>
      r.value.residuals[i] == ResidualRecord(Subset(rows, commodity, regime)[i].regionId,
        Subset(rows, commodity, regime)[i].date, fit(Subset(rows, commodity, regime)).value.residuals[i])
    ensures r.Some? ==> r.value.coefficients.Keys == r.value.pValues.Keys == {"conflict_intensity", "spatial_lag_price"}
    ensures r.Some? ==> var ft := fit(Subset(rows, commodity, regime)).value;
      r.value.coefficients["conflict_intensity"] == ft.coefficients.0 && r.value.coefficients["spatial_lag_price"] == ft.coefficients.1 &&
      r.value.pValues["conflict_intensity"] == ft.pValues.0 && r.value.pValues["spatial_lag_price"] == ft.pValues.1 &&
      r.value.intercept == ft.intercept && r.value.rSquared == ft.rSquared && r.value.mse == ft.mse &&
      r.value.moranI == ft.moranI && r.value.moranP == ft.moranP
  {
    var s := Subset(rows, commodity, regime);
    if |s| < minObs then None
    else
      match fit(s)
      case None => None
      case Some(ft) =>
        if |ft.residuals| != |s| then None
        else
          var records := seq(|s|, i requires 0 <= i < |s| => ResidualRecord(s[i].regionId, s[i].date, ft.residuals[i]));
          Some(SpatialResult(commodity, regime, Named(ft.coefficients), ft.intercept, Named(ft.pValues),
            ft.rSquared, ft.mse, ft.moranI, ft.moranP, |s|, records))
  }

  /** Every subset the older script analyses is analysed, identically, by
      the newer one: only the observation threshold differs. */
  lemma OlderGateIsStricter(rows: seq<SpatialRow>, commodity: string, regime: string, fit: seq<SpatialRow> -> Option<RegressionFit>)
    ensures RunSpatialAnalysis(rows, commodity, regime, MIN_SPATIAL_OBSERVATIONS_OLD, fit).Some? ==>
      RunSpatialAnalysis(rows, commodity, regime, MIN_SPATIAL_OBSERVATIONS, fit) ==
      RunSpatialAnalysis(rows, commodity, regime, MIN_SPATIAL_OBSERVATIONS_OLD, fit)
    ensures (5 <= |Subset(rows, commodity, regime)| < 30 && fit(Subset(rows, commodity, regime)).Some? &&
             |fit(Subset(rows, commodity, regime)).value.residuals| == |Subset(rows, commodity, regime)|) ==>
      RunSpatialAnalysis(rows, commodity, regime, MIN_SPATIAL_OBSERVATIONS_OLD, fit).None? &&
      RunSpatialAnalysis(rows, commodity, regime, MIN_SPATIAL_OBSERVATIONS, fit).Some?
  {
  }

  // ---------------------------------------------------------------------
  // main: the commodity-by-regime work list

  /** The work list of `main`, `[(c, r) for c in cs for r in rs]`:
      commodity-major. */
  function CrossProduct(cs: seq<string>, rs: seq<string>): (w: seq<(string, string)>)
    ensures |w| == |cs| * |rs|
    decreases |cs|
  {
    if cs == [] then []
    else seq(|rs|, i requires 0 <= i < |rs| => (cs[0], rs[i])) + CrossProduct(cs[1..], rs)
  }

  /** Every (commodity, regime) combination is on the work list, and
      nothing else is. */
  lemma {:induction false} CrossProductMembers(cs: seq<string>, rs: seq<string>)
    ensures forall c, r :: (c, r) in CrossProduct(cs, rs) <==> c in cs && r in rs
    decreases |cs|
  {
    if cs != [] {
      CrossProductMembers(cs[1..], rs);
      var head := seq(|rs|, i requires 0 <= i < |rs| => (cs[0], rs[i]));
      assert CrossProduct(cs, rs) == head + CrossProduct(cs[1..], rs);
      forall c, r ensures (c, r) in CrossProduct(cs, rs) <==> c in cs && r in rs {
        assert (c, r) in head <==> c == cs[0] && r in rs by {
          if c == cs[0] && r in rs {
            var i :| 0 <= i < |rs| && rs[i] == r;
            assert head[i] == (c, r);
          }
        }
        assert c in cs <==> c == cs[0] || c in cs[1..] by {
          assert cs == [cs[0]] + cs[1..];
        }
      }
    }
  }

  /** The non-None results of the work items `work`, in order. */
  function Collected(rows: seq<SpatialRow>, work: seq<(string, string)>, minObs: nat,
                     fit: seq<SpatialRow> -> Option<RegressionFit>): seq<SpatialResult>
    decreases |work|
  {
    if work == [] then []
    else
      var n := |work| - 1;
      var r := RunSpatialAnalysis(rows, work[n].0, work[n].1, minObs, fit);
      Collected(rows, work[..n], minObs, fit) + (if r.Some? then [r.value] else [])
  }

  /** The results are exactly the non-None outcomes of the work items. */
  lemma {:induction false} CollectedMeaning(rows: seq<SpatialRow>, work: seq<(string, string)>, minObs: nat,
                                           fit: seq<SpatialRow> -> Option<RegressionFit>)
    ensures |Collected(rows, work, minObs, fit)| <= |work|
    ensures forall x :: x in Collected(rows, work, minObs, fit) <==>
      exists p :: p in work && RunSpatialAnalysis(rows, p.0, p.1, minObs, fit) == Some(x)
    decreases |work|
  {
    if work != [] {
      var n := |work| - 1;
      CollectedMeaning(rows, work[..n], minObs, fit);
      assert work == work[..n] + [work[n]];
      forall x | (exists p :: p in work && RunSpatialAnalysis(rows, p.0, p.1, minObs, fit) == Some(x))
        ensures x in Collected(rows, work, minObs, fit)
      {
        var p :| p in work && RunSpatialAnalysis(rows, p.0, p.1, minObs, fit) == Some(x);
        if p != work[n] {
          assert p in work[..n];
        }
      }
    }
  }

  /** The collection loop of `main`, which passes COMMODITIES and
      EXCHANGE_RATE_REGIMES: the non-None results of the work list. The
      pool hands results back in completion order, so only the set of
      results is specified. */
  method CollectSpatialResults(rows: seq<SpatialRow>, commodities: seq<string>, regimes: seq<string>, minObs: nat,
                               fit: seq<SpatialRow> -> Option<RegressionFit>)
    returns (results: seq<SpatialResult>)
    ensures |results| <= |commodities| * |regimes|
    ensures forall x :: x in results <==>
      exists p :: p in CrossProduct(commodities, regimes) && RunSpatialAnalysis(rows, p.0, p.1, minObs, fit) == Some(x)
  {
    var work := CrossProduct(commodities, regimes);
    results := [];
    var i := 0;
    while i < |work|
      invariant 0 <= i <= |work|
      invariant results == Collected(rows, work[..i], minObs, fit)
    {
      assert work[..i + 1][..i] == work[..i];
      var r := RunSpatialAnalysis(rows, work[i].0, work[i].1, minObs, fit);
      if r.Some? {
        results := results + [r.value];
      }
      i := i + 1;
    }
    assert work[..|work|] == work;
    CollectedMeaning(rows, work, minObs, fit);
  }

  // ---------------------------------------------------------------------
  // Positional neighbour lists turned into region-id maps

  /** `{k: v for k, v in pairs}` / repeated `d[k] = v`: a later pair
      overwrites an earlier one with the same key. */
  function MapFrom<K(!new), V>(pairs: seq<(K, V)>): (m: map<K, V>)
    ensures forall k :: k in m <==> exists i :: 0 <= i < |pairs| && pairs[i].0 == k
    decreases |pairs|
  {
    if pairs == [] then map[]
    else
      var n := |pairs| - 1;
      var p := MapFrom(pairs[..n]);
      assert forall i :: 0 <= i < n ==> pairs[..n][i] == pairs[i];
      p[pairs[n].0 := pairs[n].1]
  }

  /** The value under a key is that of the last pair carrying it. */
  lemma {:induction false} MapFromLastWins<K(!new), V>(pairs: seq<(K, V)>, i: nat)
    requires i < |pairs|
    requires forall j :: i < j < |pairs| ==> pairs[j].0 != pairs[i].0
    ensures pairs[i].0 in MapFrom(pairs) && MapFrom(pairs)[pairs[i].0] == pairs[i].1
    decreases |pairs|
  {
    var n := |pairs| - 1;
    assert MapFrom(pairs) == MapFrom(pairs[..n])[pairs[n].0 := pairs[n].1];
    if i < n {
      assert pairs[..n][i] == pairs[i];
      forall j | i < j < n ensures pairs[..n][j].0 != pairs[..n][i].0 {
        assert pairs[..n][j] == pairs[j];
      }
      MapFromLastWins(pairs[..n], i);
    }
  }

  /** What KNN reports: for each row position the positions of its
      neighbours and their weights, in the same order. */
  datatype Knn = Knn(neighbors: seq<seq<nat>>, weights: seq<seq<real>>)

  /** KNN's own guarantee for a frame of `n` rows. */
  predicate KnnFits(w: Knn, n: nat) {
    |w.neighbors| == n && |w.weights| == n &&
    forall k :: 0 <= k < n ==>
      (|w.weights[k]| == |w.neighbors[k]| && forall i :: 0 <= i < |w.neighbors[k]| ==> w.neighbors[k][i] < n)
  }

  /** The (neighbour region id, weight) pairs of row `k`. */
  function WeightPairs(ids: seq<Cell>, w: Knn, k: nat): (ps: seq<(Cell, real)>)
    requires KnnFits(w, |ids|) && k < |ids|
    ensures |ps| == |w.neighbors[k]|
  {
    seq(|w.neighbors[k]|, i requires 0 <= i < |w.neighbors[k]| => (ids[w.neighbors[k][i]], w.weights[k][i]))
  }

  /** The (region id, inner map) pairs of `save_spatial_weights`. */
  function WeightRows(ids: seq<Cell>, w: Knn): (ps: seq<(Cell, map<Cell, real>)>)
    requires KnnFits(w, |ids|)
    ensures |ps| == |ids|
  {
    seq(|ids|, k requires 0 <= k < |ids| => (ids[k], MapFrom(WeightPairs(ids, w, k))))
  }

  /** `save_spatial_weights`: for each row position, the map from its
      neighbours' region ids to their weights, stored under the row's
      region id. */
  method SaveSpatialWeights(ids: seq<Cell>, w: Knn) returns (sw: map<Cell, map<Cell, real>>)
    requires KnnFits(w, |ids|)
    ensures sw == MapFrom(WeightRows(ids, w))
  {
    var rows := WeightRows(ids, w);
    sw := map[];
    var k := 0;
    while k < |ids|
      invariant 0 <= k <= |ids|
      invariant sw == MapFrom(rows[..k])
    {
      var nb := w.neighbors[k];
      var pairs := WeightPairs(ids, w, k);
      var inner: map<Cell, real> := map[];
      var i := 0;
      while i < |nb|
        invariant 0 <= i <= |nb|
        invariant inner == MapFrom(pairs[..i])
      {
        assert pairs[..i + 1][..i] == pairs[..i];
        inner := inner[ids[nb[i]] := w.weights[k][i]];
        i := i + 1;
      }
      assert pairs[..|nb|] == pairs;
      assert rows[..k + 1][..k] == rows[..k];
      sw := sw[ids[k] := inner];
      k := k + 1;
    }
    assert rows[..|ids|] == rows;
  }

  /** The keys are exactly the region ids of the rows; a region id's entry
      is the inner map of the LAST row carrying it, and in that inner map a
      neighbour's weight is the one at the last index naming it. */
  lemma SpatialWeightsMeaning(ids: seq<Cell>, w: Knn, k: nat, i: nat)
    requires KnnFits(w, |ids|)
    requires k < |ids| && forall k' :: k < k' < |ids| ==> ids[k'] != ids[k]
    requires i < |w.neighbors[k]| && forall i' :: i < i' < |w.neighbors[k]| ==> ids[w.neighbors[k][i']] != ids[w.neighbors[k][i]]
    ensures forall c :: c in MapFrom(WeightRows(ids, w)) <==> c in ids
    ensures ids[k] in MapFrom(WeightRows(ids, w))
    ensures MapFrom(WeightRows(ids, w))[ids[k]] == MapFrom(WeightPairs(ids, w, k))
    ensures ids[w.neighbors[k][i]] in MapFrom(WeightPairs(ids, w, k))
    ensures MapFrom(WeightPairs(ids, w, k))[ids[w.neighbors[k][i]]] == w.weights[k][i]
  {
    WeightRowsKeys(ids, w);
    MapFromLastWins(WeightRows(ids, w), k);
    MapFromLastWins(WeightPairs(ids, w, k), i);
  }

  lemma WeightRowsKeys(ids: seq<Cell>, w: Knn)
    requires KnnFits(w, |ids|)
    ensures forall c :: c in MapFrom(WeightRows(ids, w)) <==> c in ids
  {
    var rows := WeightRows(ids, w);
    forall c | c in ids ensures c in MapFrom(rows) {
      var j :| 0 <= j < |ids| && ids[j] == c;
      assert rows[j].0 == c;
    }
  }

  /** One line of the flow table. */
  datatype FlowRow = FlowRow(
    source: Cell, sourceLat: real, sourceLng: real, target: Cell, targetLat: real, targetLng: real, weight: real)

  /** The lines of row `k`, one per neighbour; `centroid` gives each row's
      (latitude, longitude). */
  function FlowRowsOf(ids: seq<Cell>, w: Knn, centroid: nat -> (real, real), k: nat): (rs: seq<FlowRow>)
    requires KnnFits(w, |ids|) && k < |ids|
    ensures |rs| == |w.neighbors[k]|
  {
    var nb := w.neighbors[k];
    seq(|nb|, i requires 0 <= i < |nb| =>
      FlowRow(ids[k], centroid(k).0, centroid(k).1, ids[nb[i]], centroid(nb[i]).0, centroid(nb[i]).1, w.weights[k][i]))
  }

  /** The lines of the first `n` rows. */
  function FlowUpTo(ids: seq<Cell>, w: Knn, centroid: nat -> (real, real), n: nat): seq<FlowRow>
    requires KnnFits(w, |ids|) && n <= |ids|
    decreases n
  {
    if n == 0 then [] else FlowUpTo(ids, w, centroid, n - 1) + FlowRowsOf(ids, w, centroid, n - 1)
  }

  /** The number of neighbour entries of the first `n` rows. */
  function NeighbourCount(nb: seq<seq<nat>>, n: nat): nat
    requires n <= |nb|
    decreases n
  {
    if n == 0 then 0 else NeighbourCount(nb, n - 1) + |nb[n - 1]|
  }

  /** `save_flow_map`: one line per (row, neighbour), in row order. */
  method SaveFlowMap(ids: seq<Cell>, w: Knn, centroid: nat -> (real, real)) returns (flow: seq<FlowRow>)
    requires KnnFits(w, |ids|)
    ensures flow == FlowUpTo(ids, w, centroid, |ids|)
  {
    flow := [];
    var k := 0;
    while k < |ids|
      invariant 0 <= k <= |ids|
      invariant flow == FlowUpTo(ids, w, centroid, k)
    {
      var nb := w.neighbors[k];
      var i := 0;
      while i < |nb|
        invariant 0 <= i <= |nb|
        invariant flow == FlowUpTo(ids, w, centroid, k) + FlowRowsOf(ids, w, centroid, k)[..i]
      {
        assert FlowRowsOf(ids, w, centroid, k)[..i + 1] == FlowRowsOf(ids, w, centroid, k)[..i] + [FlowRowsOf(ids, w, centroid, k)[i]];
        flow := flow + [FlowRow(ids[k], centroid(k).0, centroid(k).1, ids[nb[i]], centroid(nb[i]).0, centroid(nb[i]).1, w.weights[k][i])];
        i := i + 1;
      }
      assert FlowRowsOf(ids, w, centroid, k)[..|nb|] == FlowRowsOf(ids, w, centroid, k);
      k := k + 1;
    }
  }

  /** The table has one line per neighbour entry, and the line of
      neighbour `i` of row `k` sits after the lines of all earlier rows,
      pairing the two rows' region ids with `weights[k][i]`. */
  lemma {:induction false} FlowMapLayout(ids: seq<Cell>, w: Knn, centroid: nat -> (real, real), n: nat, k: nat, i: nat)
    requires KnnFits(w, |ids|) && n <= |ids|
    requires k < n && i < |w.neighbors[k]|
    ensures |FlowUpTo(ids, w, centroid, n)| == NeighbourCount(w.neighbors, n)
    ensures NeighbourCount(w.neighbors, k) + i < |FlowUpTo(ids, w, centroid, n)|
    ensures FlowUpTo(ids, w, centroid, n)[NeighbourCount(w.neighbors, k) + i].source == ids[k]
    ensures FlowUpTo(ids, w, centroid, n)[NeighbourCount(w.neighbors, k) + i].target == ids[w.neighbors[k][i]]
    ensures FlowUpTo(ids, w, centroid, n)[NeighbourCount(w.neighbors, k) + i].weight == w.weights[k][i]
    decreases n
  {
    FlowLength(ids, w, centroid, n - 1);
    if k < n - 1 {
      FlowMapLayout(ids, w, centroid, n - 1, k, i);
      NeighbourCountMonotone(w.neighbors, k + 1, n - 1);
    }
  }

  lemma {:induction false} FlowLength(ids: seq<Cell>, w: Knn, centroid: nat -> (real, real), n: nat)
    requires KnnFits(w, |ids|) && n <= |ids|
    ensures |FlowUpTo(ids, w, centroid, n)| == NeighbourCount(w.neighbors, n)
    decreases n
  {
    if n > 0 {
      FlowLength(ids, w, centroid, n - 1);
    }
  }

  lemma {:induction false} NeighbourCountMonotone(nb: seq<seq<nat>>, a: nat, b: nat)
    requires a <= b <= |nb|
    ensures NeighbourCount(nb, a) <= NeighbourCount(nb, b)
    decreases b
  {
    if a < b {
      NeighbourCountMonotone(nb, a, b - 1);
    }
  }
}

=== FILE: stationarity.dfy ===
/** The stationarity-transformation selector shared by both ECM scripts
    (`run_stationarity_tests`): a fixed candidate order, log candidates only
    for strictly positive series, ADF and KPSS outcomes supplied by an oracle,
    the first qualifying candidate wins and `original` is the fallback. */
module Stationarity {
  import opened Common

  datatype Transform = Original | Diff | Log | LogDiff

  /** What the ADF and KPSS library calls report for one candidate series:
      either one of them raised, or both returned (statistic, p-value). */
  datatype TestOutcome = Threw | Tested(adfStat: real, adfP: real, kpssStat: real, kpssP: real)

  /** The audit entry `results[transform_name]`. */
  datatype TestRecord = TestRecord(
    adfStat: real, adfP: real, adfStationary: bool,
    kpssStat: real, kpssP: real, kpssStationary: bool)

  datatype StationarityResult = StationarityResult(
    transformation: Transform, series: seq<real>, results: map<Transform, TestRecord>)

  /** The partial state of the selection loop: what was selected (if any) and
      the audit entries written so far. */
  datatype Scanned = Scanned(selected: Option<Transform>, results: map<Transform, TestRecord>)

  function RecordOf(o: TestOutcome): (r: TestRecord)
    requires o.Tested?
    ensures r.adfStationary <==> r.adfP < SIGNIFICANCE
    ensures r.kpssStationary <==> r.kpssP > SIGNIFICANCE
  {
    TestRecord(o.adfStat, o.adfP, o.adfP < SIGNIFICANCE, o.kpssStat, o.kpssP, o.kpssP > SIGNIFICANCE)
  }

  /** ADF rejects a unit root and KPSS does not reject stationarity. */
  predicate Qualifies(o: TestOutcome) {
    o.Tested? && o.adfP < SIGNIFICANCE && o.kpssP > SIGNIFICANCE
  }

  predicate AllPositive(vals: seq<real>) {
    forall i :: 0 <= i < |vals| ==> vals[i] > 0.0
  }

  /** The candidate list in the order the dictionary is built. */
  function Candidates(vals: seq<real>): seq<Transform> {
    if AllPositive(vals) then [Original, Diff, Log, LogDiff] else [Original, Diff]
  }

  /** `series.diff().dropna()` on a series without NaN. */
  function Differences(vals: seq<real>): (d: seq<real>)
    ensures |d| == if |vals| == 0 then 0 else |vals| - 1
    ensures forall i :: 0 <= i < |d| ==> d[i] == vals[i + 1] - vals[i]
  {
    if |vals| <= 1 then [] else seq(|vals| - 1, i requires 0 <= i < |vals| - 1 => vals[i + 1] - vals[i])
  }

  /** `np.log` applied element-wise; the logarithm itself is a parameter. */
  function MapLog(ln: real -> real, vals: seq<real>): (r: seq<real>)
    ensures |r| == |vals|
    ensures forall i :: 0 <= i < |vals| ==> r[i] == ln(vals[i])
  {
    seq(|vals|, i requires 0 <= i < |vals| => ln(vals[i]))
  }

  function Apply(t: Transform, vals: seq<real>, ln: real -> real): seq<real> {
    match t
    case Original => vals
    case Diff => Differences(vals)
    case Log => MapLog(ln, vals)
    case LogDiff => Differences(MapLog(ln, vals))
  }

  /** Index of the first qualifying candidate, |cands| when there is none. */
  function FirstQualifying(cands: seq<Transform>, tests: Transform -> TestOutcome): (k: nat)
    ensures k <= |cands|
    ensures forall j :: 0 <= j < k ==> !Qualifies(tests(cands[j]))
    ensures k < |cands| ==> Qualifies(tests(cands[k]))
  {
    if cands == [] then 0
    else if Qualifies(tests(cands[0])) then 0
    else 1 + FirstQualifying(cands[1..], tests)
  }

  /** The loop of `run_stationarity_tests`, read as a recursion on the
      remaining candidates. Later entries overwrite earlier ones, as in a dict. */
  function Scan(cands: seq<Transform>, tests: Transform -> TestOutcome): Scanned
  {
    if cands == [] then Scanned(None, map[])
    else
      var o := tests(cands[0]);
      if o.Threw? then Scan(cands[1..], tests)
      else if Qualifies(o) then Scanned(Some(cands[0]), map[cands[0] := RecordOf(o)])
      else
        var rest := Scan(cands[1..], tests);
        Scanned(rest.selected, map[cands[0] := RecordOf(o)] + rest.results)
  }

  /** Candidates up to and including the selected one (all of them when none qualifies). */
  function Evaluated(cands: seq<Transform>, tests: Transform -> TestOutcome): seq<Transform> {
    var k := FirstQualifying(cands, tests);
    if k < |cands| then cands[..k + 1] else cands
  }

  /** The evaluated candidates, one step at a time. */
  lemma EvaluatedCons(cands: seq<Transform>, tests: Transform -> TestOutcome)
    requires cands != []
    ensures Qualifies(tests(cands[0])) ==> Evaluated(cands, tests) == [cands[0]]
    ensures !Qualifies(tests(cands[0])) ==> Evaluated(cands, tests) == [cands[0]] + Evaluated(cands[1..], tests)
  {
    if !Qualifies(tests(cands[0])) {
      var k' := FirstQualifying(cands[1..], tests);
      assert FirstQualifying(cands, tests) == k' + 1;
      if k' < |cands[1..]| {
        assert cands[..k' + 2] == [cands[0]] + cands[1..][..k' + 1];
      } else {
        assert cands == [cands[0]] + cands[1..];
      }
    }
  }

  /** The loop selects the first qualifying candidate, if any. */
  lemma {:induction false} ScanSelected(cands: seq<Transform>, tests: Transform -> TestOutcome)
    ensures var k := FirstQualifying(cands, tests);
            Scan(cands, tests).selected == if k < |cands| then Some(cands[k]) else None
    decreases |cands|
  {
    if cands != [] && !Qualifies(tests(cands[0])) {
      ScanSelected(cands[1..], tests);
      var k' := FirstQualifying(cands[1..], tests);
      assert FirstQualifying(cands, tests) == k' + 1;
      if k' < |cands[1..]| {
        assert cands[k' + 1] == cands[1..][k'];
      }
    }
  }

  /** The audit map holds exactly the evaluated candidates whose tests did
      not throw, each with its own record. */
  lemma {:induction false} ScanResults(cands: seq<Transform>, tests: Transform -> TestOutcome)
    ensures forall c :: c in Scan(cands, tests).results <==>
              c in Evaluated(cands, tests) && tests(c).Tested?
    ensures forall c :: c in Scan(cands, tests).results ==>
              tests(c).Tested? && Scan(cands, tests).results[c] == RecordOf(tests(c))
    decreases |cands|
  {
    if cands != [] {
      EvaluatedCons(cands, tests);
      if !Qualifies(tests(cands[0])) {
        ScanResults(cands[1..], tests);
      }
    }
  }

  /** The selection is the first qualifying candidate; the audit map holds
      exactly the evaluated candidates whose tests did not throw, each with
      its own test record. */
  lemma ScanSpec(cands: seq<Transform>, tests: Transform -> TestOutcome)
    ensures var k := FirstQualifying(cands, tests);
            Scan(cands, tests).selected == if k < |cands| then Some(cands[k]) else None
    ensures forall c :: c in Scan(cands, tests).results <==>
              c in Evaluated(cands, tests) && tests(c).Tested?
    ensures forall c :: c in Scan(cands, tests).results ==>
              tests(c).Tested? && Scan(cands, tests).results[c] == RecordOf(tests(c))
  {
    ScanSelected(cands, tests);
    ScanResults(cands, tests);
  }

  /** `run_stationarity_tests` as a value: None exactly for a series with NaN
      or infinite values. */
  function Classify(series: seq<Num>, tests: Transform -> TestOutcome, ln: real -> real): (r: Option<StationarityResult>)
    ensures r.None? <==> !AllReal(series)
  {
    if !AllReal(series) then None
    else
      var vals := Values(series);
      var s := Scan(Candidates(vals), tests);
      var chosen := s.selected.GetOr(Original);
      Some(StationarityResult(chosen, Apply(chosen, vals, ln), s.results))
  }

  /** Combining the entries written so far with the scan of what remains. */
  function Resume(acc: map<Transform, TestRecord>, s: Scanned): Scanned {
    Scanned(s.selected, acc + s.results)
  }

  /** One step of the scan at position `n`. */
  lemma ScanAt(cands: seq<Transform>, tests: Transform -> TestOutcome, n: nat)
    requires n < |cands|
    ensures tests(cands[n]).Threw? ==> Scan(cands[n..], tests) == Scan(cands[n + 1..], tests)
    ensures Qualifies(tests(cands[n])) ==>
      Scan(cands[n..], tests) == Scanned(Some(cands[n]), map[cands[n] := RecordOf(tests(cands[n]))])
    ensures tests(cands[n]).Tested? && !Qualifies(tests(cands[n])) ==>
      Scan(cands[n..], tests) ==
        Scanned(Scan(cands[n + 1..], tests).selected, map[cands[n] := RecordOf(tests(cands[n]))] + Scan(cands[n + 1..], tests).results)
  {
    assert cands[n..][0] == cands[n];
    assert cands[n..][1..] == cands[n + 1..];
  }

  /** The candidate loop with `break` of `run_stationarity_tests`: the
      selection and audit entries it leaves are those of the scan. */
  method ScanCandidates(cands: seq<Transform>, tests: Transform -> TestOutcome)
    returns (selected: Option<Transform>, results: map<Transform, TestRecord>)
    ensures Scanned(selected, results) == Scan(cands, tests)
  {
    results := map[];
    selected := None;
    var n := 0;
    assert cands[0..] == cands;
    while n < |cands|
      invariant 0 <= n <= |cands|
      invariant selected.None? ==> Scan(cands, tests) == Resume(results, Scan(cands[n..], tests))
      invariant selected.Some? ==> Scan(cands, tests) == Scanned(selected, results)
    {
      var o := tests(cands[n]);
      ScanAt(cands, tests, n);
      if o.Tested? {
        ghost var rest := Scan(cands[n + 1..], tests);
        ghost var prev := results;
        results := results[cands[n] := RecordOf(o)];
        if Qualifies(o) {
          assert prev + map[cands[n] := RecordOf(o)] == results;
          selected := Some(cands[n]);
          break;
        }
        assert prev + (map[cands[n] := RecordOf(o)] + rest.results) == results + rest.results;
      }
      n := n + 1;
    }
    if selected.None? {
      assert cands[n..] == [];
      assert results + map[] == results;
    }
  }

  /** `run_stationarity_tests`: the NaN/inf check, then the candidate loop. */
  method RunStationarityTests(series: seq<Num>, tests: Transform -> TestOutcome, ln: real -> real)
    returns (r: Option<StationarityResult>)
    ensures r == Classify(series, tests, ln)
  {
    var i := 0;
    while i < |series|
      invariant 0 <= i <= |series|
      invariant forall j :: 0 <= j < i ==> series[j].Real?
    {
      if !series[i].Real? {
        return None;
      }
      i := i + 1;
    }
    var vals := Values(series);
    var selected, results := ScanCandidates(Candidates(vals), tests);
    var chosen := selected.GetOr(Original);
    r := Some(StationarityResult(chosen, Apply(chosen, vals, ln), results));
  }

  /** A series with NaN or inf gives no result; any other series gets one
      selected transformation that is one of its candidates, and the
      returned values are that candidate's values. */
  lemma SelectionIsACandidate(series: seq<Num>, tests: Transform -> TestOutcome, ln: real -> real)
    requires AllReal(series)
    ensures var r := Classify(series, tests, ln);
            r.Some? && r.value.transformation in Candidates(Values(series)) &&
            r.value.series == Apply(r.value.transformation, Values(series), ln)
  {
    ScanSpec(Candidates(Values(series)), tests);
  }

  /** The first candidate (in the fixed order) whose ADF and KPSS outcomes
      qualify is selected, and no later candidate gets an audit entry. */
  lemma {:induction false} FirstQualifyingIsSelected(series: seq<Num>, tests: Transform -> TestOutcome, ln: real -> real, k: nat)
    requires AllReal(series)
    requires k < |Candidates(Values(series))| && Qualifies(tests(Candidates(Values(series))[k]))
    requires forall j :: 0 <= j < k ==> !Qualifies(tests(Candidates(Values(series))[j]))
    ensures var r := Classify(series, tests, ln);
            r.Some? && r.value.transformation == Candidates(Values(series))[k]
    ensures var r := Classify(series, tests, ln);
            forall j :: k < j < |Candidates(Values(series))| ==> Candidates(Values(series))[j] !in r.value.results
  {
    var cands := Candidates(Values(series));
    ScanSpec(cands, tests);
    var f := FirstQualifying(cands, tests);
    assert f == k;
    forall j | k < j < |cands| ensures cands[j] !in Scan(cands, tests).results {
      assert cands[j] !in cands[..k + 1];
    }
  }

  /** When no candidate qualifies, `original` is selected and every
      candidate whose tests did not throw has an audit entry. */
  lemma NoneQualifiesFallsBackToOriginal(series: seq<Num>, tests: Transform -> TestOutcome, ln: real -> real)
    requires AllReal(series)
    requires forall j :: 0 <= j < |Candidates(Values(series))| ==> !Qualifies(tests(Candidates(Values(series))[j]))
    ensures var r := Classify(series, tests, ln);
            r.Some? && r.value.transformation == Original && r.value.series == Values(series)
    ensures var r := Classify(series, tests, ln);
            forall c :: c in r.value.results <==> c in Candidates(Values(series)) && tests(c).Tested?
  {
    ScanSpec(Candidates(Values(series)), tests);
  }

  /** A candidate whose tests throw gets no audit entry. */
  lemma ThrowingCandidateHasNoEntry(series: seq<Num>, tests: Transform -> TestOutcome, ln: real -> real, c: Transform)
    requires AllReal(series) && tests(c).Threw?
    ensures c !in Classify(series, tests, ln).value.results
  {
    ScanSpec(Candidates(Values(series)), tests);
  }

  /** Log candidates are attempted only when every value is strictly positive. */
  lemma NoLogUnlessPositive(series: seq<Num>, tests: Transform -> TestOutcome, ln: real -> real)
    requires AllReal(series) && !AllPositive(Values(series))
    ensures var r := Classify(series, tests, ln);
            Log !in r.value.results && LogDiff !in r.value.results &&
            r.value.transformation in {Original, Diff}
  {
    ScanSpec(Candidates(Values(series)), tests);
  }

  /** A series already stationary as it is selects `original` without
      evaluating `diff`. */
  lemma StationaryOriginalShortCircuits(series: seq<Num>, tests: Transform -> TestOutcome, ln: real -> real)
    requires AllReal(series) && Qualifies(tests(Original))
    ensures var r := Classify(series, tests, ln);
            r.Some? && r.value.transformation == Original && r.value.results.Keys == {Original}
  {
    var cands := Candidates(Values(series));
    ScanSpec(cands, tests);
    assert Evaluated(cands, tests) == [Original];
  }
}
